=== FILE: README.md ===
# SocialMediaBackend feed core, modelled in Dafny

This project models the Redis-backed post feed of SocialMediaBackend (an
ASP.NET Core API with an Azure Functions worker) and the code around it:

- the feed cache (`CacheService`): a sorted-set index of post ids scored by
  Unix milliseconds, post bodies, per-post rings of the six latest
  comments, capacity eviction, range reads, deletes and prefix deletion;
- the feed itself (`PostService.GetAllPostsAsync`): the Base64 page token
  holding a round-trip ("o") timestamp, the cache-hit path, the SQL
  fallback ordered by comment count, the image-URL rewrite and the next
  token; and post creation (`CreatePostAsync`) under the retry policy;
- the retry policy (`RetryPolicies.CreateRetryPolicy`): five handled
  exception classes, one try plus three retries, waits of 2, 4 and 8 s;
- the comment write path (`CommentService.CreateCommentAsync`: send to the
  queue, then push to the ring, retried as one unit) and the queue
  consumer (`CommentFunction.RunAsync`: dead-letter, complete or abandon);
- the upload-URL file-type check and the image deletion of
  `BlobStorageService`.

Every store, the clock, the local time zone and new GUIDs are parameters.
Each call into Redis, SQL Server or Service Bus takes a `Fault`:
`FailAfter(k, e)` means the call's first `k` commands take effect and then
`e` is thrown, which covers both a failure before anything happens and a
timeout after the server applied everything. Retried actions are functions
of the state they start from and of the attempt number. So every property
holds for every sequence of store outcomes, at the grain of the commands
the model separates (the concurrent `DEL`s of an eviction are one step; see
`CacheService.AddPost` under "Left out").

Modules follow the program: `Base`, `Strings`, `Sorting`, `DateTimes`,
`Base64`, `Cursor`, `Entities`, `FeedIndex` (the Redis sorted set),
`CacheService`, `Database` (the SQL tables behind `AppDbContext`),
`RetryPolicies`, `PostService`, `CommentService`, `CommentFunction` and
`BlobStorageService`.

Some behaviours of the code are worth noting; the model follows them:

- A cached id whose body is missing is not skipped. Hydration dereferences
  the null body and the whole page fails (`PostService.MissingBodyFails`).
- Errors from cache reads are not swallowed on the way to the SQL
  fallback. They propagate out of `GetAllPostsAsync`.
- The retry policy runs an action up to four times: one try and three
  retries.
- The cache range is inclusive (score ≤ bound), while the SQL fallback is
  strict (`CreatedAt < T`). When the cache answers without faults and the
  token's time converts, the next page starts with a post of the previous
  page that has the last post's millisecond, and with that very post when
  no other cached post shares it (`PostService.PageBoundaryRepeats`).

## Model

| member | source | states |
|---|---|---|
| Base.Take | SocialMediaBackend.API/Services/PostService.cs:54 | `Take(count)` keeps a prefix of length min(count, n), and nothing for a count ≤ 0 |
| Base.Filter | SocialMediaBackend.API/Services/PostService.cs:79 | `Where` keeps exactly the elements satisfying the predicate, drawn from the input |
| Base.FilterAppend | SocialMediaBackend.API/Services/PostService.cs:79 | `Where` distributes over concatenation, so kept elements stay in their order |
| Base.FilterCounts | SocialMediaBackend.API/Services/PostService.cs:79 | `Where` keeps every occurrence of a satisfying element and none of any other |
| Strings.ReplaceAbsent | SocialMediaBackend.API/Services/PostService.cs:113 | `Replace` leaves a URL that does not contain the old container name unchanged |
| Strings.ReplaceSelf | SocialMediaBackend.API/Services/PostService.cs:113 | replacing a name by itself changes nothing |
| Strings.ReplaceFirst | SocialMediaBackend.API/Services/PostService.cs:113 | `Replace` substitutes the first occurrence and continues after it, so every occurrence is replaced left to right |
| Strings.ToLower | SocialMediaBackend.API/Services/BlobStorageService.cs:32 | lower-casing keeps the length and maps each character on its own |
| Strings.Utf16Length | SocialMediaBackend.API/Models/Comment.cs:13 | a text's .NET length is between its character count and twice that, and equal to it without characters above U+FFFF |
| Strings.Utf16LengthAppend | SocialMediaBackend.API/Models/Comment.cs:13 | the length of joined texts is the sum of their lengths |
| Sorting.SortDesc | SocialMediaBackend.API/Services/PostService.cs:53 | `OrderByDescending` returns a permutation of its input, sorted by a descending key |
| Sorting.TopSpec | SocialMediaBackend.API/Services/PostService.cs:53-54 | `OrderByDescending(key).Take(n)` returns min(n, len) elements, sorted, drawn from the input, and none left out has a larger key |
| DateTimes.ToUnixTimeMilliseconds | SocialMediaBackend.API/Services/PostService.cs:34 | `new DateTimeOffset(dt).ToUnixTimeMilliseconds()` is the floor of the UTC instant in milliseconds since 1970; it fails with ArgumentOutOfRange exactly when the UTC instant leaves the `DateTime` range |
| DateTimes.UnixMillisecondsMonotone | SocialMediaBackend.API/Services/PostService.cs:34 | a later instant never has smaller Unix milliseconds |
| DateTimes.TicksToFields | SocialMediaBackend.API/Services/PostService.cs:168 | every tick count splits into valid calendar fields that give back the same tick count |
| DateTimes.FieldsRoundTrip | SocialMediaBackend.API/Services/PostService.cs:168 | calendar fields give back the same fields after a round trip through ticks |
| DateTimes.ParseOfFormat | SocialMediaBackend.API/Services/PostService.cs:163-168 | parsing the 27-character "o" body of valid fields gives back those fields |
| DateTimes.FormatOfParse | SocialMediaBackend.API/Services/PostService.cs:163-168 | a string that parses as an "o" body is the formatting of what it parses to |
| DateTimes.ParseFieldsIff | SocialMediaBackend.API/Services/PostService.cs:163-168 | parsing gives f exactly when f is valid and formats to the string |
| DateTimes.OffsetRoundTrip | SocialMediaBackend.API/Services/PostService.cs:163-168 | the "+hh:mm" suffix `ToString("o")` writes for a zone offset reads back as that offset |
| DateTimes.ParseOffset | SocialMediaBackend.API/Services/PostService.cs:163 | an offset suffix is "+hh:mm" or the one-digit-hour "+h:mm", and a negative sign gives a negative offset |
| DateTimes.ParseSuffix | SocialMediaBackend.API/Services/PostService.cs:163 | no suffix gives Unspecified; "Z" or an offset give Local; an accepted offset lies within ±14:00, and every failure is a FormatException |
| DateTimes.OneDigitHour | SocialMediaBackend.API/Services/PostService.cs:163 | "+h:mm" reads as the same offset as "+0h:mm" |
| DateTimes.ParseRoundTrip | SocialMediaBackend.API/Services/PostService.cs:163 | `ParseExact(s, "o", null)` fails with FormatException, or parses a 27-character body; without a suffix the result is Unspecified, and with "Z" or an offset it is Local |
| DateTimes.RoundTripInstant | SocialMediaBackend.API/Services/PostService.cs:163-168 | parsing the "o" text of a timestamp gives it back when it is Unspecified or Local, and gives the equal local time when it is Utc; the UTC instant is always preserved |
| DateTimes.FormatRoundTripAscii | SocialMediaBackend.API/Services/PostService.cs:168 | the "o" text is ASCII, so its UTF-8 bytes are its characters |
| Base64.Encode | SocialMediaBackend.API/Services/PostService.cs:168 | `ToBase64String` output has 4·⌈n/3⌉ characters |
| Base64.DecodeEncode | SocialMediaBackend.API/Services/PostService.cs:162-168 | decoding the encoding of any bytes gives back those bytes |
| Base64.EncodeDecode | SocialMediaBackend.API/Services/PostService.cs:162 | a white-space-free string that decodes is the encoding of what it decodes to |
| Base64.DecodeIff | SocialMediaBackend.API/Services/PostService.cs:162-168 | on white-space-free text, decoding yields b exactly when `ToBase64String(b)` is that text |
| Base64.FromBase64Iff | SocialMediaBackend.API/Services/PostService.cs:162 | `FromBase64String(s)` yields b exactly when s without its white space is `ToBase64String(b)` |
| Base64.FromBase64OfEncode | SocialMediaBackend.API/Services/PostService.cs:162-168 | `FromBase64String` reads back what `ToBase64String` writes |
| Base64.SpaceIgnored | SocialMediaBackend.API/Services/PostService.cs:162 | a space, tab, CR or LF anywhere in the text does not change what `FromBase64String` yields |
| Base64.StripEncoded | SocialMediaBackend.API/Services/PostService.cs:168 | `ToBase64String` output holds no white space |
| Base64.AsciiRoundTrip | SocialMediaBackend.API/Services/PostService.cs:163-168 | UTF-8 encoding then decoding an ASCII string gives it back |
| Cursor.GenerateCursor | SocialMediaBackend.API/Services/PostService.cs:166-169 | a page token is nonempty, padded Base64 text |
| Cursor.DecodeCursor | SocialMediaBackend.API/Services/PostService.cs:157-164 | a null or empty token means now in UTC; anything else must be Base64 (white space skipped) of an "o" string, and otherwise a FormatException is raised |
| Cursor.CursorTextOfGenerate | SocialMediaBackend.API/Services/PostService.cs:162-168 | decoding a token's Base64 and UTF-8 gives back the "o" text it was made from |
| Cursor.CursorRoundTrip | SocialMediaBackend.API/Services/PostService.cs:157-169 | a token decodes to the same instant it was made from, with the full tick precision; Utc timestamps come back as Local |
| Entities.CommentJson | SocialMediaBackend.API/Services/CommentService.cs:47 | the serialized comment starts with its `Id` property, written unescaped |
| Entities.JsonContainsId | SocialMediaBackend.API/Services/CacheService.cs:119 | a stored comment's JSON contains its id, so `DeleteCommentAsync(postId, id)` finds it |
| Entities.JsonContainsContent | SocialMediaBackend.API/Services/CacheService.cs:119 | a comment's JSON contains its escaped content, which is the content itself when nothing in it needs escaping, so text in a comment can also match |
| Entities.JsonContentReadsBack | SocialMediaBackend.API/Services/CommentService.cs:47 | a JSON reader gets the content back from its place in the comment's JSON |
| Json.Escape | SocialMediaBackend.API/Services/CommentService.cs:47 | text with nothing to escape is written as it is, and escaping never shortens text |
| Json.EscapeChar | SocialMediaBackend.API/Services/CommentService.cs:47 | a character is written as itself exactly when it needs no escape; otherwise its escape starts with a backslash |
| Json.UnescapeEscape | SocialMediaBackend.API/Services/CommentService.cs:47 | reading the escaped text back gives exactly the original string |
| Json.EscapedQuotes | SocialMediaBackend.API/Services/CommentService.cs:47 | every quote in escaped text is written as `\"`, preceded by a backslash |
| Json.ClosingQuote | SocialMediaBackend.API/Services/CommentService.cs:47 | a JSON reader's end of string is a quote, found by stepping over backslash pairs and single characters |
| Json.ClosingQuoteChar | SocialMediaBackend.API/Services/CommentService.cs:47 | what the writer puts down for one character holds no quote that closes the string |
| Json.EscapedStringEnds | SocialMediaBackend.API/Services/CommentService.cs:47 | in escaped text followed by a quote, the reader takes that quote, and no earlier character, as the end of the string |
| FeedIndex.ScoreOf | SocialMediaBackend.API/Services/CacheService.cs:46 | a member's score is present exactly when the member is in the set |
| FeedIndex.Insert | SocialMediaBackend.API/Services/CacheService.cs:46 | inserting a new member keeps the set in (score, member) order and adds exactly that entry |
| FeedIndex.Remove | SocialMediaBackend.API/Services/CacheService.cs:104 | `ZREM` keeps the order and removes exactly the member's entries |
| FeedIndex.RemoveSize | SocialMediaBackend.API/Services/CacheService.cs:104 | removing shrinks the set by one exactly when the member was present |
| FeedIndex.Add | SocialMediaBackend.API/Services/CacheService.cs:46 | `ZADD` yields an ordered set whose entries are the old ones without the member, plus the member with its new score |
| FeedIndex.AddSpec | SocialMediaBackend.API/Services/CacheService.cs:46 | after `ZADD` the member has exactly the given score, other entries stay, nothing else appears, and the size grows only for a new member |
| FeedIndex.RemoveMembers | SocialMediaBackend.API/Services/CacheService.cs:133 | removing a set of members keeps exactly the entries of other members |
| FeedIndex.RemovePrefixMembers | SocialMediaBackend.API/Services/CacheService.cs:130-133 | removing the members of the lowest k entries leaves exactly the rest |
| FeedIndex.Oldest | SocialMediaBackend.API/Services/CacheService.cs:127-130 | the rank range 0..n−max−1 holds n − max entries when the set is over capacity, and none otherwise |
| FeedIndex.EvictKeepsHighest | SocialMediaBackend.API/Services/CacheService.cs:125-133 | eviction leaves max entries when the set is over capacity and changes nothing otherwise; every evicted entry ranks below every kept one, and every entry is either kept or evicted |
| FeedIndex.RangeDesc | SocialMediaBackend.API/Services/CacheService.cs:57-63 | `ZRANGEBYSCORE -inf bound` in descending order returns the highest-ranked entries with score ≤ bound, reading down from the top |
| FeedIndex.RangeDescSpec | SocialMediaBackend.API/Services/CacheService.cs:53-66 | the range holds only entries with score ≤ bound (inclusive), in descending rank, at most `limit` of them; any qualifying entry left out ranks below all returned ones and the page is full |
| FeedIndex.RangeSound | SocialMediaBackend.API/Services/CacheService.cs:57-63 | every returned entry is in the set with score ≤ bound |
| FeedIndex.RangeOrdered | SocialMediaBackend.API/Services/CacheService.cs:62 | returned entries are strictly descending in (score, member) order |
| FeedIndex.RangeTop | SocialMediaBackend.API/Services/CacheService.cs:63 | only a full page leaves qualifying entries out, and those rank below all returned ones |
| FeedIndex.NextPageStartsAtLast | SocialMediaBackend.API/Services/CacheService.cs:57-63 | querying again with the last entry's score as bound starts with an entry of that score from the previous page, and with that very entry when its score is unique |
| CacheService.InvalidateOldData | SocialMediaBackend.API/Services/CacheService.cs:125-146 | eviction leaves a well-formed cache: an ordered index with one entry per member |
| CacheService.InvalidateOldDataSpec | SocialMediaBackend.API/Services/CacheService.cs:125-146 | an index within capacity is untouched; one over it shrinks to `MaxSize` by evicting exactly n − MaxSize ids; evicted ids lose their body and ring; other ids keep theirs; evicted entries rank below every kept entry |
| CacheService.AddPost | SocialMediaBackend.API/Services/CacheService.cs:44-51 | `AddPostAsync` keeps the cache well formed after each of its commands and raises exactly the fault's exception |
| CacheService.InterruptedEvictionOrphans | SocialMediaBackend.API/Services/CacheService.cs:133-143 | a fault between the eviction's `ZREM` and its `DEL`s leaves the evicted posts' bodies and comment lists in place but out of the index |
| CacheService.AddPostSpec | SocialMediaBackend.API/Services/CacheService.cs:44-51 | `AddPostAsync` upserts and then evicts: unless just evicted, the id has exactly the new score and the body is stored; re-adding an id does not grow the index; the final size is min(size, MaxSize) |
| CacheService.NewestSurvives | SocialMediaBackend.API/Services/CacheService.cs:44-51 | with a capacity of at least one, a post newer than every indexed post is never the one evicted |
| CacheService.GetPaginatedPosts | SocialMediaBackend.API/Services/CacheService.cs:53-66 | the range read succeeds exactly when Redis answers; a null cursor means no upper bound |
| CacheService.GetPaginatedPostsSpec | SocialMediaBackend.API/Services/CacheService.cs:53-66 | the ids returned are those of index entries with score ≤ the cursor, or ≤ `long.MaxValue` without one, highest first, at most `limit`, and no better-ranked qualifying entry is skipped |
| CacheService.GetPostById | SocialMediaBackend.API/Services/CacheService.cs:68-78 | a miss reads as null and a hit returns the stored body |
| CacheService.GetLatestComments | SocialMediaBackend.API/Services/CacheService.cs:88-100 | returns the first min(2, len) ring entries in ring order, or an empty list without a ring |
| CacheService.AddCommentToPost | SocialMediaBackend.API/Services/CacheService.cs:80-86 | `LPUSH` then `LTRIM 0 5` keeps the cache well formed and raises exactly the fault's exception |
| CacheService.AddCommentSpec | SocialMediaBackend.API/Services/CacheService.cs:80-86 | the ring becomes take(6, [comment] + old): the new comment first, then the old ring's first entries, min(len + 1, 6) of them in all; the comment id argument is ignored, and nothing else changes |
| CacheService.InterruptedTrimOverflows | SocialMediaBackend.API/Services/CacheService.cs:84-85 | a push whose trim fails leaves seven entries in a full ring |
| CacheService.AddCommentKeepsBound | SocialMediaBackend.API/Services/CacheService.cs:80-86 | if every ring holds at most six comments, this stays true after a push |
| CacheService.DeletePost | SocialMediaBackend.API/Services/CacheService.cs:102-111 | `DeletePostAsync` keeps the cache well formed and raises exactly the fault's exception |
| CacheService.DeletePostSpec | SocialMediaBackend.API/Services/CacheService.cs:102-111 | the id leaves the index, its body and its ring go, and every other id's entry, body and ring are unchanged |
| CacheService.DeletePostIdempotent | SocialMediaBackend.API/Services/CacheService.cs:102-111 | deleting a post twice is the same as deleting it once |
| CacheService.FirstContaining | SocialMediaBackend.API/Services/CacheService.cs:119 | `FirstOrDefault(c => c.Contains(id))` finds the first ring text containing the id, or none |
| CacheService.DeleteComment | SocialMediaBackend.API/Services/CacheService.cs:113-123 | `DeleteCommentAsync` keeps the cache well formed and raises exactly the fault's exception |
| CacheService.DeleteCommentFrame | SocialMediaBackend.API/Services/CacheService.cs:113-123 | only the post's own ring can change, and nothing changes when no ring text contains the id |
| CacheService.DeleteCommentSpec | SocialMediaBackend.API/Services/CacheService.cs:117-122 | `LREM` leaves the old list filtered in order: the first matching entry and every entry with its text go, every other entry stays with its multiplicity |
| CacheService.DeleteCommentFilters | SocialMediaBackend.API/Services/CacheService.cs:117-122 | the list after a delete that found a match is the old list without the entries whose text equals the first match |
| CacheService.DiffersFilter | SocialMediaBackend.API/Services/CacheService.cs:122 | `LREM` of an entry's text removes that entry and every copy of its text and keeps everything else with its multiplicity |
| CacheService.RemoveByPrefix | SocialMediaBackend.API/Services/CacheService.cs:26-42 | `RemoveAsync` keeps the cache well formed and raises exactly the fault's exception |
| CacheService.RemoveByPrefixSpec | SocialMediaBackend.API/Services/CacheService.cs:26-42 | afterwards the keys are exactly the old keys that do not start with the prefix |
| CacheService.FeedKeysOutsidePostsPrefix | SocialMediaBackend.API/Services/CacheService.cs:16-82 | no feed key ("post_sorted", "post:{id}", "post:{id}:latest_comments") starts with "posts:" |
| CacheService.RemovePostsPrefixKeepsFeed | SocialMediaBackend.Functions/CommentFunction.cs:44 | removing the "posts:" prefix leaves the index, the bodies and the rings unchanged |
| Database.InsertPost | SocialMediaBackend.API/Services/PostService.cs:143-144 | saving a post succeeds exactly when nothing fails, the id is new, the creator exists and the caption fits `[MaxLength(255)]`; the table gains exactly that row (read back Unspecified) or stays unchanged; a caption too long is a `DbUpdateException` |
| Database.CommentKey | SocialMediaBackend.API/Models/Comment.cs:8-10 | a comment keeps its own id, and `Guid.Empty` is replaced by the generated key |
| Database.InsertComment | SocialMediaBackend.Functions/CommentFunction.cs:41-42 | saving a comment succeeds exactly when nothing fails, its key is new, its post and creator exist and the content fits `[MaxLength(500)]`; the table gains exactly that row under that key or stays unchanged; content too long is a `DbUpdateException` |
| Database.InsertPostUnique | SocialMediaBackend.API/Services/PostService.cs:143-144 | saving never creates a duplicate primary key |
| Database.InsertPostOnce | SocialMediaBackend.API/Services/PostService.cs:143-144 | once a post row is committed, saving it again raises and changes nothing |
| Database.InsertCommentUnique | SocialMediaBackend.Functions/CommentFunction.cs:41-42 | saving a comment never creates a duplicate primary key |
| Database.InsertCommentOnce | SocialMediaBackend.Functions/CommentFunction.cs:41-42 | a redelivered comment with an id of its own that was already committed raises and changes nothing |
| Database.EmptyIdStoredTwice | SocialMediaBackend.Functions/CommentFunction.cs:41-42 | a comment with id `Guid.Empty` saved twice is stored twice, under two generated keys |
| Database.InsertPostKeeps | SocialMediaBackend.API/Services/PostService.cs:143-144 | saving never removes a post |
| Database.CommentsOf | SocialMediaBackend.API/Services/PostService.cs:93 | `p.Comments` holds exactly the table's comments of that post |
| Database.AccountName | SocialMediaBackend.API/Services/PostService.cs:91-103 | a creator name is found exactly when the account exists, and it is the name of an account with that id |
| RetryPolicies.ExecuteFrom | SocialMediaBackend.API/Helper/RetryPolicies.cs:18-20 | from attempt n the policy makes between 1 and 4 − n more attempts, with one wait before each retry |
| RetryPolicies.Execute | SocialMediaBackend.API/Helper/RetryPolicies.cs:18-20 | an action runs between one and four times, with one wait fewer than attempts |
| RetryPolicies.ExecuteFromSpec | SocialMediaBackend.API/Helper/RetryPolicies.cs:13-20 | from attempt n, the run matches the attempt-by-attempt reference from n on |
| RetryPolicies.ExecuteSpec | SocialMediaBackend.API/Helper/RetryPolicies.cs:13-20 | every attempt but the last raised a handled exception with retries left, and the last did not; its state and exception are the outcome; the waits are a prefix of 2, 4, 8 s |
| RetryPolicies.FirstSuccessStops | SocialMediaBackend.API/Helper/RetryPolicies.cs:18-19 | the first successful attempt ends the run without error, keeping what earlier attempts did |
| RetryPolicies.UnhandledEscapes | SocialMediaBackend.API/Helper/RetryPolicies.cs:12-18 | an exception outside the five handled classes propagates at once |
| RetryPolicies.ExhaustedRetries | SocialMediaBackend.API/Helper/RetryPolicies.cs:18-20 | an action that always raises handled exceptions runs four times, waits 2, 4, 8 s, and the fourth exception propagates |
| RetryPolicies.HandledEscapeExhausts | SocialMediaBackend.API/Helper/RetryPolicies.cs:12-19 | a handled exception escapes only after all four attempts raised one |
| RetryPolicies.SameErrorsSameRun | SocialMediaBackend.API/Helper/RetryPolicies.cs:13-19 | the policy's decisions depend only on the exceptions the attempts raise |
| RetryPolicies.TotalDelayBound | SocialMediaBackend.API/Helper/RetryPolicies.cs:20 | the waits total at most 14 seconds |
| PostService.RecentSpec | SocialMediaBackend.API/Services/PostService.cs:52-54 | a feed item's recent comments are min(2, n) of the post's comments, newest first, and no comment left out is newer than one kept |
| PostService.CommentDtos | SocialMediaBackend.API/Services/PostService.cs:55-64 | each comment becomes a DTO with its id, creator, content and timestamp |
| PostService.HydrateOne | SocialMediaBackend.API/Services/PostService.cs:39-67 | hydrating a cached id succeeds exactly when both reads succeed and the body exists; a missing body is a NullReferenceException |
| PostService.HydrateSpec | SocialMediaBackend.API/Services/PostService.cs:39-70 | `WhenAll` over the ids succeeds exactly when every item does, keeping index order; otherwise the first failing item's exception propagates |
| PostService.MissingBodyFails | SocialMediaBackend.API/Services/PostService.cs:42-45 | a cached id without a body fails the whole page with a NullReferenceException instead of being skipped |
| PostService.Candidates | SocialMediaBackend.API/Services/PostService.cs:79 | the fallback considers exactly the posts created strictly before the bound |
| PostService.DbPage | SocialMediaBackend.API/Services/PostService.cs:77-109 | the fallback page has one item for each ranked post, in rank order |
| PostService.DbPageBounds | SocialMediaBackend.API/Services/PostService.cs:79-81 | every fallback post is in the table and strictly older than the bound; there are at most `limit` of them, and none for a limit ≤ 0 |
| PostService.DbPageOrder | SocialMediaBackend.API/Services/PostService.cs:80-81 | fallback posts are in non-increasing comment count, and no post left out has more comments than one kept |
| PostService.RecentDtosOrder | SocialMediaBackend.API/Services/PostService.cs:94-95 | at most two comment DTOs, newest first |
| PostService.RecentMembers | SocialMediaBackend.API/Services/PostService.cs:53-54 | the recent comments are drawn from the post's comments |
| PostService.RecentDtosFrom | SocialMediaBackend.API/Services/PostService.cs:94-106 | each comment DTO carries the id and content of one of the post's comments |
| PostService.DbItemComments | SocialMediaBackend.API/Services/PostService.cs:93-107 | a fallback item has at most two comments of that post, newest first |
| PostService.DbRead | SocialMediaBackend.API/Services/PostService.cs:77-109 | the SQL query succeeds exactly when the database answers and `limit` ≥ 0, with the fallback page of at most `limit` items; a negative limit is a SqlException |
| PostService.RewriteUrls | SocialMediaBackend.API/Services/PostService.cs:111-114 | every image URL gets the original container name replaced; an empty original name makes `Replace` throw ArgumentException when there is any item |
| PostService.NextCursor | SocialMediaBackend.API/Services/PostService.cs:116 | the next page token is never empty |
| PostService.BoundOf | SocialMediaBackend.API/Services/PostService.cs:32-34 | the page bound and its Unix milliseconds exist exactly when decoding and the conversion both succeed; errors carry the failing step's exception |
| PostService.Bound | SocialMediaBackend.API/Services/PostService.cs:32-34 | a token that does not decode gives a FormatException; the bound in milliseconds is the decoded time's Unix milliseconds |
| PostService.GetAllPosts | SocialMediaBackend.API/Services/PostService.cs:30-125 | a bad token fails with FormatException, and otherwise the page is the one computed at the decoded bound |
| PostService.NoCursorMeansNow | SocialMediaBackend.API/Services/PostService.cs:157-160 | without a token, the bound is the current UTC time and its Unix milliseconds |
| PostService.CacheHitIgnoresDb | SocialMediaBackend.API/Services/PostService.cs:37-71 | when the index returns any id, the page does not depend on the database or its faults, even when fewer than `limit` ids came back |
| PostService.CacheHitItems | SocialMediaBackend.API/Services/PostService.cs:37-114 | a cache-hit page has one item per returned id, in index order, each the rewritten hydration of that id |
| PostService.CacheMissItems | SocialMediaBackend.API/Services/PostService.cs:72-114 | with no cached ids the page is the rewritten fallback page, and it fails exactly when the query fails, the limit is negative, or the rewrite throws |
| PostService.NextPageToken | SocialMediaBackend.API/Services/PostService.cs:116 | the next token encodes the last item's timestamp, or the bound itself on an empty page |
| PostService.PageUrls | SocialMediaBackend.API/Services/PostService.cs:111-114 | every successful page is the URL rewrite of the items read |
| PostService.RangeHasBodies | SocialMediaBackend.API/Services/PostService.cs:41-42 | in a cache filled by `CreatePostAsync`, every id of a range has a body |
| PostService.CachePage | SocialMediaBackend.API/Services/PostService.cs:37-71 | without faults, a cache-hit page shows every returned id's post, in index order |
| PostService.LocalBound | SocialMediaBackend.API/Services/PostService.cs:34 | a Utc time that comes back as Local keeps its Unix milliseconds |
| PostService.BoundOfToken | SocialMediaBackend.API/Services/PostService.cs:32-34 | the token of a Utc timestamp gives the same millisecond bound, or fails when the local time is out of range |
| PostService.FirstPageLast | SocialMediaBackend.API/Services/PostService.cs:37-116 | the last item of a cache-hit page is the last returned id's post; its score is its Unix milliseconds; and the next token encodes its timestamp |
| PostService.NextPageHead | SocialMediaBackend.API/Services/PostService.cs:34-71 | querying at the last item's score returns a page headed by a post with that score, and by the same post when the score is unique |
| PostService.PageBoundaryRepeats | SocialMediaBackend.API/Services/PostService.cs:34-116 | following a cache-hit page's token returns a page whose first post has the previous last post's score, and is that post when its score is unique |
| PostService.NewPost | SocialMediaBackend.API/Services/PostService.cs:129-137 | the new post copies the request fields, takes the given id, and is stamped with the current UTC time |
| PostService.CreatePost | SocialMediaBackend.API/Services/PostService.cs:127-155 | `CreatePostAsync` returns true exactly when the retried save-then-cache action ends without an exception; any exception becomes false |
| PostService.PostScoreOfNow | SocialMediaBackend.API/Services/PostService.cs:129-145 | the index score is the Unix milliseconds of the post's creation time |
| PostService.SavePostStep | SocialMediaBackend.API/Services/PostService.cs:143-145 | one attempt fails when the row exists; a failure that did not commit the row leaves everything unchanged; a success has inserted the row and added the post to the cache |
| PostService.StoredStaysFailed | SocialMediaBackend.API/Services/PostService.cs:141-146 | once an attempt has committed the row, every later attempt fails and changes nothing |
| PostService.FailedAttemptsChangeNothing | SocialMediaBackend.API/Services/PostService.cs:141-146 | failed attempts that did not commit the row leave the stores as they were |
| PostService.TableStates | SocialMediaBackend.API/Services/PostService.cs:141-146 | before any attempt the posts table is the original one or has the one new row |
| PostService.CreatePostTaken | SocialMediaBackend.API/Services/PostService.cs:141-152 | an id that is already taken makes creation return false and change nothing |
| PostService.LongCaptionFails | SocialMediaBackend.API/Services/PostService.cs:141-152 | a caption longer than 255 makes all four attempts raise, so creation returns false and changes nothing |
| PostService.RejectedStaysFailed | SocialMediaBackend.API/Services/PostService.cs:141-145 | with a caption too long, every attempt raises and leaves the stores unchanged |
| PostService.SuccessfulAttempt | SocialMediaBackend.API/Services/PostService.cs:141-146 | a successful run ends with one successful attempt, which set the final state |
| PostService.CreatePostSpec | SocialMediaBackend.API/Services/PostService.cs:127-155 | true implies the id was new, the creator existed and the caption fit its column; the table gained exactly the new row; and the cache is `AddPostAsync` with score `unixMs(CreatedAt)` |
| PostService.CreatePostAtMostOnce | SocialMediaBackend.API/Services/PostService.cs:141-152 | however attempts fail, the post is stored at most once and keys stay unique |
| PostService.SavedButFalse | SocialMediaBackend.API/Services/PostService.cs:143-152 | a cache failure after a committed save makes every retry fail on the duplicate key, so false is returned although the post is stored |
| CommentService.NewComment | SocialMediaBackend.API/Services/CommentService.cs:39-45 | the queued comment has the fresh id and copies content, creator and post; its timestamp is the current UTC time |
| CommentService.CreateComment | SocialMediaBackend.API/Services/CommentService.cs:35-66 | `CreateCommentAsync` never returns false: it returns true or rethrows |
| CommentService.SendThenPushStep | SocialMediaBackend.API/Services/CommentService.cs:52-55 | one attempt sends before it pushes: the cache changes only after the message was queued; the attempt succeeds exactly when both calls succeed |
| CommentService.QueueBefore | SocialMediaBackend.API/Services/CommentService.cs:51-55 | after j attempts the queue has gained at most j copies of the message and kept its old contents |
| CommentService.SendThenPushQueue | SocialMediaBackend.API/Services/CommentService.cs:51-55 | the retry unit adds at most one message per attempt, each the same body, and keeps the queue's old contents |
| CommentService.SendThenPushSuccess | SocialMediaBackend.API/Services/CommentService.cs:51-55 | a successful run has queued the message and left the comment at the head of its post's ring |
| CommentService.SendThenPushFailure | SocialMediaBackend.API/Services/CommentService.cs:51-55 | a handled exception escapes only after all four attempts failed |
| CommentService.AttemptRaises | SocialMediaBackend.API/Services/CommentService.cs:52-55 | an attempt raises the send's exception, or else the push's |
| CommentService.CreateCommentSpec | SocialMediaBackend.API/Services/CommentService.cs:35-66 | up to four copies of the serialized comment are queued; success means true, a queued message and the comment at the head of its ring; a handled failure is rethrown after four failed attempts |
| CommentService.OutcomeOnlyFromFaults | SocialMediaBackend.API/Services/CommentService.cs:35-66 | the result does not depend on the request, so no check is made that the post exists |
| CommentService.ResendAfterPushFailure | SocialMediaBackend.API/Services/CommentService.cs:51-55 | a failed push after a successful send makes the retry send the same message again |
| CommentFunction.Deserialize | SocialMediaBackend.Functions/CommentFunction.cs:31-32 | an empty body deserializes to null |
| CommentFunction.Abandon | SocialMediaBackend.Functions/CommentFunction.cs:49-53 | abandoning changes no store |
| CommentFunction.RunAsync | SocialMediaBackend.Functions/CommentFunction.cs:26-54 | a null comment is dead-lettered and stores nothing; completion happens exactly when the save (new key, post and creator present, content within 500), the cache call and the completion all succeed, and it follows the stored row; a malformed body, a failed save or a failed cache call lead to abandon |
| CommentFunction.RemovePostsKeepsFeed | SocialMediaBackend.Functions/CommentFunction.cs:44 | the consumer's "posts:" removal leaves the feed cache unchanged, whatever it raises |
| CommentFunction.StoresAfterDelivery | SocialMediaBackend.Functions/CommentFunction.cs:41-44 | handling a message leaves the feed cache unchanged, and stores at most the message's comment |
| CommentFunction.RedeliveryStoresOnce | SocialMediaBackend.Functions/CommentFunction.cs:41-53 | keys stay unique; a redelivered message whose comment has an id of its own never stores it twice nor completes again after a commit |
| CommentFunction.EmptyIdRedeliveryStoresTwice | SocialMediaBackend.Functions/CommentFunction.cs:41-47 | a message whose comment has id `Guid.Empty` completes and is stored again on each delivery |
| BlobStorageService.ExtensionFromShape | SocialMediaBackend.API/Services/BlobStorageService.cs:32 | `Path.GetExtension` returns a '.' and at least one more character, taken from the end of the name |
| BlobStorageService.ExtensionOfSuffix | SocialMediaBackend.API/Services/BlobStorageService.cs:32 | a name ending in '.' and three other characters has those four as its extension |
| BlobStorageService.ExtensionCheck | SocialMediaBackend.API/Services/BlobStorageService.cs:17-33 | the extension check passes exactly when the name ends in ".png", ".jpg" or ".bmp", in any letter case |
| BlobStorageService.GenerateUploadUrl | SocialMediaBackend.API/Services/BlobStorageService.cs:28-59 | success exactly for an allowed file type when the SAS URI is built, with the URI as URL and no error; otherwise a failure with the exact file-type message, the exception's message, or the null-reference message |
| BlobStorageService.ParseUri | SocialMediaBackend.API/Services/BlobStorageService.cs:65 | a parsed URI has a scheme, a host and a path starting with '/'; anything else is a UriFormatException |
| BlobStorageService.ParseUriParts | SocialMediaBackend.API/Services/BlobStorageService.cs:65 | parsing gives back the scheme, host and path a URI was written from |
| BlobStorageService.LastSegmentSpec | SocialMediaBackend.API/Services/BlobStorageService.cs:66 | `Segments[^1]` is the nonempty tail of the path after its last inner '/' |
| BlobStorageService.LastSegmentOfName | SocialMediaBackend.API/Services/BlobStorageService.cs:66 | the last segment of ".../name" is the name |
| BlobStorageService.BlobName | SocialMediaBackend.API/Services/BlobStorageService.cs:65-66 | the blob name is the parsed path's last segment; a URL that does not parse raises |
| BlobStorageService.BlobNameOfBlobUrl | SocialMediaBackend.Tests/BlobStorageServiceTests.cs:102-123 | a URL `https://host/container/blob` names its blob, as for "test.jpg" in the service's tests |
| BlobStorageService.DeleteBlobImages | SocialMediaBackend.API/Services/BlobStorageService.cs:61-72 | a null or blank URL touches no container; otherwise exactly the named blob goes from each container whose call was made; the processed container's failure is reported first |

## Left out

- I/O and hosting: logging, dependency injection, HTTP, `Console` output and the Azure SDK clients are not modelled. Their effects are store operations with faults.
- Concurrency: `Task.WhenAll` in hydration and in image deletion is modelled as sequential. The calls touch disjoint keys or blobs, so their order does not matter.
- CacheService.AddPost: the eviction's `ZREM` is its own step, but its `DEL`s of body and comment keys, issued together under `Task.WhenAll`, are one step. A fault among them deletes all of those keys or none; Redis could be left with only some of them deleted.
- The clock, GUID generation and the process time zone are parameters (`now`, `id`, a fixed offset `zone`). Daylight-saving rules are not modelled.
- JSON: `JsonConvert.SerializeObject` is modelled for comments only (`Entities.CommentJson`), with Newtonsoft's default string escaping of the content (`Json.Escape`). Options such as `StringEscapeHandling.EscapeHtml` are not modelled. Deserialization in the consumer is a parameter (`CommentFunction.Deserialize`), and cached bodies are stored as values, so a round trip is assumed.
- Base64.Decode: a final group whose padding leaves nonzero unused bits, such as "QR==", is rejected, so every text the model accepts is canonical. .NET ignores those bits and accepts such text. Tokens the service writes are always canonical.
- DateTimes.ToLocal: .NET treats a parsed value on 1 January of year 1 as a time of day, and wraps a negative local result into that day. The model reports such a value as out of range.
- Sorting.SortDesc: `ORDER BY` leaves posts with equal comment counts in no fixed order. The model fixes a stable order, keeping table order among equal counts. SQL Server may return them in any order, so which equal-count posts are kept at the `limit` cut can differ.
- `Encoding.UTF8.GetString` on non-ASCII bytes: page tokens are ASCII, so `Cursor.CursorText` rejects non-ASCII bytes. .NET would decode them, but the parse rejects them anyway.
- Database.InsertPost: EF Core's key generation for an `Id` of `Guid.Empty` is not modelled for posts, because `CreatePostAsync` always sets `Id = Guid.NewGuid()`, a version-4 GUID that is never empty. A null `Caption` is not representable.
- Database.InsertComment: a null `Content`, which the `[Required]` column rejects, is not representable: comment content is a string. The generated key is a parameter (`generated`), not a model of EF Core's sequential GUID generator.
- CacheService.Keys: a post id is a `Guid.ToString()` text, which holds no ':', so a body key `post:{id}` never equals a ring key `post:{id}:latest_comments` of another id. The model does not restrict the shape of ids.
- Redis `KEYS` glob syntax: `RemoveAsync` is modelled as a literal prefix match.
- Strings.ToLower: `ToLower` is culture-sensitive in .NET. The model lower-cases ASCII letters only.
- `Path.GetExtension` is modelled with '/' as the only directory separator, as on Linux.
- BlobStorageService.ParseUri: a simplified absolute-URI parser (`scheme://host/path?query#fragment`). It does not trim whitespace, unescape, or normalise backslashes or dot segments, and it rejects other URI forms `System.Uri` accepts. A URI that `System.Uri` would normalise, such as "https://h/c\\x.jpg", is accepted as written here, so the model may name a different blob than .NET does. It also accepts hosts that `System.Uri` rejects with a `UriFormatException`, such as a port above 65535 or a space in the host; there the model returns a blob name where .NET throws.
- The SAS URI's contents, its expiry and `UrlExpiresInMinute` are not modelled. `GenerateUploadUrl` takes the URI text, or the exception building it raised, as a parameter.
- `MaxFileSize` is declared but never enforced in the service, so it has no counterpart.
- CommentFunction.RunAsync: an exception from `DeadLetterMessageAsync` or `CompleteMessageAsync` is modelled as going to abandon. An exception from `AbandonMessageAsync` leaves the message unsettled. The Service Bus lock and delivery count are not modelled.
- CacheService.RemoveByPrefix: the endpoint lookup (`GetEndPoints().First()`) is not modelled, and a fault makes the whole delete fail or apply.
- `RedisSettings` is not part of this model: `MaxSize` is a `nat` parameter.
- The cascade delete of comments when a post row is deleted, `UserService`, `AuthService`, `JwtService`, the image processors, `CommentConsumer` and the controllers are not part of this model.
- The interfaces `IPostService`, `ICommentService` and `IUserService` disagree with the implementations. The implementations are modelled.
- The test files `PostServiceTests.cs`, `UserServiceTests.cs` and `AuthServiceTests.cs` call members that do not exist in the code, so they were not used, except for the container-name rewrite asserted at `PostServiceTests.cs:118`. The `ArgumentException` for an empty old container name in `PostService.RewriteUrls` is the documented behaviour of `String.Replace` itself.
- The integer widths of `long` scores and `int` limits are not modelled, because every value the service produces fits. `long.MaxValue` is the bound when there is no cursor.

=== FILE: base.dfy ===
/** Shared vocabulary of the model: optional values, results, the exception
    classes the services raise or catch, and fault injection for calls into
    external stores (Redis, SQL, Service Bus). */
module Base {

  datatype Option<+T> = None | Some(value: T)

  datatype Result<+T> = Ok(value: T) | Err(error: Exn)

  /** The .NET exception classes that matter to the services.  A subclass is
      represented by the class among these that it derives from (for example
      `RedisTimeoutException` is `Redis`, `ObjectDisposedException` is
      `InvalidOperation`). */
  datatype Exn =
    | DbUpdate            // Microsoft.EntityFrameworkCore.DbUpdateException
    | Timeout             // System.TimeoutException
    | InvalidOperation    // System.InvalidOperationException
    | Redis               // StackExchange.Redis.RedisException
    | ServiceBus          // Azure.Messaging.ServiceBus.ServiceBusException
    | Format              // System.FormatException
    | NullReference       // System.NullReferenceException
    | Argument            // System.ArgumentException
    | ArgumentOutOfRange  // System.ArgumentOutOfRangeException
    | Json                // Newtonsoft.Json.JsonReaderException
    | UriFormat           // System.UriFormatException
    | Sql                 // Microsoft.Data.SqlClient.SqlException
    | Other(message: string)

  /** What an external call does when it is run.  `FailAfter(k, e)`: the first
      `k` commands of the call take effect, then `e` is thrown.  A `k` at least
      the number of commands the call issues is a failure reported after the
      server applied everything (a timeout on the reply). */
  datatype Fault = NoFault | FailAfter(steps: nat, error: Exn)

  /** How many of a call's `n` commands take effect under fault `f`. */
  function Applied(f: Fault, n: nat): (k: nat)
    ensures k <= n
    ensures f.NoFault? ==> k == n
    ensures f.FailAfter? && f.steps < n ==> k == f.steps
  {
    match f
    case NoFault => n
    case FailAfter(s, _) => if s < n then s else n
  }

  /** The exception a call raises under fault `f`, if any. */
  function Raised(f: Fault): Option<Exn>
  {
    match f
    case NoFault => None
    case FailAfter(_, e) => Some(e)
  }

  /** `Enumerable.Take(count)`: a negative count takes nothing. */
  function Take<T>(s: seq<T>, count: int): (r: seq<T>)
    ensures |r| == if count <= 0 then 0 else if count < |s| then count else |s|
    ensures r == s[..|r|]
  {
    if count <= 0 then [] else if count < |s| then s[..count] else s
  }

  /** `Enumerable.Where(p)`: the elements satisfying `p`, in order. */
  function Filter<T(==,!new)>(s: seq<T>, p: T -> bool): (r: seq<T>)
    ensures |r| <= |s|
    ensures forall i :: 0 <= i < |r| ==> r[i] in s && p(r[i])
    ensures forall i :: 0 <= i < |s| && p(s[i]) ==> s[i] in r
  {
    if s == [] then []
    else (if p(s[0]) then [s[0]] else []) + Filter(s[1..], p)
  }

  /** `Where` keeps every occurrence of a satisfying element and no
      occurrence of any other. */
  lemma {:induction false} FilterCounts<T(!new)>(s: seq<T>, p: T -> bool)
    ensures forall x :: multiset(Filter(s, p))[x] == if p(x) then multiset(s)[x] else 0
    decreases |s|
  {
    if s != [] {
      FilterCounts(s[1..], p);
      assert s == [s[0]] + s[1..];
    }
  }

  /** `Where` distributes over concatenation, so it keeps the order of the
      elements it keeps. */
  lemma {:induction false} FilterAppend<T(!new)>(a: seq<T>, b: seq<T>, p: T -> bool)
    ensures Filter(a + b, p) == Filter(a, p) + Filter(b, p)
    decreases |a|
  {
    if a == [] {
      assert a + b == b;
    } else {
      var head := if p(a[0]) then [a[0]] else [];
      assert (a + b)[0] == a[0] && (a + b)[1..] == a[1..] + b;
      FilterAppend(a[1..], b, p);
      calc {
        Filter(a + b, p);
        head + Filter(a[1..] + b, p);
        head + (Filter(a[1..], p) + Filter(b, p));
        (head + Filter(a[1..], p)) + Filter(b, p);
      }
    }
  }

  /** When every element satisfies the predicate, `Where` changes nothing. */
  lemma {:induction false} FilterAll<T(!new)>(s: seq<T>, p: T -> bool)
    requires forall i :: 0 <= i < |s| ==> p(s[i])
    ensures Filter(s, p) == s
    decreases |s|
  {
    if s != [] {
      FilterAll(s[1..], p);
    }
  }
}

=== FILE: base64.dfy ===
/** Base64 with the standard alphabet and '=' padding (section 4 of RFC 4648),
    as `Convert.ToBase64String` writes it and `Convert.FromBase64String`
    reads it, and the UTF-8 encoding of ASCII text. */
module Base64 {
  import opened Base
  import opened Strings

  type Byte = b: int | 0 <= b < 256

  /** The character for a 6-bit value. */
  function Char(v: int): (c: char)
    requires 0 <= v < 64
  {
    if v < 26 then ('A' as int + v) as char
    else if v < 52 then ('a' as int + v - 26) as char
    else if v < 62 then ('0' as int + v - 52) as char
    else if v == 62 then '+'
    else '/'
  }

  predicate IsBase64Char(c: char)
  {
    'A' <= c <= 'Z' || 'a' <= c <= 'z' || '0' <= c <= '9' || c == '+' || c == '/'
  }

  /** The 6-bit value of an alphabet character. */
  function Value(c: char): (v: int)
    requires IsBase64Char(c)
    ensures 0 <= v < 64
    ensures Char(v) == c
  {
    if 'A' <= c <= 'Z' then c as int - 'A' as int
    else if 'a' <= c <= 'z' then c as int - 'a' as int + 26
    else if '0' <= c <= '9' then c as int - '0' as int + 52
    else if c == '+' then 62
    else 63
  }

  lemma CharValue(v: int)
    requires 0 <= v < 64
    ensures IsBase64Char(Char(v)) && Value(Char(v)) == v
  {
  }

  function EncodeBlock(a: Byte, b: Byte, c: Byte): (s: string)
    ensures |s| == 4
  {
    [Char(a / 4), Char((a % 4) * 16 + b / 16), Char((b % 16) * 4 + c / 64), Char(c % 64)]
  }

  /** `Convert.ToBase64String`. */
  function Encode(bytes: seq<Byte>): (s: string)
    ensures |s| % 4 == 0
    ensures |s| == 4 * ((|bytes| + 2) / 3)
  {
    if |bytes| == 0 then ""
    else if |bytes| == 1 then EncodeOne(bytes[0])
    else if |bytes| == 2 then EncodeTwo(bytes[0], bytes[1])
    else
      EncodedLength(|bytes|);
      EncodeBlock(bytes[0], bytes[1], bytes[2]) + Encode(bytes[3..])
  }

  /** A final single byte: two characters and two pads. */
  function EncodeOne(a: Byte): (s: string)
    ensures |s| == 4
  {
    [Char(a / 4), Char((a % 4) * 16), '=', '=']
  }

  /** A final pair of bytes: three characters and one pad. */
  function EncodeTwo(a: Byte, b: Byte): (s: string)
    ensures |s| == 4
  {
    [Char(a / 4), Char((a % 4) * 16 + b / 16), Char((b % 16) * 4), '=']
  }

  /** One block of four characters for each further three bytes. */
  lemma EncodedLength(n: nat)
    requires n >= 3
    ensures 4 + 4 * ((n - 3 + 2) / 3) == 4 * ((n + 2) / 3)
  {
    var q, r := (n - 1) / 3, (n - 1) % 3;
    assert n - 1 == q * 3 + r;
    DivMod3(n + 2, q + 1, r);
    DivMod3(n - 1, q, r);
  }

  lemma DivMod3(x: int, q: int, r: int)
    requires 0 <= r < 3 && x == q * 3 + r
    ensures x / 3 == q && x % 3 == r
  {
  }

  predicate AllBase64(q: string)
  {
    forall i :: 0 <= i < |q| ==> IsBase64Char(q[i])
  }

  function DecodeBlock(q: string): (r: Option<seq<Byte>>)
    requires |q| == 4
    ensures r.Some? <==> AllBase64(q)
  {
    if !AllBase64(q) then None
    else
      var v0, v1, v2, v3 := Value(q[0]), Value(q[1]), Value(q[2]), Value(q[3]);
      Some([v0 * 4 + v1 / 16, (v1 % 16) * 16 + v2 / 4, (v2 % 4) * 64 + v3])
  }

  /** The final quadruple, which may carry one or two '=' pads; the bits the
      pads leave unused must be zero. */
  function DecodeLast(q: string): Option<seq<Byte>>
    requires |q| == 4
  {
    if q[2] == '=' && q[3] == '=' then
      if AllBase64(q[..2]) && Value(q[1]) % 16 == 0 then
        Some([Value(q[0]) * 4 + Value(q[1]) / 16])
      else None
    else if q[3] == '=' then
      if AllBase64(q[..3]) && Value(q[2]) % 4 == 0 then
        var v0, v1, v2 := Value(q[0]), Value(q[1]), Value(q[2]);
        Some([v0 * 4 + v1 / 16, (v1 % 16) * 16 + v2 / 4])
      else None
    else DecodeBlock(q)
  }

  /** `Convert.FromBase64String` on text without white space: `None` is the
      `FormatException`.  Only canonical text is read: the bits a final
      '=' leaves unused must be zero. */
  function Decode(s: string): Option<seq<Byte>>
    decreases |s|
  {
    if |s| == 0 then Some([])
    else if |s| < 4 then None
    else if |s| == 4 then DecodeLast(s)
    else
      match DecodeBlock(s[..4])
      case None => None
      case Some(head) =>
        match Decode(s[4..])
        case None => None
        case Some(tail) => Some(head + tail)
  }

  lemma DivMod4(x: int, q: int, r: int)
    requires 0 <= r < 4 && x == q * 4 + r
    ensures x / 4 == q && x % 4 == r
  {
  }

  lemma DivMod16(x: int, q: int, r: int)
    requires 0 <= r < 16 && x == q * 16 + r
    ensures x / 16 == q && x % 16 == r
  {
  }

  lemma DivMod64(x: int, q: int, r: int)
    requires 0 <= r < 64 && x == q * 64 + r
    ensures x / 64 == q && x % 64 == r
  {
  }

  /** Three bytes regrouped as four 6-bit values and back. */
  lemma BytesToSextets(a: Byte, b: Byte, c: Byte)
    ensures var v0, v1, v2, v3 := a / 4, (a % 4) * 16 + b / 16, (b % 16) * 4 + c / 64, c % 64;
      && 0 <= v0 < 64 && 0 <= v1 < 64 && 0 <= v2 < 64 && 0 <= v3 < 64
      && v0 * 4 + v1 / 16 == a && (v1 % 16) * 16 + v2 / 4 == b && (v2 % 4) * 64 + v3 == c
  {
    DivMod16((a % 4) * 16 + b / 16, a % 4, b / 16);
    DivMod4((b % 16) * 4 + c / 64, b % 16, c / 64);
  }

  /** Four 6-bit values regrouped as three bytes and back. */
  lemma SextetsToBytes(v0: int, v1: int, v2: int, v3: int)
    requires 0 <= v0 < 64 && 0 <= v1 < 64 && 0 <= v2 < 64 && 0 <= v3 < 64
    ensures var a, b, c := v0 * 4 + v1 / 16, (v1 % 16) * 16 + v2 / 4, (v2 % 4) * 64 + v3;
      && 0 <= a < 256 && 0 <= b < 256 && 0 <= c < 256
      && a / 4 == v0 && (a % 4) * 16 + b / 16 == v1 && (b % 16) * 4 + c / 64 == v2 && c % 64 == v3
  {
    DivMod4(v0 * 4 + v1 / 16, v0, v1 / 16);
    DivMod16((v1 % 16) * 16 + v2 / 4, v1 % 16, v2 / 4);
    DivMod64((v2 % 4) * 64 + v3, v2 % 4, v3);
  }

  lemma BlockRoundTrip(a: Byte, b: Byte, c: Byte)
    ensures DecodeBlock(EncodeBlock(a, b, c)) == Some([a, b, c])
  {
    var q := EncodeBlock(a, b, c);
    BytesToSextets(a, b, c);
    CharValue(a / 4);
    CharValue((a % 4) * 16 + b / 16);
    CharValue((b % 16) * 4 + c / 64);
    CharValue(c % 64);
    assert AllBase64(q);
  }

  lemma DecodeEncodeOne(a: Byte)
    ensures Decode(Encode([a])) == Some([a])
  {
    var s := Encode([a]);
    BytesToSextets(a, 0, 0);
    CharValue(a / 4);
    CharValue((a % 4) * 16);
    assert AllBase64(s[..2]);
  }

  lemma DecodeEncodeTwo(a: Byte, b: Byte)
    ensures Decode(Encode([a, b])) == Some([a, b])
  {
    var s := Encode([a, b]);
    BytesToSextets(a, b, 0);
    CharValue(a / 4);
    CharValue((a % 4) * 16 + b / 16);
    CharValue((b % 16) * 4);
    assert AllBase64(s[..3]);
  }

  lemma DecodeEncodeThree(a: Byte, b: Byte, c: Byte)
    ensures Decode(Encode([a, b, c])) == Some([a, b, c])
  {
    var s := Encode([a, b, c]);
    BlockRoundTrip(a, b, c);
    assert [a, b, c][3..] == [];
    assert s == EncodeBlock(a, b, c);
    assert IsBase64Char(s[2]) && IsBase64Char(s[3]);
  }

  /** One block in front of a text that decodes. */
  lemma DecodeCons(q: string, t: string, head: seq<Byte>, tail: seq<Byte>)
    requires |q| == 4 && |t| > 0
    requires DecodeBlock(q) == Some(head) && Decode(t) == Some(tail)
    ensures Decode(q + t) == Some(head + tail)
  {
    var s := q + t;
    assert s[..4] == q;
    assert s[4..] == t;
  }

  /** Decoding what the encoder wrote gives the bytes back. */
  lemma {:induction false} DecodeEncode(bytes: seq<Byte>)
    ensures Decode(Encode(bytes)) == Some(bytes)
    decreases |bytes|
  {
    if |bytes| == 1 {
      DecodeEncodeOne(bytes[0]);
      assert bytes == [bytes[0]];
    } else if |bytes| == 2 {
      DecodeEncodeTwo(bytes[0], bytes[1]);
      assert bytes == [bytes[0], bytes[1]];
    } else if |bytes| == 3 {
      DecodeEncodeThree(bytes[0], bytes[1], bytes[2]);
      assert bytes == [bytes[0], bytes[1], bytes[2]];
    } else if |bytes| > 3 {
      var a, b, c, rest := bytes[0], bytes[1], bytes[2], bytes[3..];
      assert bytes == [a, b, c] + rest;
      DecodeEncode(rest);
      DecodeEncodeStep(a, b, c, rest);
    }
  }

  /** One full block in front of a text that decodes back decodes back. */
  lemma DecodeEncodeStep(a: Byte, b: Byte, c: Byte, rest: seq<Byte>)
    requires rest != [] && Decode(Encode(rest)) == Some(rest)
    ensures Decode(Encode([a, b, c] + rest)) == Some([a, b, c] + rest)
  {
    var bytes := [a, b, c] + rest;
    assert bytes[..3] == [a, b, c] && bytes[3..] == rest;
    var q, t := EncodeBlock(a, b, c), Encode(rest);
    assert Encode(bytes) == q + t;
    BlockRoundTrip(a, b, c);
    DecodeCons(q, t, [a, b, c], rest);
  }

  /** Encoding the three bytes four sextets make writes those sextets. */
  lemma EncodeSextets(v0: int, v1: int, v2: int, v3: int)
    requires 0 <= v0 < 64 && 0 <= v1 < 64 && 0 <= v2 < 64 && 0 <= v3 < 64
    ensures var a, b, c := v0 * 4 + v1 / 16, (v1 % 16) * 16 + v2 / 4, (v2 % 4) * 64 + v3;
      0 <= a < 256 && 0 <= b < 256 && 0 <= c < 256 &&
      EncodeBlock(a, b, c) == [Char(v0), Char(v1), Char(v2), Char(v3)]
  {
    SextetsToBytes(v0, v1, v2, v3);
  }

  lemma BlockCanonical(q: string)
    requires |q| == 4 && DecodeBlock(q).Some?
    ensures var b := DecodeBlock(q).value; EncodeBlock(b[0], b[1], b[2]) == q
  {
    CharsOfValues(q);
    var v0, v1, v2, v3 := Value(q[0]), Value(q[1]), Value(q[2]), Value(q[3]);
    EncodeSextets(v0, v1, v2, v3);
    var a, b, c := v0 * 4 + v1 / 16, (v1 % 16) * 16 + v2 / 4, (v2 % 4) * 64 + v3;
    var bs := DecodeBlock(q).value;
    assert bs == [a, b, c];
    assert EncodeBlock(bs[0], bs[1], bs[2]) == EncodeBlock(a, b, c);
  }

  /** Four Base64 characters are the characters of their values. */
  lemma CharsOfValues(q: string)
    requires |q| == 4 && AllBase64(q)
    ensures [Char(Value(q[0])), Char(Value(q[1])), Char(Value(q[2])), Char(Value(q[3]))] == q
  {
  }

  lemma LastCanonical(q: string)
    requires |q| == 4 && DecodeLast(q).Some?
    ensures Encode(DecodeLast(q).value) == q
  {
    if q[2] == '=' && q[3] == '=' {
      TwoPadCanonical(q);
    } else if q[3] == '=' {
      OnePadCanonical(q);
    } else {
      BlockCanonical(q);
      var b := DecodeLast(q).value;
      assert b[3..] == [];
    }
  }

  /** A final quantum `xx==` that decodes is the encoding of its one byte. */
  lemma TwoPadCanonical(q: string)
    requires |q| == 4 && q[2] == '=' && q[3] == '='
    requires AllBase64(q[..2]) && Value(q[1]) % 16 == 0
    ensures Encode(DecodeLast(q).value) == q
  {
    assert IsBase64Char(q[..2][0]) && IsBase64Char(q[..2][1]);
    var v0, v1 := Value(q[0]), Value(q[1]);
    SextetsToBytes(v0, v1, 0, 0);
    var a := v0 * 4 + v1 / 16;
    assert DecodeLast(q) == Some([a]);
    assert Encode([a]) == [Char(v0), Char(v1), '=', '='];
    assert [Char(v0), Char(v1), '=', '='] == q;
  }

  /** A final quantum `xxx=` that decodes is the encoding of its two bytes. */
  lemma OnePadCanonical(q: string)
    requires |q| == 4 && q[2] != '=' && q[3] == '='
    requires AllBase64(q[..3]) && Value(q[2]) % 4 == 0
    ensures Encode(DecodeLast(q).value) == q
  {
    assert IsBase64Char(q[..3][0]) && IsBase64Char(q[..3][1]) && IsBase64Char(q[..3][2]);
    var v0, v1, v2 := Value(q[0]), Value(q[1]), Value(q[2]);
    SextetsToBytes(v0, v1, v2, 0);
    var a, b := v0 * 4 + v1 / 16, (v1 % 16) * 16 + v2 / 4;
    assert (v2 % 4) * 64 == 0;
    assert a / 4 == v0 && (a % 4) * 16 + b / 16 == v1 && (b % 16) * 4 == v2;
    assert DecodeLast(q) == Some([a, b]);
    assert Encode([a, b]) == [Char(v0), Char(v1), Char(v2), '='];
    assert [Char(v0), Char(v1), Char(v2), '='] == q;
  }

  /** The decoder accepts only what the encoder writes: the text of any
      successful decode is the encoding of its result. */
  lemma {:induction false} EncodeDecode(s: string)
    requires Decode(s).Some?
    ensures Encode(Decode(s).value) == s
    decreases |s|
  {
    if |s| == 4 {
      LastCanonical(s);
    } else if |s| > 4 {
      var head := DecodeBlock(s[..4]).value;
      var tail := Decode(s[4..]).value;
      BlockCanonical(s[..4]);
      EncodeDecode(s[4..]);
      assert |tail| > 0;
      var b := head + tail;
      assert b[3..] == tail;
      assert s == s[..4] + s[4..];
    }
  }

  /** Both directions: `Decode(s)` yields `b` exactly when `s` is the
      encoding of `b`. */
  lemma DecodeIff(s: string, b: seq<Byte>)
    ensures Decode(s) == Some(b) <==> Encode(b) == s
  {
    if Decode(s) == Some(b) {
      EncodeDecode(s);
    }
    if Encode(b) == s {
      DecodeEncode(b);
    }
  }

  // ---------------------------------------------------------------------
  // White space

  /** The characters `FromBase64String` skips wherever they occur. */
  predicate IsSpace(c: char)
  {
    c == ' ' || c == '\t' || c == '\r' || c == '\n'
  }

  predicate NotSpace(c: char)
  {
    !IsSpace(c)
  }

  /** The text with its skipped white space removed. */
  function StripSpace(s: string): (r: string)
    ensures forall i :: 0 <= i < |r| ==> NotSpace(r[i])
  {
    Filter(s, NotSpace)
  }

  /** `Convert.FromBase64String`: white space is skipped and the rest must
      be Base64 as `Decode` reads it; `None` is the `FormatException`. */
  function FromBase64String(s: string): Option<seq<Byte>>
  {
    Decode(StripSpace(s))
  }

  /** The encoder writes only alphabet characters and '='. */
  lemma {:induction false} EncodeAlphabet(bytes: seq<Byte>)
    ensures forall i :: 0 <= i < |Encode(bytes)| ==> IsBase64Char(Encode(bytes)[i]) || Encode(bytes)[i] == '='
    decreases |bytes|
  {
    if |bytes| >= 3 {
      var a, b, c := bytes[0], bytes[1], bytes[2];
      CharValue(a / 4);
      CharValue((a % 4) * 16 + b / 16);
      CharValue((b % 16) * 4 + c / 64);
      CharValue(c % 64);
      EncodeAlphabet(bytes[3..]);
      var s, t := Encode(bytes), Encode(bytes[3..]);
      assert s == EncodeBlock(a, b, c) + t;
      forall i | 4 <= i < |s| ensures IsBase64Char(s[i]) || s[i] == '=' {
        assert s[i] == t[i - 4];
      }
    } else if |bytes| == 2 {
      CharValue(bytes[0] / 4);
      CharValue((bytes[0] % 4) * 16 + bytes[1] / 16);
      CharValue((bytes[1] % 16) * 4);
    } else if |bytes| == 1 {
      CharValue(bytes[0] / 4);
      CharValue((bytes[0] % 4) * 16);
    }
  }

  /** Encoded text holds no white space to skip. */
  lemma StripEncoded(bytes: seq<Byte>)
    ensures StripSpace(Encode(bytes)) == Encode(bytes)
  {
    EncodeAlphabet(bytes);
    FilterAll(Encode(bytes), NotSpace);
  }

  /** `FromBase64String` yields `b` exactly when the text, once its white
      space is skipped, is the encoding of `b`. */
  lemma FromBase64Iff(s: string, b: seq<Byte>)
    ensures FromBase64String(s) == Some(b) <==> Encode(b) == StripSpace(s)
  {
    DecodeIff(StripSpace(s), b);
  }

  /** `FromBase64String` reads back what `ToBase64String` writes. */
  lemma FromBase64OfEncode(bytes: seq<Byte>)
    ensures FromBase64String(Encode(bytes)) == Some(bytes)
  {
    StripEncoded(bytes);
    DecodeEncode(bytes);
  }

  /** A white-space character anywhere in the text changes nothing. */
  lemma SpaceIgnored(a: string, b: string, c: char)
    requires IsSpace(c)
    ensures FromBase64String(a + [c] + b) == FromBase64String(a + b)
  {
    StripAppend(a + [c], b);
    StripAppend(a, [c]);
    StripAppend(a, b);
    assert StripSpace([c]) == [] by {
      assert [c][1..] == [];
    }
    assert StripSpace(a) + [] == StripSpace(a);
  }

  /** Skipping white space distributes over concatenation. */
  lemma StripAppend(a: string, b: string)
    ensures StripSpace(a + b) == StripSpace(a) + StripSpace(b)
  {
    FilterAppend(a, b, NotSpace);
  }

  // ---------------------------------------------------------------------
  // UTF-8 for ASCII text.

  /** `Encoding.UTF8.GetBytes` of ASCII text: one byte per character. */
  function AsciiBytes(s: string): (b: seq<Byte>)
    requires IsAscii(s)
    ensures |b| == |s|
    ensures forall i :: 0 <= i < |s| ==> b[i] == s[i] as int
  {
    seq(|s|, i requires 0 <= i < |s| => s[i] as int)
  }

  /** `Encoding.UTF8.GetString` where every byte is below 0x80.  A byte at or
      above 0x80 decodes to a non-ASCII character, which no parser in this
      model accepts, so such input is reported as `None`. */
  function AsciiText(b: seq<Byte>): (r: Option<string>)
    ensures r.Some? <==> forall i :: 0 <= i < |b| ==> b[i] < 128
    ensures r.Some? ==> |r.value| == |b| && forall i :: 0 <= i < |b| ==> r.value[i] as int == b[i]
  {
    if forall i :: 0 <= i < |b| ==> b[i] < 128 then Some(seq(|b|, i requires 0 <= i < |b| => b[i] as char))
    else None
  }

  lemma AsciiRoundTrip(s: string)
    requires IsAscii(s)
    ensures AsciiText(AsciiBytes(s)) == Some(s)
  {
    var r := AsciiText(AsciiBytes(s));
    assert r.Some?;
    assert r.value == s;
  }
}

=== FILE: blobstorage.dfy ===
/** `BlobStorageService`: the upload-URL grant with its file-type check, and
    the deletion of a post's image from both containers.  The SAS URI the
    Azure client builds and what each blob call does are parameters. */
module BlobStorageService {
  import opened Base
  import opened Strings

  /** `AllowedExtensions`, compared ordinally. */
  const AllowedExtensions: set<string> := {".png", ".jpg", ".bmp"}

  const InvalidFileTypeMessage := "Invalid file type. Allowed: .png, .jpg, .bmp"

  /** The message of the `NullReferenceException` a null file name causes. */
  const NullReferenceMessage := "Object reference not set to an instance of an object."

  // ---------------------------------------------------------------------
  // File types

  /** `Path.GetExtension` on Unix, scanning back from position `i`: the text
      from the last '.' after the last '/', or nothing when there is no such
      '.' or it ends the path. */
  function ExtensionFrom(path: string, i: nat): (r: string)
    requires i <= |path|
    decreases i
  {
    if i == 0 then ""
    else if path[i - 1] == '.' then (if i == |path| then "" else path[i - 1..])
    else if path[i - 1] == '/' then ""
    else ExtensionFrom(path, i - 1)
  }

  function GetExtension(path: string): (r: string)
  {
    ExtensionFrom(path, |path|)
  }

  /** An extension is a suffix of the path made of a '.' and at least one
      more character, none of them '.' or '/'. */
  lemma {:induction false} ExtensionFromShape(path: string, i: nat)
    requires i <= |path|
    requires forall j :: i <= j < |path| ==> path[j] != '.' && path[j] != '/'
    ensures var r := ExtensionFrom(path, i);
      r != "" ==>
        && 2 <= |r| <= |path|
        && r == path[|path| - |r|..]
        && r[0] == '.'
        && forall j :: 0 < j < |r| ==> r[j] != '.' && r[j] != '/'
    decreases i
  {
    if i > 0 && path[i - 1] != '.' && path[i - 1] != '/' {
      ExtensionFromShape(path, i - 1);
    }
  }

  /** A path ending in '.' and three characters other than '.' and '/'
      has those four characters as its extension. */
  lemma {:induction false} ExtensionOfSuffix(path: string, i: nat)
    requires 4 <= |path| && |path| - 3 <= i <= |path|
    requires path[|path| - 4] == '.'
    requires forall j :: |path| - 3 <= j < |path| ==> path[j] != '.' && path[j] != '/'
    ensures ExtensionFrom(path, i) == path[|path| - 4..]
    decreases i
  {
    if i > |path| - 3 {
      ExtensionOfSuffix(path, i - 1);
    }
  }

  /** The file-type rule stated without `GetExtension`: the name's last four
      characters, lower-cased, are one of the allowed extensions. */
  predicate HasAllowedExtension(fileName: string)
  {
    |fileName| >= 4 && ToLower(fileName[|fileName| - 4..]) in AllowedExtensions
  }

  /** `AllowedExtensions.Contains(Path.GetExtension(fileName).ToLower())`
      holds exactly when the name ends in an allowed extension, in any
      letter case. */
  lemma ExtensionCheck(fileName: string)
    ensures ToLower(GetExtension(fileName)) in AllowedExtensions <==> HasAllowedExtension(fileName)
  {
    var e := GetExtension(fileName);
    ExtensionFromShape(fileName, |fileName|);
    if ToLower(e) in AllowedExtensions {
      assert |e| == 4;
      assert e == fileName[|fileName| - 4..];
    }
    if HasAllowedExtension(fileName) {
      var tail := fileName[|fileName| - 4..];
      var low := ToLower(tail);
      assert low[0] == '.' && low[1] != '.' && low[2] != '.' && low[3] != '.';
      assert low[1] != '/' && low[2] != '/' && low[3] != '/';
      assert tail[0] == '.';
      forall j | |fileName| - 3 <= j < |fileName|
        ensures fileName[j] != '.' && fileName[j] != '/'
      {
        assert LowerChar(fileName[j]) == low[j - (|fileName| - 4)];
      }
      ExtensionOfSuffix(fileName, |fileName|);
    }
  }

  // ---------------------------------------------------------------------
  // Upload URLs

  /** `BlobUploadUrlResponse`. */
  datatype UploadUrlResponse = UploadUrlResponse(isSuccess: bool, url: Option<string>, errorMessage: Option<string>)

  function Success(url: string): UploadUrlResponse
  {
    UploadUrlResponse(true, Some(url), None)
  }

  function Failure(message: string): UploadUrlResponse
  {
    UploadUrlResponse(false, None, Some(message))
  }

  /** What `GetBlobClient` and `GenerateSasUri` do: give the SAS URI's text
      or throw an exception with a message. */
  datatype SasOutcome = SasUri(text: string) | SasThrew(message: string)

  /** `GenerateUploadUrl(fileName)`; a null name throws inside the `try` and
      comes back as a failure like every other exception. */
  function GenerateUploadUrl(fileName: Option<string>, sas: SasOutcome): (r: UploadUrlResponse)
    ensures r.isSuccess <==> fileName.Some? && HasAllowedExtension(fileName.value) && sas.SasUri?
    ensures r.isSuccess ==> r == UploadUrlResponse(true, Some(sas.text), None)
    ensures fileName.Some? && !HasAllowedExtension(fileName.value) ==>
      r == UploadUrlResponse(false, None, Some(InvalidFileTypeMessage))
    ensures fileName.Some? && HasAllowedExtension(fileName.value) && sas.SasThrew? ==>
      r == UploadUrlResponse(false, None, Some(sas.message))
    ensures fileName.None? ==> r == UploadUrlResponse(false, None, Some(NullReferenceMessage))
  {
    match fileName
    case None => Failure(NullReferenceMessage)
    case Some(name) =>
      ExtensionCheck(name);
      if ToLower(GetExtension(name)) !in AllowedExtensions then Failure(InvalidFileTypeMessage)
      else
        match sas
        case SasThrew(message) => Failure(message)
        case SasUri(text) => Success(text)
  }

  // ---------------------------------------------------------------------
  // Image deletion

  /** The position of the first character of `s` in `stops`, or `|s|`. */
  function FirstOf(s: string, stops: set<char>): (i: nat)
    ensures i <= |s|
    ensures i < |s| ==> s[i] in stops
    ensures forall j :: 0 <= j < i ==> s[j] !in stops
  {
    if s == [] || s[0] in stops then 0 else 1 + FirstOf(s[1..], stops)
  }

  /** `FirstOf` is pinned down by its contract. */
  lemma FirstOfAt(s: string, stops: set<char>, i: nat)
    requires i <= |s| && (i < |s| ==> s[i] in stops)
    requires forall j :: 0 <= j < i ==> s[j] !in stops
    ensures FirstOf(s, stops) == i
  {
  }

  predicate IsAsciiLetter(c: char)
  {
    'a' <= c <= 'z' || 'A' <= c <= 'Z'
  }

  /** A URI scheme: a letter, then letters, digits, '+', '-' or '.'. */
  predicate IsScheme(s: string)
  {
    && |s| > 0
    && IsAsciiLetter(s[0])
    && forall i :: 0 < i < |s| ==> IsAsciiLetter(s[i]) || '0' <= s[i] <= '9' || s[i] in {'+', '-', '.'}
  }

  /** The parts of an absolute hierarchical URI that matter here. */
  datatype Uri = Uri(scheme: string, host: string, path: string)

  /** `new Uri(imageUrl)` for `scheme://host/path?query#fragment`; the path
      of a URI without one is "/".  Anything else is a `UriFormatException`. */
  function ParseUri(s: string): (r: Result<Uri>)
    ensures r.Ok? ==> IsScheme(r.value.scheme) && r.value.host != ""
    ensures r.Ok? ==> |r.value.path| > 0 && r.value.path[0] == '/'
    ensures r.Ok? ==> forall i :: 0 <= i < |r.value.path| ==> r.value.path[i] != '?' && r.value.path[i] != '#'
    ensures r.Err? ==> r.error == UriFormat
  {
    var colon := FirstOf(s, {':'});
    if colon == |s| || !IsScheme(s[..colon]) || !StartsWith(s[colon + 1..], "//") then Err(UriFormat)
    else
      var rest := s[colon + 3..];
      var hostEnd := FirstOf(rest, {'/', '?', '#'});
      if hostEnd == 0 then Err(UriFormat)
      else
        var tail := rest[hostEnd..];
        var path := tail[..FirstOf(tail, {'?', '#'})];
        Ok(Uri(s[..colon], rest[..hostEnd], if path == "" then "/" else path))
  }

  /** `uri.Segments[^1]`: the path's last segment, with the '/' that ends
      it when the path ends in one. */
  function LastSegment(path: string): (r: string)
    requires |path| > 0
    ensures 0 < |r| <= |path|
  {
    path[LastIndexOf(path[..|path| - 1], '/') + 1..]
  }

  /** The last segment is a nonempty suffix of the path, right after a '/'
      (or the whole path), with no '/' except possibly its last character;
      on a path that starts with '/' it is the whole path only for "/". */
  lemma LastSegmentSpec(path: string)
    requires |path| > 0
    ensures var r := LastSegment(path);
      && r == path[|path| - |r|..]
      && (|r| < |path| ==> path[|path| - |r| - 1] == '/')
      && (forall i :: 0 <= i < |r| - 1 ==> r[i] != '/')
      && (path[0] == '/' && |r| == |path| ==> path == "/")
  {
    var k := LastIndexOf(path[..|path| - 1], '/');
    var r := LastSegment(path);
    assert r == path[k + 1..];
    forall i | 0 <= i < |r| - 1
      ensures r[i] != '/'
    {
      assert r[i] == path[..|path| - 1][k + 1 + i];
    }
  }

  /** `new Uri(imageUrl).Segments[^1]`: the blob name. */
  function BlobName(imageUrl: string): (r: Result<string>)
    ensures r.Err? <==> ParseUri(imageUrl).Err?
    ensures r.Ok? ==> r.value == LastSegment(ParseUri(imageUrl).value.path)
  {
    match ParseUri(imageUrl)
    case Err(e) => Err(e)
    case Ok(uri) => Ok(LastSegment(uri.path))
  }

  /** The blob names in the two containers. */
  datatype Containers = Containers(original: set<string>, processed: set<string>)

  /** The containers after `DeleteBlobImagesAsync` and the exception it
      raised. */
  datatype Deleted = Deleted(containers: Containers, error: Option<Exn>)

  /** `DeleteBlobImagesAsync(imageUrl)`: nothing for a null or blank URL;
      otherwise `DeleteIfExistsAsync` on the blob of that name in the
      processed and the original container, both awaited with `WhenAll`,
      which rethrows the first failure in the order the tasks were given.
      `FailAfter(0, e)` is a call that fails before the blob is deleted. */
  function DeleteBlobImages(imageUrl: Option<string>, cs: Containers, processedFault: Fault, originalFault: Fault): (r: Deleted)
    ensures imageUrl.None? || IsBlank(imageUrl.value) ==> r == Deleted(cs, None)
    ensures imageUrl.Some? && !IsBlank(imageUrl.value) && BlobName(imageUrl.value).Err? ==>
      r == Deleted(cs, Some(UriFormat))
    ensures imageUrl.Some? && !IsBlank(imageUrl.value) && BlobName(imageUrl.value).Ok? ==>
      var name := BlobName(imageUrl.value).value;
      && (forall x :: x in r.containers.processed <==>
            x in cs.processed && !(x == name && Applied(processedFault, 1) == 1))
      && (forall x :: x in r.containers.original <==>
            x in cs.original && !(x == name && Applied(originalFault, 1) == 1))
      && (r.error.None? <==> processedFault.NoFault? && originalFault.NoFault?)
      && (processedFault.FailAfter? ==> r.error == Some(processedFault.error))
      && (processedFault.NoFault? && originalFault.FailAfter? ==> r.error == Some(originalFault.error))
  {
    if imageUrl.None? || IsBlank(imageUrl.value) then Deleted(cs, None)
    else
      match BlobName(imageUrl.value)
      case Err(e) => Deleted(cs, Some(e))
      case Ok(name) =>
        var processed := if Applied(processedFault, 1) == 1 then cs.processed - {name} else cs.processed;
        var original := if Applied(originalFault, 1) == 1 then cs.original - {name} else cs.original;
        var error := if processedFault.FailAfter? then Raised(processedFault) else Raised(originalFault);
        Deleted(Containers(original, processed), error)
  }

  /** Characters that end a URI's host or path. */
  predicate Plain(s: string)
  {
    forall i :: 0 <= i < |s| ==> s[i] != '/' && s[i] != '?' && s[i] != '#'
  }

  /** Parsing gives back the parts a URI was written from. */
  lemma {:induction false} ParseUriParts(scheme: string, host: string, path: string)
    requires IsScheme(scheme) && host != "" && Plain(host)
    requires |path| > 0 && path[0] == '/'
    requires forall i :: 0 <= i < |path| ==> path[i] != '?' && path[i] != '#'
    ensures ParseUri(scheme + "://" + host + path) == Ok(Uri(scheme, host, path))
  {
    var s := scheme + "://" + host + path;
    assert s[..|scheme|] == scheme;
    FirstOfAt(s, {':'}, |scheme|);
    assert s[|scheme| + 1..][..2] == "//";
    var rest := s[|scheme| + 3..];
    assert rest == host + path;
    assert rest[..|host|] == host;
    FirstOfAt(rest, {'/', '?', '#'}, |host|);
    var tail := rest[|host|..];
    assert tail == path;
    FirstOfAt(tail, {'?', '#'}, |tail|);
    assert tail[..|tail|] == path;
  }

  /** The last segment of a path ending in "/name" is the name. */
  lemma LastSegmentOfName(dir: string, name: string)
    requires name != "" && forall i :: 0 <= i < |name| ==> name[i] != '/'
    ensures LastSegment(dir + "/" + name) == name
  {
    var path := dir + "/" + name;
    var body := path[..|path| - 1];
    var k := LastIndexOf(body, '/');
    assert body[|dir|] == '/';
    assert k >= |dir|;
    assert k == |dir| by {
      assert forall j :: |dir| < j < |body| ==> body[j] == name[j - |dir| - 1];
    }
    assert path[|dir| + 1..] == name;
  }

  /** A blob URL of the shape the service stores,
      `https://<account host>/<container>/<blob>`, names its blob: for
      example the service's tests delete "test.jpg" for
      "https://storageaccount.blob.core.windows.net/test-images/test.jpg". */
  lemma BlobNameOfBlobUrl(host: string, container: string, blob: string)
    requires host != "" && Plain(host) && Plain(container) && blob != "" && Plain(blob)
    ensures BlobName("https://" + host + "/" + container + "/" + blob) == Ok(blob)
  {
    var path := "/" + container + "/" + blob;
    forall i | 0 <= i < |path|
      ensures path[i] != '?' && path[i] != '#'
    {
      if 0 < i <= |container| {
        assert path[i] == container[i - 1];
      } else if i > |container| + 1 {
        assert path[i] == blob[i - |container| - 2];
      }
    }
    assert "https://" + host + "/" + container + "/" + blob == "https" + "://" + host + path;
    ParseUriParts("https", host, path);
    LastSegmentOfName("/" + container, blob);
  }
}

=== FILE: cacheservice.dfy ===
/** `CacheService`: the Redis feed cache.  Three kinds of key make up the
    feed: the sorted set "post_sorted" (see `FeedIndex`), one string key
    "post:{id}" per post holding the post's JSON, and one list key
    "post:{id}:latest_comments" per post holding comment JSON, newest
    first.  Any other key in the database is kept as a bare name. */
module CacheService {
  import opened Base
  import opened Strings
  import opened DateTimes
  import opened Entities
  import FeedIndex

  const SortedSetKey := "post_sorted"

  /** `long.MaxValue`, the upper bound used when no cursor is given. */
  const LongMaxValue := 0x7FFF_FFFF_FFFF_FFFF

  /** `LTRIM key 0 5` keeps six comments. */
  const RingCapacity := 6

  /** `LRANGE key 0 1` reads two comments. */
  const LatestCount := 2

  function BodyKey(id: Id): string
  {
    "post:" + id
  }

  function RingKey(id: Id): string
  {
    "post:" + id + ":latest_comments"
  }

  /** The Redis database.  Bodies are kept as the posts their JSON encodes,
      rings as the comments theirs encode. */
  datatype Cache = Cache(
    index: seq<FeedIndex.Entry>,
    bodies: map<Id, Post>,
    rings: map<Id, seq<Comment>>,
    others: set<string>)

  /** A sorted set in Redis order; a list key exists only while non-empty;
      no other key has the name of the sorted set or of a body or ring, as
      a Redis key holds one value. */
  ghost predicate Valid(c: Cache)
  {
    && FeedIndex.Valid(c.index)
    && (forall id :: id in c.rings ==> c.rings[id] != [])
    && (forall k :: k in c.others ==> k != SortedSetKey && !StartsWith(k, "post:"))
  }

  /** A cache in Redis order, as every operation leaves it. */
  type ValidCache = c: Cache | Valid(c) witness Cache([], map[], map[], {})

  /** Every key present in the database. */
  function Keys(c: Cache): set<string>
  {
    (if c.index == [] then {} else {SortedSetKey})
    + (set id | id in c.bodies :: BodyKey(id))
    + (set id | id in c.rings :: RingKey(id))
    + c.others
  }

  /** The state after a call and the exception it raised, if any. */
  datatype Outcome = Outcome(cache: Cache, error: Option<Exn>)

  /** A call that issues `|states| - 1` commands, where `states[k]` is the
      database after the first `k` of them, run under fault `f`. */
  function Run(states: seq<Cache>, f: Fault): (o: Outcome)
    requires |states| > 0
    ensures o.cache == states[Applied(f, |states| - 1)]
    ensures o.cache in states
    ensures o.error == Raised(f)
  {
    Outcome(states[Applied(f, |states| - 1)], Raised(f))
  }

  /** A read: it changes nothing and either answers or raises. */
  function Read<T>(f: Fault, answer: T): (r: Result<T>)
    ensures f.NoFault? <==> r.Ok?
    ensures r.Ok? ==> r.value == answer
    ensures r.Err? ==> Raised(f) == Some(r.error)
  {
    match f
    case NoFault => Ok(answer)
    case FailAfter(_, e) => Err(e)
  }

  // ---------------------------------------------------------------------
  // AddPostAsync and InvalidateOldData

  /** The ids `InvalidateOldData` evicts. */
  function Evicted(c: Cache, maxSize: nat): set<Id>
    requires Valid(c)
  {
    FeedIndex.Members(FeedIndex.Oldest(c.index, maxSize))
  }

  /** `InvalidateOldData`: beyond `maxSize` members, the lowest-ranked ones
      leave the index and their body and comment keys are deleted. */
  function InvalidateOldData(c: Cache, maxSize: nat): (r: Cache)
    requires Valid(c)
    ensures Valid(r)
  {
    var gone := Evicted(c, maxSize);
    Cache(FeedIndex.Evict(c.index, maxSize), c.bodies - gone, c.rings - gone, c.others)
  }

  /** Eviction bounds the index and cascades: every evicted id loses its
      body and ring, everything else keeps its body, its ring and its entry,
      and the evicted entries rank below all kept ones. */
  lemma InvalidateOldDataSpec(c: Cache, maxSize: nat)
    requires Valid(c)
    ensures var r := InvalidateOldData(c, maxSize);
      var gone := Evicted(c, maxSize);
      && (|c.index| <= maxSize ==> r == c)
      && (|c.index| > maxSize ==> |r.index| == maxSize && |gone| == |c.index| - maxSize)
      && (forall id :: id in gone ==> id !in r.bodies && id !in r.rings && !FeedIndex.Has(r.index, id))
      && (forall id :: id !in gone ==> (id in r.bodies <==> id in c.bodies) && (id in r.rings <==> id in c.rings))
      && (forall id :: id !in gone && id in c.bodies ==> r.bodies[id] == c.bodies[id])
      && (forall id :: id !in gone && id in c.rings ==> r.rings[id] == c.rings[id])
      && (forall e :: e in c.index && e.member !in gone ==> e in r.index)
      && (forall x, y :: x in c.index && x.member in gone && y in r.index ==> FeedIndex.Below(x, y))
      && r.others == c.others
  {
    var oldest := FeedIndex.Oldest(c.index, maxSize);
    var gone := Evicted(c, maxSize);
    var r := InvalidateOldData(c, maxSize);
    FeedIndex.EvictKeepsHighest(c.index, maxSize);
    if |c.index| <= maxSize {
      assert gone == {};
      assert c.bodies - gone == c.bodies;
      assert c.rings - gone == c.rings;
    } else {
      MembersCount(oldest);
    }
    forall x, y | x in c.index && x.member in gone && y in r.index
      ensures FeedIndex.Below(x, y)
    {
      assert x in oldest;
    }
  }

  /** Distinct members: as many ids as entries. */
  lemma {:induction false} MembersCount(s: seq<FeedIndex.Entry>)
    requires forall i, j :: 0 <= i < j < |s| ==> s[i].member != s[j].member
    ensures |FeedIndex.Members(s)| == |s|
    decreases |s|
  {
    if s != [] {
      var t := s[1..];
      assert forall i :: 0 <= i < |t| ==> t[i] == s[i + 1];
      MembersCount(t);
      assert FeedIndex.Members(s) == {s[0].member} + FeedIndex.Members(t) by {
        forall m ensures m in FeedIndex.Members(s) <==> m == s[0].member || m in FeedIndex.Members(t) {
          if FeedIndex.Has(s, m) && m != s[0].member {
            var i :| 0 <= i < |s| && s[i].member == m;
            assert t[i - 1].member == m;
          }
        }
      }
    }
  }

  /** `AddPostAsync(postId, timestamp, post)`: `ZADD`, then `SET` of the
      body, then `InvalidateOldData`, whose `ZREM` of the evicted members
      and whose `DEL`s of their body and ring keys are separate steps a
      fault can come between. */
  function AddPost(c: Cache, postId: Id, timestamp: int, post: Post, maxSize: nat, f: Fault): (o: Outcome)
    requires Valid(c)
    ensures Valid(o.cache)
    ensures o.error == Raised(f)
  {
    var s1 := c.(index := FeedIndex.Add(c.index, postId, timestamp));
    var s2 := s1.(bodies := s1.bodies[postId := post]);
    var s3 := s2.(index := FeedIndex.Evict(s2.index, maxSize));
    var s4 := InvalidateOldData(s2, maxSize);
    Run([c, s1, s2, s3, s4], f)
  }

  /** A fault between the eviction's `ZREM` and its `DEL`s leaves every
      evicted post's body and comments behind, no longer reachable through
      the index. */
  lemma InterruptedEvictionOrphans(c: Cache, postId: Id, timestamp: int, post: Post, maxSize: nat, e: Exn)
    requires Valid(c)
    ensures var u := Upserted(c, postId, timestamp, post);
      var r := AddPost(c, postId, timestamp, post, maxSize, FailAfter(3, e)).cache;
      && r.index == InvalidateOldData(u, maxSize).index
      && r.bodies == u.bodies && r.rings == u.rings
      && (forall id :: id in Evicted(u, maxSize) ==> !FeedIndex.Has(r.index, id))
  {
    var u := Upserted(c, postId, timestamp, post);
    InvalidateOldDataSpec(u, maxSize);
  }

  /** The cache after an uninterrupted `AddPostAsync`, before eviction. */
  function Upserted(c: Cache, postId: Id, timestamp: int, post: Post): (r: Cache)
    requires Valid(c)
    ensures Valid(r)
  {
    Cache(FeedIndex.Add(c.index, postId, timestamp), c.bodies[postId := post], c.rings, c.others)
  }

  /** `AddPostAsync` is an upsert followed by eviction: unless the id is
      itself evicted, it ends in the index with exactly the given score and
      with `post` as its body; re-adding a present id does not grow the
      index; the index never ends above `maxSize` unless it already was. */
  lemma AddPostSpec(c: Cache, postId: Id, timestamp: int, post: Post, maxSize: nat)
    requires Valid(c)
    ensures var r := AddPost(c, postId, timestamp, post, maxSize, NoFault).cache;
      var u := Upserted(c, postId, timestamp, post);
      && r == InvalidateOldData(u, maxSize)
      && (postId !in Evicted(u, maxSize) ==>
            FeedIndex.ScoreOf(r.index, postId) == Some(timestamp) && postId in r.bodies && r.bodies[postId] == post)
      && |r.index| == (if |u.index| <= maxSize then |u.index| else maxSize)
      && (FeedIndex.Has(c.index, postId) ==> |u.index| == |c.index|)
      && (!FeedIndex.Has(c.index, postId) ==> |u.index| == |c.index| + 1)
      && r.others == c.others
  {
    var u := Upserted(c, postId, timestamp, post);
    var r := InvalidateOldData(u, maxSize);
    FeedIndex.AddSpec(c.index, postId, timestamp);
    InvalidateOldDataSpec(u, maxSize);
    if postId !in Evicted(u, maxSize) {
      var e := FeedIndex.Entry(postId, timestamp);
      assert e in u.index;
      assert e in r.index;
      FeedIndex.ScoreOfValid(r.index, e);
    }
  }

  /** A post newer than every indexed one survives its own eviction pass
      whenever the cache holds at least one post. */
  lemma NewestSurvives(c: Cache, postId: Id, timestamp: int, post: Post, maxSize: nat)
    requires Valid(c) && maxSize >= 1
    requires forall e :: e in c.index ==> e.score < timestamp
    ensures postId !in Evicted(Upserted(c, postId, timestamp, post), maxSize)
  {
    var u := Upserted(c, postId, timestamp, post);
    var e := FeedIndex.Entry(postId, timestamp);
    FeedIndex.AddSpec(c.index, postId, timestamp);
    assert e in u.index;
    FeedIndex.TopNotOldest(u.index, e, maxSize);
  }

  // ---------------------------------------------------------------------
  // Reads

  /** The member ids of index entries, in order. */
  function Ids(s: seq<FeedIndex.Entry>): (r: seq<Id>)
    ensures |r| == |s|
    ensures forall i :: 0 <= i < |s| ==> r[i] == s[i].member
  {
    seq(|s|, i requires 0 <= i < |s| => s[i].member)
  }

  /** `GetPaginatedPostsAsync(cursor, limit)`: ids with score at most the
      cursor (or `long.MaxValue`), highest score first, at most `limit`. */
  function GetPaginatedPosts(c: Cache, cursor: Option<int>, limit: int, f: Fault): (r: Result<seq<Id>>)
    requires Valid(c)
    ensures r.Ok? <==> f.NoFault?
  {
    var bound := if cursor.Some? then cursor.value else LongMaxValue;
    Read(f, Ids(FeedIndex.RangeDesc(c.index, bound, limit)))
  }

  /** The ids a page returns are indexed, within the bound, in descending
      Redis order, at most `limit` of them, and any indexed id within the
      bound that is missing ranks below all of them. */
  lemma GetPaginatedPostsSpec(c: Cache, cursor: Option<int>, limit: int)
    requires Valid(c)
    ensures var r := GetPaginatedPosts(c, cursor, limit, NoFault).value;
      var bound := if cursor.Some? then cursor.value else LongMaxValue;
      var page := FeedIndex.RangeDesc(c.index, bound, limit);
      && r == Ids(page)
      && (forall i :: 0 <= i < |page| ==> page[i] in c.index && page[i].score <= bound)
      && (forall i, j :: 0 <= i < j < |page| ==> FeedIndex.Below(page[j], page[i]))
      && (limit >= 0 ==> |r| <= limit)
      && (forall e :: e in c.index && e.score <= bound && e !in page ==>
            0 <= limit == |r| && forall i :: 0 <= i < |page| ==> FeedIndex.Below(e, page[i]))
  {
    var bound := if cursor.Some? then cursor.value else LongMaxValue;
    FeedIndex.RangeDescSpec(c.index, bound, limit);
  }

  /** `GetPostByIdAsync(postId)`: the body, or null when the key is absent. */
  function GetPostById(c: Cache, postId: Id, f: Fault): (r: Result<Option<Post>>)
    ensures r.Ok? <==> f.NoFault?
    ensures r.Ok? ==> (r.value.None? <==> postId !in c.bodies)
    ensures r.Ok? && r.value.Some? ==> r.value.value == c.bodies[postId]
  {
    Read(f, if postId in c.bodies then Some(c.bodies[postId]) else None)
  }

  /** The ring of a post; a missing key reads as the empty list. */
  function Ring(c: Cache, postId: Id): seq<Comment>
  {
    if postId in c.rings then c.rings[postId] else []
  }

  /** `GetLatestCommentsAsync(postId)`: the first two ring entries. */
  function GetLatestComments(c: Cache, postId: Id, f: Fault): (r: Result<seq<Comment>>)
    ensures r.Ok? <==> f.NoFault?
    ensures r.Ok? ==> |r.value| == (if |Ring(c, postId)| < LatestCount then |Ring(c, postId)| else LatestCount)
    ensures r.Ok? ==> r.value == Ring(c, postId)[..|r.value|]
  {
    var ring := Ring(c, postId);
    Read(f, if |ring| < LatestCount then ring else ring[..LatestCount])
  }

  // ---------------------------------------------------------------------
  // Comment rings

  /** `AddCommentToPostAsync(postId, commentId, comment)`: `LPUSH` of the
      comment, then `LTRIM 0 5`.  `commentId` is not used. */
  function AddCommentToPost(c: Cache, postId: Id, commentId: Id, comment: Comment, f: Fault): (o: Outcome)
    requires Valid(c)
    ensures Valid(o.cache)
    ensures o.error == Raised(f)
  {
    var pushed := [comment] + Ring(c, postId);
    var s1 := c.(rings := c.rings[postId := pushed]);
    var s2 := c.(rings := c.rings[postId := Take(pushed, RingCapacity)]);
    Run([c, s1, s2], f)
  }

  /** The ring becomes the six newest of the new comment and the old ring:
      the new comment first, at most six entries, every other key as it
      was; and the comment id argument plays no part. */
  lemma AddCommentSpec(c: Cache, postId: Id, commentId: Id, otherId: Id, comment: Comment)
    requires Valid(c)
    ensures var r := AddCommentToPost(c, postId, commentId, comment, NoFault).cache;
      && r == AddCommentToPost(c, postId, otherId, comment, NoFault).cache
      && r.index == c.index && r.bodies == c.bodies && r.others == c.others
      && (forall id :: id != postId ==> Ring(r, id) == Ring(c, id))
      && 1 <= |Ring(r, postId)| <= RingCapacity
      && Ring(r, postId)[0] == comment
      && Ring(r, postId)[1..] == Ring(c, postId)[..|Ring(r, postId)| - 1]
      && |Ring(r, postId)| == (if |Ring(c, postId)| < RingCapacity then |Ring(c, postId)| + 1 else RingCapacity)
  {
    var r := AddCommentToPost(c, postId, commentId, comment, NoFault).cache;
    var before := Ring(c, postId);
    assert Ring(r, postId) == Take([comment] + before, RingCapacity);
  }

  /** A push whose trim is lost leaves a full ring at seven entries. */
  lemma InterruptedTrimOverflows(c: Cache, postId: Id, commentId: Id, comment: Comment, e: Exn)
    requires Valid(c) && |Ring(c, postId)| == RingCapacity
    ensures |Ring(AddCommentToPost(c, postId, commentId, comment, FailAfter(1, e)).cache, postId)| == RingCapacity + 1
  {
  }

  /** Every ring holds at most six comments. */
  ghost predicate RingsBounded(c: Cache)
  {
    forall id :: id in c.rings ==> |c.rings[id]| <= RingCapacity
  }

  lemma AddCommentKeepsBound(c: Cache, postId: Id, commentId: Id, comment: Comment)
    requires Valid(c) && RingsBounded(c)
    ensures RingsBounded(AddCommentToPost(c, postId, commentId, comment, NoFault).cache)
  {
  }

  // ---------------------------------------------------------------------
  // Deletes

  /** `DeletePostAsync(postId)`: `ZREM`, then `DEL` of the body key, then
      `DEL` of the ring key. */
  function DeletePost(c: Cache, postId: Id, f: Fault): (o: Outcome)
    requires Valid(c)
    ensures Valid(o.cache)
    ensures o.error == Raised(f)
  {
    var s1 := c.(index := FeedIndex.Remove(c.index, postId));
    var s2 := s1.(bodies := s1.bodies - {postId});
    var s3 := s2.(rings := s2.rings - {postId});
    Run([c, s1, s2, s3], f)
  }

  /** After `DeletePostAsync` the post is gone from the index, its body and
      its ring, and every other id keeps its entry, body and ring. */
  lemma DeletePostSpec(c: Cache, postId: Id)
    requires Valid(c)
    ensures var r := DeletePost(c, postId, NoFault).cache;
      && !FeedIndex.Has(r.index, postId) && postId !in r.bodies && postId !in r.rings
      && (forall e :: e in r.index <==> e in c.index && e.member != postId)
      && (forall id :: id != postId ==> (id in r.bodies <==> id in c.bodies) && (id in r.rings <==> id in c.rings))
      && (forall id :: id != postId && id in c.bodies ==> r.bodies[id] == c.bodies[id])
      && (forall id :: id != postId && id in c.rings ==> r.rings[id] == c.rings[id])
      && r.others == c.others
  {
    var r := DeletePost(c, postId, NoFault).cache;
    forall i | 0 <= i < |r.index|
      ensures r.index[i].member != postId
    {
      assert r.index[i] in r.index;
    }
  }

  /** Deleting a post twice is deleting it once. */
  lemma DeletePostIdempotent(c: Cache, postId: Id)
    requires Valid(c)
    ensures var once := DeletePost(c, postId, NoFault).cache;
      DeletePost(once, postId, NoFault).cache == once
  {
    var once := DeletePost(c, postId, NoFault).cache;
    DeletePostSpec(c, postId);
    RemoveAbsent(once.index, postId);
  }

  /** Removing an absent member leaves a valid set unchanged. */
  lemma {:induction false} RemoveAbsent(s: seq<FeedIndex.Entry>, m: string)
    requires FeedIndex.Valid(s) && !FeedIndex.Has(s, m)
    ensures FeedIndex.Remove(s, m) == s
    decreases |s|
  {
    if s != [] {
      var t := s[1..];
      FeedIndex.ValidSuffix(s, 1);
      assert !FeedIndex.Has(t, m) by {
        forall i | 0 <= i < |t| ensures t[i].member != m {
          assert t[i] == s[i + 1];
        }
      }
      RemoveAbsent(t, m);
      assert s[0].member != m;
      assert s == [s[0]] + t;
    }
  }

  /** The text of each ring entry, as Redis holds it. */
  function Texts(ring: seq<Comment>, zone: Zone): (r: seq<string>)
    ensures |r| == |ring|
    ensures forall j :: 0 <= j < |ring| ==> r[j] == CommentJson(ring[j], zone)
  {
    seq(|ring|, j requires 0 <= j < |ring| => CommentJson(ring[j], zone))
  }

  /** Index of the first text that contains `needle`, if any
      (`FirstOrDefault(c => c.ToString().Contains(commentId))`). */
  function FirstContaining(texts: seq<string>, needle: string): (i: int)
    ensures -1 <= i < |texts|
    ensures i >= 0 ==> Contains(texts[i], needle)
    ensures forall j :: 0 <= j < |texts| && (i < 0 || j < i) ==> !Contains(texts[j], needle)
  {
    if texts == [] then -1
    else if Contains(texts[0], needle) then 0
    else
      var i := FirstContaining(texts[1..], needle);
      assert forall j :: 1 <= j < |texts| ==> texts[j] == texts[1..][j - 1];
      if i < 0 then -1 else i + 1
  }

  /** The entries `LREM key 0 target` keeps: those whose text differs. */
  function Differs(target: string, zone: Zone): Comment -> bool
  {
    (x: Comment) => CommentJson(x, zone) != target
  }

  /** The ring with every entry whose text equals `target` removed
      (`LREM key 0 target`); an emptied list key disappears. */
  function RemoveFromRing(c: Cache, postId: Id, target: string, zone: Zone): (r: Cache)
    requires Valid(c)
    ensures Valid(r)
    ensures r.index == c.index && r.bodies == c.bodies && r.others == c.others
    ensures forall id :: id != postId ==> Ring(r, id) == Ring(c, id)
  {
    var kept := Filter(Ring(c, postId), Differs(target, zone));
    if kept == [] then c.(rings := c.rings - {postId}) else c.(rings := c.rings[postId := kept])
  }

  /** `DeleteCommentAsync(postId, commentId)` as written: `LRANGE 0 -1`, then,
      if some entry's text contains `commentId`, `LREM` of every entry equal
      to the first such entry. */
  function DeleteComment(c: Cache, postId: Id, commentId: string, zone: Zone, f: Fault): (o: Outcome)
    requires Valid(c)
    ensures Valid(o.cache)
    ensures o.error == Raised(f)
  {
    var texts := Texts(Ring(c, postId), zone);
    var i := FirstContaining(texts, commentId);
    if i < 0 then Run([c, c], f)
    else
      var d := RemoveFromRing(c, postId, texts[i], zone);
      Run([c, c, d], f)
  }

  /** `DeleteCommentAsync` touches no key but the post's comment list, and
      when no entry mentions the id it changes nothing at all. */
  lemma DeleteCommentFrame(c: Cache, postId: Id, commentId: string, zone: Zone)
    requires Valid(c)
    ensures var r := DeleteComment(c, postId, commentId, zone, NoFault).cache;
      && r.index == c.index && r.bodies == c.bodies && r.others == c.others
      && (forall id :: id != postId ==> Ring(r, id) == Ring(c, id))
      && (FirstContaining(Texts(Ring(c, postId), zone), commentId) < 0 ==> r == c)
  {
    var texts := Texts(Ring(c, postId), zone);
    var i := FirstContaining(texts, commentId);
    if i >= 0 {
      assert DeleteComment(c, postId, commentId, zone, NoFault).cache == RemoveFromRing(c, postId, texts[i], zone);
    }
  }

  /** When some entry mentions the id, the first entry that does, and every
      entry with the same text, leaves the list, and every other entry stays. */
  lemma DeleteCommentSpec(c: Cache, postId: Id, commentId: string, zone: Zone)
    requires Valid(c)
    ensures var ring := Ring(c, postId);
      var texts := Texts(ring, zone);
      var i := FirstContaining(texts, commentId);
      var after := Ring(DeleteComment(c, postId, commentId, zone, NoFault).cache, postId);
      i >= 0 ==>
        && ring[i] !in after
        && |after| < |ring|
        && after == Filter(ring, Differs(texts[i], zone))
        && (forall x :: x in after <==> x in ring && CommentJson(x, zone) != texts[i])
        && (forall x :: multiset(after)[x] == if CommentJson(x, zone) == texts[i] then 0 else multiset(ring)[x])
  {
    var ring := Ring(c, postId);
    var texts := Texts(ring, zone);
    var i := FirstContaining(texts, commentId);
    if i >= 0 {
      DeleteCommentFilters(c, postId, commentId, zone);
      DiffersFilter(ring, texts[i], zone, i);
    }
  }

  /** What `LREM` of an entry's own text leaves: that entry and every copy
      of its text go, and everything else stays with its multiplicity. */
  lemma DiffersFilter(ring: seq<Comment>, target: string, zone: Zone, i: nat)
    requires i < |ring| && CommentJson(ring[i], zone) == target
    ensures var after := Filter(ring, Differs(target, zone));
      && ring[i] !in after
      && |after| < |ring|
      && (forall x :: x in after <==> x in ring && CommentJson(x, zone) != target)
      && (forall x :: multiset(after)[x] == if CommentJson(x, zone) == target then 0 else multiset(ring)[x])
  {
    var p := Differs(target, zone);
    FilterSpec(ring, p, i);
    FilterCounts(ring, p);
  }

  /** The list left by a delete that found a match is the old list filtered. */
  lemma DeleteCommentFilters(c: Cache, postId: Id, commentId: string, zone: Zone)
    requires Valid(c)
    ensures var ring := Ring(c, postId);
      var texts := Texts(ring, zone);
      var i := FirstContaining(texts, commentId);
      i >= 0 ==> Ring(DeleteComment(c, postId, commentId, zone, NoFault).cache, postId) == Filter(ring, Differs(texts[i], zone))
  {
    var texts := Texts(Ring(c, postId), zone);
    var i := FirstContaining(texts, commentId);
    if i >= 0 {
      assert DeleteComment(c, postId, commentId, zone, NoFault).cache == RemoveFromRing(c, postId, texts[i], zone);
    }
  }

  /** Filtering out an element that is present removes it and shortens the
      sequence; what is left is what satisfies the predicate. */
  lemma FilterSpec<T(!new)>(s: seq<T>, p: T -> bool, i: nat)
    requires i < |s| && !p(s[i])
    ensures s[i] !in Filter(s, p)
    ensures |Filter(s, p)| < |s|
    ensures forall x :: x in Filter(s, p) <==> x in s && p(x)
  {
    FilterDrops(s, p, i);
  }

  /** Filtering out an element that is present shortens the sequence. */
  lemma {:induction false} FilterDrops<T(!new)>(s: seq<T>, p: T -> bool, i: nat)
    requires i < |s| && !p(s[i])
    ensures |Filter(s, p)| < |s|
    decreases |s|
  {
    if i > 0 {
      FilterDrops(s[1..], p, i - 1);
    }
  }

  // ---------------------------------------------------------------------
  // RemoveAsync

  /** `RemoveAsync(prefix)`: `KEYS prefix*`, then `DEL` of the keys found,
      when there are any. */
  function RemoveByPrefix(c: Cache, prefix: string, f: Fault): (o: Outcome)
    requires Valid(c)
    ensures Valid(o.cache)
    ensures o.error == Raised(f)
  {
    var r := Cache(
      if StartsWith(SortedSetKey, prefix) then [] else c.index,
      map id | id in c.bodies && !StartsWith(BodyKey(id), prefix) :: c.bodies[id],
      map id | id in c.rings && !StartsWith(RingKey(id), prefix) :: c.rings[id],
      set k | k in c.others && !StartsWith(k, prefix));
    if exists k :: k in Keys(c) && StartsWith(k, prefix) then Run([c, c, r], f) else Run([c, c], f)
  }

  /** After `RemoveAsync(prefix)` the keys left are exactly the keys that
      were present and do not start with `prefix`. */
  lemma RemoveByPrefixSpec(c: Cache, prefix: string)
    requires Valid(c)
    ensures Keys(RemoveByPrefix(c, prefix, NoFault).cache) == set k | k in Keys(c) && !StartsWith(k, prefix)
  {
    var r := RemoveByPrefix(c, prefix, NoFault).cache;
    var want := set k | k in Keys(c) && !StartsWith(k, prefix);
    if exists k :: k in Keys(c) && StartsWith(k, prefix) {
      forall k | k in Keys(r) ensures k in want {
        if k in c.others {
        } else if k == SortedSetKey && r.index != [] {
        } else if exists id :: id in r.bodies && k == BodyKey(id) {
          var id :| id in r.bodies && k == BodyKey(id);
        } else {
          var id :| id in r.rings && k == RingKey(id);
        }
      }
      forall k | k in want ensures k in Keys(r) {
        if k in c.others {
        } else if k == SortedSetKey && c.index != [] {
        } else if exists id :: id in c.bodies && k == BodyKey(id) {
          var id :| id in c.bodies && k == BodyKey(id);
          assert id in r.bodies;
        } else {
          var id :| id in c.rings && k == RingKey(id);
          assert id in r.rings;
        }
      }
    } else {
      forall k | k in Keys(c) ensures !StartsWith(k, prefix) {
      }
    }
  }

  /** No feed key starts with "posts:": the sorted set key and every
      "post:{id}" key have '_' or ':' where "posts:" has 's'. */
  lemma FeedKeysOutsidePostsPrefix(id: Id)
    ensures !StartsWith(SortedSetKey, "posts:")
    ensures !StartsWith(BodyKey(id), "posts:")
    ensures !StartsWith(RingKey(id), "posts:")
  {
    assert SortedSetKey[4] != "posts:"[4];
    assert BodyKey(id)[4] == ':';
    assert RingKey(id)[4] == ':';
  }

  /** `RemoveAsync("posts:")` leaves the feed cache as it was: the index, every
      body and every ring. */
  lemma RemovePostsPrefixKeepsFeed(c: Cache)
    requires Valid(c)
    ensures var r := RemoveByPrefix(c, "posts:", NoFault).cache;
      r.index == c.index && r.bodies == c.bodies && r.rings == c.rings
  {
    var r := RemoveByPrefix(c, "posts:", NoFault).cache;
    FeedKeysOutsidePostsPrefix("");
    forall id | id in c.bodies ensures id in r.bodies {
      FeedKeysOutsidePostsPrefix(id);
    }
    forall id | id in c.rings ensures id in r.rings {
      FeedKeysOutsidePostsPrefix(id);
    }
  }
}

=== FILE: commentfunction.dfy ===
/** `CommentFunction.RunAsync`: the queue consumer that stores a comment
    message.  It settles the message in one of three ways: dead-letter an
    empty comment, complete after the comment was saved and the cache call
    returned, abandon (for redelivery) after any exception.  What the JSON
    reader makes of a non-empty body and what each call does are
    parameters. */
module CommentFunction {
  import opened Base
  import opened Entities
  import opened Database
  import CacheService

  /** What `JsonConvert.DeserializeObject<Comment>` gives: null, a comment,
      or an exception for malformed text. */
  datatype Parse = NullComment | Parsed(comment: Comment) | Malformed(error: Exn)

  /** The reader returns null for an empty body. */
  function Deserialize(json: string, parse: string -> Parse): (p: Parse)
    ensures json == "" ==> p == NullComment
    ensures json != "" ==> p == parse(json)
  {
    if json == "" then NullComment else parse(json)
  }

  /** How the message was settled; `Unsettled` when the abandon call in
      the handler threw, so the exception leaves `RunAsync`. */
  datatype Settlement = DeadLettered | Completed | Abandoned | Unsettled(error: Exn)

  /** The faults of the calls `RunAsync` makes: `SaveChangesAsync`,
      `RemoveAsync`, the dead-letter or complete call, and the abandon
      call. */
  datatype Faults = Faults(save: Fault, remove: Fault, settle: Fault, abandon: Fault)

  /** The settlement and the stores after one delivery. */
  datatype Processed = Processed(settlement: Settlement, db: Db, cache: CacheService.ValidCache)

  /** The `catch` block: abandon the message. */
  function Abandon(db: Db, cache: CacheService.ValidCache, f: Fault): (r: Processed)
    ensures r.db == db && r.cache == cache
    ensures r.settlement == Abandoned || r.settlement.Unsettled?
  {
    match f
    case NoFault => Processed(Abandoned, db, cache)
    case FailAfter(_, e) => Processed(Unsettled(e), db, cache)
  }

  /** The prefix `RunAsync` clears after saving a comment. */
  const PostsPrefix := "posts:"

  /** `RunAsync(message, messageActions)`, with `generated` the key EF Core
      gives a comment whose id is `Guid.Empty`.  A message is dead-lettered
      exactly when it holds no comment (an empty body is such a message)
      and the dead-letter call goes through, and nothing is stored then.
      It is completed exactly when it holds a comment, the save goes
      through (the key is new, its post and creator exist, the content
      fits its column), the cache call returns and the complete call goes
      through; the comment is then the table's new last row.  Any
      exception (malformed text, a failed save, a failed cache call)
      abandons it. */
  function RunAsync(body: string, parse: string -> Parse, generated: Id, db: Db, cache: CacheService.ValidCache,
                    faults: Faults): (r: Processed)
    ensures var p := Deserialize(body, parse);
      && (r.settlement == DeadLettered <==> p == NullComment && faults.settle.NoFault?)
      && (p == NullComment ==> r.db == db && r.cache == cache)
      && (body == "" && faults.settle.NoFault? ==> r == Processed(DeadLettered, db, cache))
    ensures var p := Deserialize(body, parse);
      && (r.settlement == Completed <==>
            && p.Parsed?
            && faults.save.NoFault? && faults.remove.NoFault? && faults.settle.NoFault?
            && !HasComment(db, CommentKey(p.comment, generated))
            && HasPost(db, p.comment.postId) && HasAccount(db, p.comment.creatorId) && ContentFits(p.comment.content))
      && (r.settlement == Completed ==>
            r.db == db.(comments := db.comments + [p.comment.(id := CommentKey(p.comment, generated),
                                                              createdAt := Stored(p.comment.createdAt))]))
    ensures var p := Deserialize(body, parse);
      (|| p.Malformed?
       || (p.Parsed? && InsertComment(db, p.comment, generated, faults.save).error.Some?)
       || (p.Parsed? && !ContentFits(p.comment.content))
       || (p.Parsed? && faults.remove.FailAfter?))
      ==> r.settlement == Abandoned || r.settlement.Unsettled?
  {
    match Deserialize(body, parse)
    case Malformed(_) => Abandon(db, cache, faults.abandon)
    case NullComment =>
      if faults.settle.NoFault? then Processed(DeadLettered, db, cache) else Abandon(db, cache, faults.abandon)
    case Parsed(c) =>
      var saved := InsertComment(db, c, generated, faults.save);
      if saved.error.Some? then Abandon(saved.db, cache, faults.abandon)
      else
        var o := CacheService.RemoveByPrefix(cache, PostsPrefix, faults.remove);
        if o.error.Some? || faults.settle.FailAfter? then Abandon(saved.db, o.cache, faults.abandon)
        else Processed(Completed, saved.db, o.cache)
  }

  /** `RemoveAsync("posts:")` under any fault leaves the index, the bodies
      and the rings as they were. */
  lemma RemovePostsKeepsFeed(cache: CacheService.ValidCache, f: Fault)
    ensures var o := CacheService.RemoveByPrefix(cache, PostsPrefix, f).cache;
      o.index == cache.index && o.bodies == cache.bodies && o.rings == cache.rings
  {
    CacheService.RemovePostsPrefixKeepsFeed(cache);
  }

  /** Whatever happens, the feed cache is left as it was, and the table
      either stays as it was or gains the message's comment. */
  lemma StoresAfterDelivery(body: string, parse: string -> Parse, generated: Id, db: Db, cache: CacheService.ValidCache,
                            faults: Faults)
    ensures var r := RunAsync(body, parse, generated, db, cache, faults);
      && r.cache.index == cache.index && r.cache.bodies == cache.bodies && r.cache.rings == cache.rings
      && (r.db == db || (Deserialize(body, parse).Parsed?
                         && r.db == InsertComment(db, Deserialize(body, parse).comment, generated, NoFault).db))
  {
    RemovePostsKeepsFeed(cache, faults.remove);
  }

  /** Redelivering a message whose comment has an id of its own never
      stores it twice: once the comment is in, the next delivery changes no
      row.  Primary keys stay unique throughout, whatever the id. */
  lemma RedeliveryStoresOnce(body: string, parse: string -> Parse, generated1: Id, generated2: Id, db: Db,
                             cache: CacheService.ValidCache, faults1: Faults, faults2: Faults)
    requires KeysUnique(db)
    ensures var r1 := RunAsync(body, parse, generated1, db, cache, faults1);
      var r2 := RunAsync(body, parse, generated2, r1.db, r1.cache, faults2);
      && KeysUnique(r1.db) && KeysUnique(r2.db)
      && (r1.db != db ==> Deserialize(body, parse).Parsed?)
      && (r1.db != db && Deserialize(body, parse).comment.id != EmptyGuid ==>
            r2.db == r1.db && r2.settlement != Completed)
  {
    var p := Deserialize(body, parse);
    if p.Parsed? {
      InsertCommentUnique(db, p.comment, generated1, faults1.save);
      InsertCommentOnce(db, p.comment, generated1, generated2, faults1.save, faults2.save);
      var r1 := RunAsync(body, parse, generated1, db, cache, faults1);
      InsertCommentUnique(r1.db, p.comment, generated2, faults2.save);
    }
  }

  /** A message whose comment has the id `Guid.Empty` is stored again on
      every delivery that completes, since each save generates a new key. */
  lemma EmptyIdRedeliveryStoresTwice(body: string, parse: string -> Parse, generated1: Id, generated2: Id, db: Db,
                                     cache: CacheService.ValidCache)
    requires Deserialize(body, parse).Parsed? && Deserialize(body, parse).comment.id == EmptyGuid
    requires generated1 != generated2 && !HasComment(db, generated1) && !HasComment(db, generated2)
    requires var c := Deserialize(body, parse).comment;
      HasPost(db, c.postId) && HasAccount(db, c.creatorId) && ContentFits(c.content)
    ensures var none := Faults(NoFault, NoFault, NoFault, NoFault);
      var r1 := RunAsync(body, parse, generated1, db, cache, none);
      var r2 := RunAsync(body, parse, generated2, r1.db, r1.cache, none);
      && r1.settlement == Completed && r2.settlement == Completed
      && |r2.db.comments| == |db.comments| + 2
  {
    var c := Deserialize(body, parse).comment;
    EmptyIdStoredTwice(db, c, generated1, generated2);
  }
}

=== FILE: commentservice.dfy ===
/** `CommentService.CreateCommentAsync`: the comment is built, serialised,
    and one retried unit sends it to the Service Bus queue and then pushes
    it onto the post's comment ring.  The message queue is the sequence of
    message bodies sent so far; the clock, the new `Guid`, the local zone
    and what the queue and the cache do on each attempt are parameters. */
module CommentService {
  import opened Base
  import opened DateTimes
  import opened Entities
  import CacheService
  import RetryPolicies

  const RetryCount := RetryPolicies.RetryCount

  /** `CommentRequest`. */
  datatype CommentRequest = CommentRequest(content: string, creatorId: Id, postId: Id)

  /** The queue's messages, oldest first, and the cache. */
  datatype Outbox = Outbox(queue: seq<string>, cache: CacheService.ValidCache)

  /** The comment `CreateCommentAsync` builds: a fresh id, the request's
      fields, and the `CreatedAt` default of the UTC clock. */
  function NewComment(req: CommentRequest, id: Id, now: Ticks): (c: Comment)
    ensures c.id == id && c.content == req.content
    ensures c.creatorId == req.creatorId && c.postId == req.postId
    ensures c.createdAt == DateTime(now, Utc)
  {
    Comment(id, req.content, req.creatorId, req.postId, DateTime(now, Utc))
  }

  /** One attempt of the retried unit: `SendMessageAsync` under the queue
      fault of attempt `n` (a send can fail after the queue accepted the
      message), then `AddCommentToPostAsync` under the cache fault of
      attempt `n`. */
  function SendThenPush(body: string, comment: Comment, sendFault: nat -> Fault, cacheFault: nat -> Fault)
    : (Outbox, nat) -> RetryPolicies.Step<Outbox>
  {
    (s: Outbox, n: nat) =>
      var queue := if Applied(sendFault(n), 1) == 1 then s.queue + [body] else s.queue;
      if sendFault(n).FailAfter? then RetryPolicies.Step(Outbox(queue, s.cache), Raised(sendFault(n)))
      else
        var o := CacheService.AddCommentToPost(s.cache, comment.postId, comment.id, comment, cacheFault(n));
        RetryPolicies.Step(Outbox(queue, o.cache), o.error)
  }

  /** What `CreateCommentAsync` returns (or throws) and leaves behind. */
  datatype Created = Created(result: Result<bool>, outbox: Outbox)

  /** `CreateCommentAsync(request)`: the exception that escapes the policy
      is logged and rethrown. */
  function CreateComment(req: CommentRequest, id: Id, now: Ticks, zone: Zone, outbox: Outbox,
                         sendFault: nat -> Fault, cacheFault: nat -> Fault): (r: Created)
    ensures r.result.Ok? ==> r.result.value
  {
    var comment := NewComment(req, id, now);
    var e := RetryPolicies.Execute(outbox, SendThenPush(CommentJson(comment, zone), comment, sendFault, cacheFault));
    Created(if e.error.None? then Ok(true) else Err(e.error.value), e.state)
  }

  /** The exception attempt `n` raises, whatever the state. */
  function AttemptError(sendFault: nat -> Fault, cacheFault: nat -> Fault, n: nat): Option<Exn>
  {
    if sendFault(n).FailAfter? then Raised(sendFault(n)) else Raised(cacheFault(n))
  }

  /** Attempt `n` raises an exception the policy retries. */
  predicate Fails(sendFault: nat -> Fault, cacheFault: nat -> Fault, n: nat)
  {
    AttemptError(sendFault, cacheFault, n).Some? && RetryPolicies.Handled(AttemptError(sendFault, cacheFault, n).value)
  }

  /** One attempt: the message goes out at most once; the ring changes only
      after the send went out; the attempt succeeds exactly when neither
      call fails, and then the message is queued and the comment pushed. */
  lemma SendThenPushStep(body: string, comment: Comment, sendFault: nat -> Fault, cacheFault: nat -> Fault, s: Outbox, n: nat)
    ensures var st := SendThenPush(body, comment, sendFault, cacheFault)(s, n);
      && (st.state.queue == s.queue || st.state.queue == s.queue + [body])
      && (st.state.cache != s.cache ==> st.state.queue == s.queue + [body])
      && (sendFault(n).NoFault? ==> st.state.queue == s.queue + [body])
      && st.error == AttemptError(sendFault, cacheFault, n)
      && (st.error.None? <==> sendFault(n).NoFault? && cacheFault(n).NoFault?)
      && (st.error.None? ==>
            st.state == Outbox(s.queue + [body],
                               CacheService.AddCommentToPost(s.cache, comment.postId, comment.id, comment, NoFault).cache))
  {
    var st := SendThenPush(body, comment, sendFault, cacheFault)(s, n);
    if sendFault(n).NoFault? {
      assert Applied(sendFault(n), 1) == 1;
      assert st.state.queue == s.queue + [body];
    }
  }

  /** Before attempt `j` the queue holds the old messages followed by at
      most `j` copies of this one. */
  lemma {:induction false} QueueBefore(body: string, comment: Comment, sendFault: nat -> Fault, cacheFault: nat -> Fault,
                                       outbox: Outbox, j: nat)
    ensures var q := RetryPolicies.Before(outbox, SendThenPush(body, comment, sendFault, cacheFault), j).queue;
      && |outbox.queue| <= |q| <= |outbox.queue| + j
      && q[..|outbox.queue|] == outbox.queue
      && forall i :: |outbox.queue| <= i < |q| ==> q[i] == body
  {
    var action := SendThenPush(body, comment, sendFault, cacheFault);
    if j > 0 {
      var prev := RetryPolicies.Before(outbox, action, j - 1);
      QueueBefore(body, comment, sendFault, cacheFault, outbox, j - 1);
      SendThenPushStep(body, comment, sendFault, cacheFault, prev, j - 1);
      var q := RetryPolicies.Before(outbox, action, j).queue;
      assert q == prev.queue || q == prev.queue + [body];
    }
  }

  /** The queue after the retried unit: the old messages, then at most one
      copy of this message per attempt. */
  lemma SendThenPushQueue(body: string, comment: Comment, sendFault: nat -> Fault, cacheFault: nat -> Fault, outbox: Outbox)
    ensures var e := RetryPolicies.Execute(outbox, SendThenPush(body, comment, sendFault, cacheFault));
      && |outbox.queue| <= |e.state.queue| <= |outbox.queue| + e.attempts
      && e.state.queue[..|outbox.queue|] == outbox.queue
      && (forall i :: |outbox.queue| <= i < |e.state.queue| ==> e.state.queue[i] == body)
  {
    var action := SendThenPush(body, comment, sendFault, cacheFault);
    var e := RetryPolicies.Execute(outbox, action);
    RetryPolicies.ExecuteSpec(outbox, action);
    var k := e.attempts - 1;
    QueueBefore(body, comment, sendFault, cacheFault, outbox, k + 1);
    assert e.state == RetryPolicies.Before(outbox, action, k + 1);
  }

  /** The retried unit ends without an exception only when an attempt had
      neither call fail; the message then went out and the comment heads
      its post's ring. */
  lemma SendThenPushSuccess(body: string, comment: Comment, sendFault: nat -> Fault, cacheFault: nat -> Fault, outbox: Outbox)
    ensures var e := RetryPolicies.Execute(outbox, SendThenPush(body, comment, sendFault, cacheFault));
      e.error.None? ==>
        && sendFault(e.attempts - 1).NoFault? && cacheFault(e.attempts - 1).NoFault?
        && |e.state.queue| > |outbox.queue|
        && CacheService.Ring(e.state.cache, comment.postId) != []
        && CacheService.Ring(e.state.cache, comment.postId)[0] == comment
  {
    var action := SendThenPush(body, comment, sendFault, cacheFault);
    var e := RetryPolicies.Execute(outbox, action);
    RetryPolicies.ExecuteSpec(outbox, action);
    var k := e.attempts - 1;
    var prev := RetryPolicies.Before(outbox, action, k);
    SendThenPushStep(body, comment, sendFault, cacheFault, prev, k);
    if e.error.None? {
      QueueBefore(body, comment, sendFault, cacheFault, outbox, k);
      CacheService.AddCommentSpec(prev.cache, comment.postId, comment.id, comment.id, comment);
    }
  }

  /** An exception the policy retries escapes only after all four
      attempts raised one. */
  lemma SendThenPushFailure(body: string, comment: Comment, sendFault: nat -> Fault, cacheFault: nat -> Fault, outbox: Outbox)
    ensures var e := RetryPolicies.Execute(outbox, SendThenPush(body, comment, sendFault, cacheFault));
      e.error.Some? && RetryPolicies.Handled(e.error.value) ==>
        forall j :: 0 <= j <= RetryCount ==> Fails(sendFault, cacheFault, j)
  {
    var action := SendThenPush(body, comment, sendFault, cacheFault);
    var e := RetryPolicies.Execute(outbox, action);
    RetryPolicies.HandledEscapeExhausts(outbox, action);
    if e.error.Some? && RetryPolicies.Handled(e.error.value) {
      forall j | 0 <= j <= RetryCount
        ensures Fails(sendFault, cacheFault, j)
      {
        AttemptRaises(body, comment, sendFault, cacheFault, outbox, j);
      }
    }
  }

  /** Whatever the earlier attempts did, attempt `j` raises what its faults
      say. */
  lemma AttemptRaises(body: string, comment: Comment, sendFault: nat -> Fault, cacheFault: nat -> Fault, outbox: Outbox, j: nat)
    ensures RetryPolicies.Attempt(outbox, SendThenPush(body, comment, sendFault, cacheFault), j).error
         == AttemptError(sendFault, cacheFault, j)
  {
    var action := SendThenPush(body, comment, sendFault, cacheFault);
    SendThenPushStep(body, comment, sendFault, cacheFault, RetryPolicies.Before(outbox, action, j), j);
  }

  /** `CreateCommentAsync` returns true exactly when an attempt both sent
      the message and pushed the comment, which then heads its post's ring;
      otherwise it throws the exception that escaped the policy, and never
      returns false.  The queue gains only copies of the comment's JSON. */
  lemma CreateCommentSpec(req: CommentRequest, id: Id, now: Ticks, zone: Zone, outbox: Outbox,
                          sendFault: nat -> Fault, cacheFault: nat -> Fault)
    ensures var r := CreateComment(req, id, now, zone, outbox, sendFault, cacheFault);
      var c := NewComment(req, id, now);
      && |outbox.queue| <= |r.outbox.queue| <= |outbox.queue| + RetryCount + 1
      && r.outbox.queue[..|outbox.queue|] == outbox.queue
      && (forall i :: |outbox.queue| <= i < |r.outbox.queue| ==> r.outbox.queue[i] == CommentJson(c, zone))
      && (r.result.Ok? ==>
            && r.result.value
            && |r.outbox.queue| > |outbox.queue|
            && CacheService.Ring(r.outbox.cache, req.postId) != []
            && CacheService.Ring(r.outbox.cache, req.postId)[0] == c)
      && (r.result.Err? && RetryPolicies.Handled(r.result.error) ==>
            forall j :: 0 <= j <= RetryCount ==> Fails(sendFault, cacheFault, j))
  {
    var c := NewComment(req, id, now);
    SendThenPushQueue(CommentJson(c, zone), c, sendFault, cacheFault, outbox);
    SendThenPushSuccess(CommentJson(c, zone), c, sendFault, cacheFault, outbox);
    SendThenPushFailure(CommentJson(c, zone), c, sendFault, cacheFault, outbox);
  }

  /** Whether `CreateCommentAsync` succeeds, and what it throws, depends
      only on what the queue and the cache do: not on the request, the
      stores' contents or whether the post exists. */
  lemma OutcomeOnlyFromFaults(req1: CommentRequest, id1: Id, now1: Ticks, outbox1: Outbox,
                              req2: CommentRequest, id2: Id, now2: Ticks, outbox2: Outbox,
                              zone: Zone, sendFault: nat -> Fault, cacheFault: nat -> Fault)
    ensures CreateComment(req1, id1, now1, zone, outbox1, sendFault, cacheFault).result
         == CreateComment(req2, id2, now2, zone, outbox2, sendFault, cacheFault).result
  {
    var c1 := NewComment(req1, id1, now1);
    var c2 := NewComment(req2, id2, now2);
    var a1 := SendThenPush(CommentJson(c1, zone), c1, sendFault, cacheFault);
    var a2 := SendThenPush(CommentJson(c2, zone), c2, sendFault, cacheFault);
    forall x: Outbox, y: Outbox, k: nat
      ensures a1(x, k).error == a2(y, k).error
    {
      SendThenPushStep(CommentJson(c1, zone), c1, sendFault, cacheFault, x, k);
      SendThenPushStep(CommentJson(c2, zone), c2, sendFault, cacheFault, y, k);
    }
    RetryPolicies.SameErrorsSameRun(outbox1, a1, outbox2, a2);
  }

  /** A push that fails after a send that went out makes the policy send
      the same message again: with the second attempt clean the call
      returns true and the queue holds the message twice. */
  lemma ResendAfterPushFailure(req: CommentRequest, id: Id, now: Ticks, zone: Zone, outbox: Outbox,
                               sendFault: nat -> Fault, cacheFault: nat -> Fault)
    requires sendFault(0).NoFault? && cacheFault(0) == FailAfter(0, Redis)
    requires sendFault(1).NoFault? && cacheFault(1).NoFault?
    ensures var r := CreateComment(req, id, now, zone, outbox, sendFault, cacheFault);
      var body := CommentJson(NewComment(req, id, now), zone);
      r.result == Ok(true) && r.outbox.queue == outbox.queue + [body, body]
  {
    var c := NewComment(req, id, now);
    var body := CommentJson(c, zone);
    var action := SendThenPush(body, c, sendFault, cacheFault);
    var a0 := action(outbox, 0);
    SendThenPushStep(body, c, sendFault, cacheFault, outbox, 0);
    assert a0.error == Some(Redis);
    assert a0.state.queue == outbox.queue + [body];
    assert RetryPolicies.Attempt(outbox, action, 0) == a0;
    assert RetryPolicies.Before(outbox, action, 1) == a0.state;
    var a1 := action(a0.state, 1);
    SendThenPushStep(body, c, sendFault, cacheFault, a0.state, 1);
    assert a1.error.None? && a1.state.queue == outbox.queue + [body, body];
    assert RetryPolicies.Attempt(outbox, action, 1) == a1;
    RetryPolicies.FirstSuccessStops(outbox, action, 1);
    var e := RetryPolicies.Execute(outbox, action);
    assert e.error.None? && e.state == a1.state;
    assert CreateComment(req, id, now, zone, outbox, sendFault, cacheFault) == Created(Ok(true), e.state);
  }
}

=== FILE: cursor.dfy ===
/** The page token of the post feed: the round-trip ("o") text of a
    timestamp, UTF-8 encoded and then Base64 encoded
    (`PostService.GenerateCursor` / `PostService.DecodeCursor`). */
module Cursor {
  import opened Base
  import opened Strings
  import opened DateTimes
  import Base64

  /** `GenerateCursor(dt)`. */
  function GenerateCursor(dt: DateTime, zone: Zone): (c: string)
    ensures |c| > 0 && |c| % 4 == 0
  {
    FormatRoundTripAscii(dt, zone);
    Base64.Encode(Base64.AsciiBytes(FormatRoundTrip(dt, zone)))
  }

  /** The text a cursor carries, when it is Base64 of ASCII bytes. */
  function CursorText(cursor: string): (r: Option<string>)
  {
    match Base64.FromBase64String(cursor)
    case None => None
    case Some(bytes) => Base64.AsciiText(bytes)
  }

  /** `DecodeCursor(cursor)`: a missing or empty cursor means "now" (a UTC
      `DateTime`); otherwise the Base64 decode and the exact "o" parse must
      both succeed, and either failing is a `FormatException`. */
  function DecodeCursor(cursor: Option<string>, now: Ticks, zone: Zone): (r: Result<DateTime>)
    ensures cursor.None? || cursor == Some("") ==> r == Ok(DateTime(now, Utc))
    ensures r.Err? ==> r.error == Format
    ensures r.Ok? && cursor.Some? && cursor.value != "" ==>
      CursorText(cursor.value).Some? && r == ParseRoundTrip(CursorText(cursor.value).value, zone)
  {
    if cursor.None? || cursor.value == "" then Ok(DateTime(now, Utc))
    else
      match CursorText(cursor.value)
      case None => Err(Format)
      case Some(text) => ParseRoundTrip(text, zone)
  }

  /** Decoding a cursor recovers the text it was made from. */
  lemma CursorTextOfGenerate(dt: DateTime, zone: Zone)
    ensures CursorText(GenerateCursor(dt, zone)) == Some(FormatRoundTrip(dt, zone))
  {
    var s := FormatRoundTrip(dt, zone);
    FormatRoundTripAscii(dt, zone);
    Base64.FromBase64OfEncode(Base64.AsciiBytes(s));
    Base64.AsciiRoundTrip(s);
  }

  /** A generated cursor decodes to the same instant it was made from:
      Unspecified and Local timestamps come back identical, a Utc timestamp
      comes back as the equal local time, and whenever decoding succeeds
      the Unix milliseconds the feed query uses are unchanged. */
  lemma {:induction false} CursorRoundTrip(dt: DateTime, now: Ticks, zone: Zone)
    ensures var r := DecodeCursor(Some(GenerateCursor(dt, zone)), now, zone);
      && (dt.kind != Utc ==> r == Ok(dt))
      && (dt.kind == Utc ==> r == ToLocal(dt.ticks, zone))
      && (r.Ok? ==> UtcTicks(r.value, zone) == UtcTicks(dt, zone))
  {
    var s := FormatRoundTrip(dt, zone);
    CursorTextOfGenerate(dt, zone);
    var r := DecodeCursor(Some(GenerateCursor(dt, zone)), now, zone);
    assert r == ParseRoundTrip(s, zone);
    RoundTripInstant(dt, zone);
    if r.Ok? {
      assert UtcTicks(r.value, zone) == UtcTicks(dt, zone);
    }
  }
}

=== FILE: database.dfy ===
/** The SQL tables behind `AppDbContext` and what `SaveChangesAsync` does
    with one added row: it inserts the row in one transaction, or rejects
    it with a `DbUpdateException` when the primary key is taken, a foreign
    key the model configures has no target, or a text is longer than its
    column. */
module Database {
  import opened Base
  import opened Strings
  import opened DateTimes
  import opened Entities

  /** The tables, each in insertion order. */
  datatype Db = Db(accounts: seq<Account>, posts: seq<Post>, comments: seq<Comment>)

  predicate HasAccount(db: Db, id: Id)
  {
    exists i | 0 <= i < |db.accounts| :: db.accounts[i].id == id
  }

  predicate HasPost(db: Db, id: Id)
  {
    exists i | 0 <= i < |db.posts| :: db.posts[i].id == id
  }

  predicate HasComment(db: Db, id: Id)
  {
    exists i | 0 <= i < |db.comments| :: db.comments[i].id == id
  }

  /** Primary keys are unique in every table. */
  ghost predicate KeysUnique(db: Db)
  {
    && (forall i, j :: 0 <= i < j < |db.accounts| ==> db.accounts[i].id != db.accounts[j].id)
    && (forall i, j :: 0 <= i < j < |db.posts| ==> db.posts[i].id != db.posts[j].id)
    && (forall i, j :: 0 <= i < j < |db.comments| ==> db.comments[i].id != db.comments[j].id)
  }

  /** A `datetime2` column keeps no `Kind`: a value reads back Unspecified. */
  function Stored(dt: DateTime): (r: DateTime)
    ensures r.ticks == dt.ticks && r.kind == Unspecified
  {
    DateTime(dt.ticks, Unspecified)
  }

  /** The database after a `SaveChangesAsync` and the exception it raised. */
  datatype Saved = Saved(db: Db, error: Option<Exn>)

  /** `[MaxLength(255)] Caption`: SQL Server rejects a longer caption
      ("would be truncated"). */
  const CaptionMax := 255

  /** `[MaxLength(500)] Content`. */
  const ContentMax := 500

  predicate CaptionFits(caption: string)
  {
    Utf16Length(caption) <= CaptionMax
  }

  predicate ContentFits(content: string)
  {
    Utf16Length(content) <= ContentMax
  }

  /** `Guid.Empty` in its `ToString()` text. */
  const EmptyGuid := "00000000-0000-0000-0000-000000000000"

  /** The key a comment is saved under.  `Id` is a generated key
      (`DatabaseGenerated(Identity)`), so EF Core replaces `Guid.Empty`
      with the value its generator gives, `generated`, and keeps any other
      id. */
  function CommentKey(c: Comment, generated: Id): (k: Id)
    ensures c.id != EmptyGuid ==> k == c.id
    ensures c.id == EmptyGuid ==> k == generated
  {
    if c.id == EmptyGuid then generated else c.id
  }

  /** `Posts.Add(post); SaveChangesAsync()` under fault `f`: `FailAfter(0, e)`
      fails before the transaction, a larger step count after it commits. */
  function InsertPost(db: Db, p: Post, f: Fault): (r: Saved)
    ensures r.error.None? <==>
      f.NoFault? && !HasPost(db, p.id) && HasAccount(db, p.creatorId) && CaptionFits(p.caption)
    ensures r.db != db <==>
      Applied(f, 1) == 1 && !HasPost(db, p.id) && HasAccount(db, p.creatorId) && CaptionFits(p.caption)
    ensures r.db != db ==> r.db == db.(posts := db.posts + [p.(createdAt := Stored(p.createdAt))])
    ensures Applied(f, 1) == 1 && !CaptionFits(p.caption) ==> r == Saved(db, Some(DbUpdate))
  {
    if Applied(f, 1) == 0 then Saved(db, Raised(f))
    else if HasPost(db, p.id) || !HasAccount(db, p.creatorId) || !CaptionFits(p.caption) then
      Saved(db, Some(DbUpdate))
    else
      var row := p.(createdAt := Stored(p.createdAt));
      assert (db.posts + [row])[|db.posts|] == row;
      Saved(db.(posts := db.posts + [row]), Raised(f))
  }

  /** `Comments.Add(comment); SaveChangesAsync()` under fault `f`, with
      `generated` the key EF Core gives an empty id; the comment's post and
      creator must exist. */
  function InsertComment(db: Db, c: Comment, generated: Id, f: Fault): (r: Saved)
    ensures r.error.None? <==>
      && f.NoFault? && !HasComment(db, CommentKey(c, generated))
      && HasPost(db, c.postId) && HasAccount(db, c.creatorId) && ContentFits(c.content)
    ensures r.db != db <==>
      && Applied(f, 1) == 1 && !HasComment(db, CommentKey(c, generated))
      && HasPost(db, c.postId) && HasAccount(db, c.creatorId) && ContentFits(c.content)
    ensures r.db != db ==>
      r.db == db.(comments := db.comments + [c.(id := CommentKey(c, generated), createdAt := Stored(c.createdAt))])
    ensures Applied(f, 1) == 1 && !ContentFits(c.content) ==> r == Saved(db, Some(DbUpdate))
  {
    var key := CommentKey(c, generated);
    if Applied(f, 1) == 0 then Saved(db, Raised(f))
    else if HasComment(db, key) || !HasPost(db, c.postId) || !HasAccount(db, c.creatorId) || !ContentFits(c.content) then
      Saved(db, Some(DbUpdate))
    else
      var row := c.(id := key, createdAt := Stored(c.createdAt));
      assert (db.comments + [row])[|db.comments|] == row;
      Saved(db.(comments := db.comments + [row]), Raised(f))
  }

  /** An insert keeps primary keys unique. */
  lemma InsertPostUnique(db: Db, p: Post, f: Fault)
    requires KeysUnique(db)
    ensures KeysUnique(InsertPost(db, p, f).db)
  {
  }

  /** Once a post row is in, adding it again always raises and changes
      nothing. */
  lemma InsertPostOnce(db: Db, p: Post, f: Fault, g: Fault)
    ensures var after := InsertPost(db, p, f).db;
      after != db ==>
        && HasPost(after, p.id)
        && InsertPost(after, p, g).error.Some?
        && InsertPost(after, p, g).db == after
  {
    var after := InsertPost(db, p, f).db;
    if after != db {
      assert after.posts[|db.posts|].id == p.id;
    }
  }

  /** The same for comments: keys stay unique ... */
  lemma InsertCommentUnique(db: Db, c: Comment, generated: Id, f: Fault)
    requires KeysUnique(db)
    ensures KeysUnique(InsertComment(db, c, generated, f).db)
  {
  }

  /** ... and a redelivered comment with an id of its own is never stored
      twice, whatever key the generator offers the second time. */
  lemma InsertCommentOnce(db: Db, c: Comment, generated: Id, again: Id, f: Fault, g: Fault)
    ensures var after := InsertComment(db, c, generated, f).db;
      after != db && c.id != EmptyGuid ==>
        && HasComment(after, c.id)
        && InsertComment(after, c, again, g).error.Some?
        && InsertComment(after, c, again, g).db == after
  {
    var after := InsertComment(db, c, generated, f).db;
    if after != db {
      assert after.comments[|db.comments|].id == CommentKey(c, generated);
    }
  }

  /** A comment whose id is `Guid.Empty` gets a fresh key on every save, so
      saving it twice stores two rows with the same content. */
  lemma EmptyIdStoredTwice(db: Db, c: Comment, generated: Id, again: Id)
    requires c.id == EmptyGuid && generated != again
    requires !HasComment(db, generated) && !HasComment(db, again)
    requires HasPost(db, c.postId) && HasAccount(db, c.creatorId) && ContentFits(c.content)
    ensures var once := InsertComment(db, c, generated, NoFault);
      var twice := InsertComment(once.db, c, again, NoFault);
      && once.error.None? && twice.error.None?
      && |twice.db.comments| == |db.comments| + 2
      && twice.db.comments[|db.comments|].content == twice.db.comments[|db.comments| + 1].content == c.content
  {
    var once := InsertComment(db, c, generated, NoFault);
    assert once.db.comments[|db.comments|].id == generated;
  }

  /** Inserting never removes a row. */
  lemma InsertPostKeeps(db: Db, p: Post, f: Fault, id: Id)
    requires HasPost(db, id)
    ensures HasPost(InsertPost(db, p, f).db, id)
  {
    var after := InsertPost(db, p, f).db;
    var i :| 0 <= i < |db.posts| && db.posts[i].id == id;
    assert after.posts[i] == db.posts[i];
  }

  /** `p.Comments`: the comments of a post, in table order. */
  function CommentsOf(db: Db, postId: Id): (r: seq<Comment>)
    ensures forall i :: 0 <= i < |r| ==> r[i] in db.comments && r[i].postId == postId
    ensures forall i :: 0 <= i < |db.comments| && db.comments[i].postId == postId ==> db.comments[i] in r
  {
    Filter(db.comments, (c: Comment) => c.postId == postId)
  }

  /** `p.Comments.Count`. */
  function CommentCount(db: Db, postId: Id): nat
  {
    |CommentsOf(db, postId)|
  }

  /** `Creator.Name` through the foreign key; no name when the account is
      missing. */
  function AccountName(db: Db, id: Id): (r: Option<string>)
    ensures r.Some? <==> HasAccount(db, id)
    ensures r.Some? ==> exists i | 0 <= i < |db.accounts| :: db.accounts[i] == Account(id, r.value)
  {
    AccountNameFrom(db.accounts, id)
  }

  function AccountNameFrom(accounts: seq<Account>, id: Id): (r: Option<string>)
    ensures r.Some? <==> exists i | 0 <= i < |accounts| :: accounts[i].id == id
    ensures r.Some? ==> exists i | 0 <= i < |accounts| :: accounts[i] == Account(id, r.value)
  {
    if accounts == [] then None
    else if accounts[0].id == id then Some(accounts[0].name)
    else
      var r := AccountNameFrom(accounts[1..], id);
      assert forall i :: 1 <= i < |accounts| ==> accounts[i] == accounts[1..][i - 1];
      r
  }
}

=== FILE: datetimes.dfy ===
/** .NET `DateTime` as 100-nanosecond ticks since 0001-01-01T00:00:00 with a
    `DateTimeKind`; the round-trip ("o") text format and `DateTime.ParseExact`
    with that format; and `DateTimeOffset.ToUnixTimeMilliseconds`.

    The server's local time zone is a fixed offset `zone` in minutes
    (daylight-saving transitions are not modelled). */
module DateTimes {
  import opened Base
  import opened Strings

  const TicksPerMillisecond := 10_000
  const TicksPerSecond := 10_000_000
  const TicksPerMinute := 600_000_000
  const TicksPerHour := 36_000_000_000
  const TicksPerDay := 864_000_000_000
  /** 9999-12-31T23:59:59.9999999 */
  const MaxTicks := 3_155_378_975_999_999_999
  /** The Unix epoch 1970-01-01T00:00:00Z in milliseconds since 0001-01-01. */
  const UnixEpochMilliseconds := 62_135_596_800_000

  type Ticks = t: int | 0 <= t <= MaxTicks

  datatype Kind = Unspecified | Utc | Local

  datatype DateTime = DateTime(ticks: Ticks, kind: Kind)

  /** Offset of the local time zone from UTC in minutes. */
  type Zone = z: int | -14 * 60 <= z <= 14 * 60

  predicate InRange(t: int)
  {
    0 <= t <= MaxTicks
  }

  /** The instant a `DateTime` denotes: `new DateTimeOffset(dt).UtcTicks`.
      Local and Unspecified values are both read as local time. */
  function UtcTicks(dt: DateTime, zone: Zone): int
  {
    if dt.kind == Utc then dt.ticks else dt.ticks - zone * TicksPerMinute
  }

  /** `new DateTimeOffset(dt).ToUnixTimeMilliseconds()`: the constructor
      throws when the instant falls outside the representable range; the
      division truncates. */
  function ToUnixTimeMilliseconds(dt: DateTime, zone: Zone): (r: Result<int>)
    ensures r.Ok? <==> InRange(UtcTicks(dt, zone))
    ensures r.Err? ==> r.error == ArgumentOutOfRange
    ensures r.Ok? ==>
      && r.value * TicksPerMillisecond <= UtcTicks(dt, zone) - UnixEpochMilliseconds * TicksPerMillisecond
      && UtcTicks(dt, zone) - UnixEpochMilliseconds * TicksPerMillisecond < (r.value + 1) * TicksPerMillisecond
  {
    var u := UtcTicks(dt, zone);
    if InRange(u) then Ok(u / TicksPerMillisecond - UnixEpochMilliseconds) else Err(ArgumentOutOfRange)
  }

  /** Later instants never map to earlier milliseconds. */
  lemma UnixMillisecondsMonotone(a: DateTime, b: DateTime, zone: Zone)
    requires ToUnixTimeMilliseconds(a, zone).Ok? && ToUnixTimeMilliseconds(b, zone).Ok?
    requires UtcTicks(a, zone) <= UtcTicks(b, zone)
    ensures ToUnixTimeMilliseconds(a, zone).value <= ToUnixTimeMilliseconds(b, zone).value
  {
  }

  // ---------------------------------------------------------------------
  // The proleptic Gregorian calendar.

  predicate IsLeapYear(y: int)
  {
    y % 4 == 0 && (y % 100 != 0 || y % 400 == 0)
  }

  function DaysInYear(y: int): int
  {
    if IsLeapYear(y) then 366 else 365
  }

  /** Days from 0001-01-01 to January 1st of year `y`. */
  function DaysBeforeYear(y: int): int
    requires y >= 1
  {
    var n := y - 1;
    n * 365 + n / 4 - n / 100 + n / 400
  }

  /** Days from January 1st to the first day of month `m`; `m == 13` gives the
      length of the year. */
  function DaysBeforeMonth(y: int, m: int): int
    requires 1 <= m <= 13
  {
    var table := [0, 31, 59, 90, 120, 151, 181, 212, 243, 273, 304, 334, 365];
    table[m - 1] + if IsLeapYear(y) && m > 2 then 1 else 0
  }

  function DaysInMonth(y: int, m: int): (n: int)
    requires 1 <= m <= 12
    ensures 28 <= n <= 31
    ensures m == 2 ==> (n == 29 <==> IsLeapYear(y))
  {
    DaysBeforeMonth(y, m + 1) - DaysBeforeMonth(y, m)
  }

  lemma YearStep(y: int)
    requires y >= 1
    ensures DaysBeforeYear(y + 1) == DaysBeforeYear(y) + DaysInYear(y)
  {
    var n := y - 1;
    assert (n + 1) / 4 == n / 4 + (if (n + 1) % 4 == 0 then 1 else 0);
    assert (n + 1) / 100 == n / 100 + (if (n + 1) % 100 == 0 then 1 else 0);
    assert (n + 1) / 400 == n / 400 + (if (n + 1) % 400 == 0 then 1 else 0);
    assert (n + 1) % 100 == 0 ==> (n + 1) % 4 == 0;
    assert (n + 1) % 400 == 0 ==> (n + 1) % 100 == 0;
  }

  lemma {:induction false} YearsIncrease(a: int, b: int)
    requires 1 <= a <= b
    ensures DaysBeforeYear(b) - DaysBeforeYear(a) >= 365 * (b - a)
    decreases b - a
  {
    if a < b {
      YearsIncrease(a, b - 1);
      YearStep(b - 1);
    }
  }

  /** The year in which day number `d` (0 = 0001-01-01) falls, searching
      upward from year `y`. */
  function YearOf(d: int, y: int): (r: int)
    requires y >= 1 && DaysBeforeYear(y) <= d
    ensures r >= y && DaysBeforeYear(r) <= d < DaysBeforeYear(r + 1)
    decreases d - DaysBeforeYear(y)
  {
    YearStep(y);
    if d < DaysBeforeYear(y + 1) then y else YearOf(d, y + 1)
  }

  /** The month in which day `doy` of year `y` falls, searching from `m`. */
  function MonthOf(doy: int, y: int, m: int): (r: int)
    requires 1 <= m <= 12 && DaysBeforeMonth(y, m) <= doy < DaysInYear(y)
    ensures m <= r <= 12 && DaysBeforeMonth(y, r) <= doy < DaysBeforeMonth(y, r + 1)
    decreases 12 - m
  {
    if doy < DaysBeforeMonth(y, m + 1) then m else MonthOf(doy, y, m + 1)
  }

  /** The components written by the "o" format. */
  datatype Fields = Fields(year: int, month: int, day: int, hour: int, minute: int, second: int, fraction: int)

  predicate ValidFields(f: Fields)
  {
    && 1 <= f.year <= 9999
    && 1 <= f.month <= 12
    && 1 <= f.day <= DaysInMonth(f.year, f.month)
    && 0 <= f.hour < 24
    && 0 <= f.minute < 60
    && 0 <= f.second < 60
    && 0 <= f.fraction < TicksPerSecond
  }

  function DayNumber(f: Fields): int
    requires ValidFields(f)
  {
    DaysBeforeYear(f.year) + DaysBeforeMonth(f.year, f.month) + f.day - 1
  }

  function TimeOfDay(f: Fields): int
  {
    ((f.hour * 60 + f.minute) * 60 + f.second) * TicksPerSecond + f.fraction
  }

  lemma TimeOfDayBounds(f: Fields)
    requires ValidFields(f)
    ensures 0 <= TimeOfDay(f) < TicksPerDay
  {
    var m := f.hour * 60 + f.minute;
    assert 0 <= m <= 23 * 60 + 59;
    var s := m * 60 + f.second;
    assert 0 <= s <= (23 * 60 + 59) * 60 + 59;
  }

  /** `new DateTime(year, month, day, hour, minute, second).AddTicks(fraction).Ticks`. */
  function FieldsToTicks(f: Fields): (t: int)
    requires ValidFields(f)
    ensures InRange(t)
  {
    TimeOfDayBounds(f);
    YearStep(f.year);
    YearsIncrease(f.year + 1, 10000);
    assert DaysBeforeYear(10000) == 3652059;
    DayNumber(f) * TicksPerDay + TimeOfDay(f)
  }

  /** The calendar components of a tick count. */
  function TicksToFields(t: Ticks): (f: Fields)
    ensures ValidFields(f) && FieldsToTicks(f) == t
  {
    var dayNum := t / TicksPerDay;
    var tod := t % TicksPerDay;
    var fraction := tod % TicksPerSecond;
    var secs := tod / TicksPerSecond;
    var second := secs % 60;
    var mins := secs / 60;
    var minute := mins % 60;
    var hour := mins / 60;
    assert hour < 24;
    assert DaysBeforeYear(1) == 0;
    var y := YearOf(dayNum, 1);
    assert y <= 9999 by {
      assert DaysBeforeYear(10000) == 3652059;
      if y >= 10000 {
        YearsIncrease(10000, y);
      }
    }
    YearStep(y);
    var doy := dayNum - DaysBeforeYear(y);
    var m := MonthOf(doy, y, 1);
    var f := Fields(y, m, doy - DaysBeforeMonth(y, m) + 1, hour, minute, second, fraction);
    assert TimeOfDay(f) == tod;
    f
  }

  lemma {:induction false} YearUnique(d: int, y1: int, y2: int)
    requires y1 >= 1 && y2 >= 1
    requires DaysBeforeYear(y1) <= d < DaysBeforeYear(y1 + 1)
    requires DaysBeforeYear(y2) <= d < DaysBeforeYear(y2 + 1)
    ensures y1 == y2
  {
    if y1 < y2 {
      YearsIncrease(y1 + 1, y2);
    } else if y2 < y1 {
      YearsIncrease(y2 + 1, y1);
    }
  }

  lemma TimeOfDayUnique(f: Fields, g: Fields)
    requires ValidFields(f) && ValidFields(g) && TimeOfDay(f) == TimeOfDay(g)
    ensures f.hour == g.hour && f.minute == g.minute && f.second == g.second && f.fraction == g.fraction
  {
    var sf := (f.hour * 60 + f.minute) * 60 + f.second;
    var sg := (g.hour * 60 + g.minute) * 60 + g.second;
    assert sf * TicksPerSecond + f.fraction == sg * TicksPerSecond + g.fraction;
    assert sf == sg;
    assert f.hour * 60 + f.minute == g.hour * 60 + g.minute;
  }

  lemma {:induction false} DayNumberUnique(f: Fields, g: Fields)
    requires ValidFields(f) && ValidFields(g) && DayNumber(f) == DayNumber(g)
    ensures f.year == g.year && f.month == g.month && f.day == g.day
  {
    YearStep(f.year);
    YearStep(g.year);
    YearUnique(DayNumber(f), f.year, g.year);
    MonthUnique(f.year, DayNumber(f) - DaysBeforeYear(f.year), f.month, g.month);
  }

  /** Two valid sets of components with the same tick count are equal. */
  lemma FieldsUnique(f: Fields, g: Fields)
    requires ValidFields(f) && ValidFields(g) && FieldsToTicks(f) == FieldsToTicks(g)
    ensures f == g
  {
    TimeOfDayBounds(f);
    TimeOfDayBounds(g);
    var t := FieldsToTicks(f);
    assert t == DayNumber(f) * TicksPerDay + TimeOfDay(f);
    assert t == DayNumber(g) * TicksPerDay + TimeOfDay(g);
    assert DayNumber(f) == t / TicksPerDay == DayNumber(g);
    TimeOfDayUnique(f, g);
    DayNumberUnique(f, g);
  }

  /** A valid set of components is recovered from its tick count. */
  lemma FieldsRoundTrip(f: Fields)
    requires ValidFields(f)
    ensures TicksToFields(FieldsToTicks(f)) == f
  {
    FieldsUnique(f, TicksToFields(FieldsToTicks(f)));
  }

  lemma MonthUnique(y: int, doy: int, m1: int, m2: int)
    requires 1 <= m1 <= 12 && 1 <= m2 <= 12
    requires DaysBeforeMonth(y, m1) <= doy < DaysBeforeMonth(y, m1 + 1)
    requires DaysBeforeMonth(y, m2) <= doy < DaysBeforeMonth(y, m2 + 1)
    ensures m1 == m2
  {
  }

  // ---------------------------------------------------------------------
  // Fixed-width decimal digits.

  function Pow10(n: nat): (p: nat)
    ensures p >= 1
  {
    if n == 0 then 1 else 10 * Pow10(n - 1)
  }

  predicate IsDigit(c: char)
  {
    '0' <= c <= '9'
  }

  /** `n` written with exactly `w` digits, zero-padded (the "yyyy", "MM",
      "fffffff" specifiers). */
  function Digits(n: nat, w: nat): (s: string)
    ensures |s| == w
    ensures forall i :: 0 <= i < |s| ==> IsDigit(s[i])
  {
    if w == 0 then [] else Digits(n / 10, w - 1) + [('0' as int + n % 10) as char]
  }

  /** The value of a string of decimal digits, or `None` if some character is
      not a digit. */
  function ParseDigits(s: string): (r: Option<nat>)
    ensures r.Some? <==> forall i :: 0 <= i < |s| ==> IsDigit(s[i])
  {
    if s == [] then Some(0)
    else
      match ParseDigits(s[..|s| - 1])
      case None => None
      case Some(v) =>
        var c := s[|s| - 1];
        if IsDigit(c) then Some(v * 10 + (c as int - '0' as int)) else None
  }

  /** Writing then reading digits gives the number back when it fits. */
  lemma {:induction false} DigitsRoundTrip(n: nat, w: nat)
    requires n < Pow10(w)
    ensures ParseDigits(Digits(n, w)) == Some(n)
  {
    if w > 0 {
      DigitsRoundTrip(n / 10, w - 1);
      var s := Digits(n, w);
      assert s[..|s| - 1] == Digits(n / 10, w - 1);
    }
  }

  /** Reading then writing digits gives the text back: a digit string is the
      zero-padded form of its value. */
  lemma {:induction false} ParseDigitsCanonical(s: string)
    requires ParseDigits(s).Some?
    ensures ParseDigits(s).value < Pow10(|s|)
    ensures Digits(ParseDigits(s).value, |s|) == s
  {
    if s != [] {
      var p := s[..|s| - 1];
      ParseDigitsCanonical(p);
      var v := ParseDigits(p).value;
      var c := s[|s| - 1];
      var n := v * 10 + (c as int - '0' as int);
      assert n / 10 == v && n % 10 == c as int - '0' as int;
      assert s == p + [c];
    }
  }

  // ---------------------------------------------------------------------
  // The round-trip ("o") format: yyyy-MM-ddTHH:mm:ss.fffffffK

  function FormatFields(f: Fields): (s: string)
    requires ValidFields(f)
    ensures |s| == 27
  {
    DateText(f) + "T" + TimeText(f)
  }

  /** "yyyy-MM-dd". */
  function DateText(f: Fields): (s: string)
    requires ValidFields(f)
    ensures |s| == 10
  {
    Digits(f.year, 4) + "-" + Digits(f.month, 2) + "-" + Digits(f.day, 2)
  }

  /** "HH:mm:ss.fffffff". */
  function TimeText(f: Fields): (s: string)
    requires ValidFields(f)
    ensures |s| == 16
  {
    Digits(f.hour, 2) + ":" + Digits(f.minute, 2) + ":" + Digits(f.second, 2) + "." + Digits(f.fraction, 7)
  }

  function Field(s: string, lo: nat, hi: nat): (r: nat)
    requires lo <= hi <= |s|
  {
    match ParseDigits(s[lo..hi])
    case Some(v) => v
    case None => 0
  }

  predicate SeparatorsOk(s: string)
    requires |s| == 27
  {
    s[4] == '-' && s[7] == '-' && s[10] == 'T' && s[13] == ':' && s[16] == ':' && s[19] == '.'
  }

  predicate DigitFieldsOk(s: string)
    requires |s| == 27
  {
    && ParseDigits(s[0..4]).Some? && ParseDigits(s[5..7]).Some? && ParseDigits(s[8..10]).Some?
    && ParseDigits(s[11..13]).Some? && ParseDigits(s[14..16]).Some? && ParseDigits(s[17..19]).Some?
    && ParseDigits(s[20..27]).Some?
  }

  /** The date and time part of an "o" string, if it is one of a real
      calendar date and time. */
  function ParseFields(s: string): (r: Option<Fields>)
    ensures r.Some? ==> ValidFields(r.value)
  {
    if |s| != 27 || !SeparatorsOk(s) || !DigitFieldsOk(s) then None
    else
      var f := Fields(Field(s, 0, 4), Field(s, 5, 7), Field(s, 8, 10), Field(s, 11, 13),
                      Field(s, 14, 16), Field(s, 17, 19), Field(s, 20, 27));
      if ValidFields(f) then Some(f) else None
  }

  lemma FormatFieldsSlices(f: Fields)
    requires ValidFields(f)
    ensures var s := FormatFields(f);
      && s[0..4] == Digits(f.year, 4) && s[5..7] == Digits(f.month, 2) && s[8..10] == Digits(f.day, 2)
      && s[11..13] == Digits(f.hour, 2) && s[14..16] == Digits(f.minute, 2)
      && s[17..19] == Digits(f.second, 2) && s[20..27] == Digits(f.fraction, 7)
      && SeparatorsOk(s)
  {
    var s := FormatFields(f);
    var d, t := DateText(f), TimeText(f);
    DateSlices(f);
    TimeSlices(f);
    assert s[..10] == d && s[10] == 'T' && s[11..] == t;
    assert s[0..4] == d[0..4] && s[5..7] == d[5..7] && s[8..10] == d[8..10];
    assert s[4] == d[4] && s[7] == d[7];
    assert s[11..13] == t[0..2] && s[14..16] == t[3..5] && s[17..19] == t[6..8] && s[20..27] == t[9..16];
    assert s[13] == t[2] && s[16] == t[5] && s[19] == t[8];
  }

  lemma DateSlices(f: Fields)
    requires ValidFields(f)
    ensures var d := DateText(f);
      && d[0..4] == Digits(f.year, 4) && d[5..7] == Digits(f.month, 2) && d[8..10] == Digits(f.day, 2)
      && d[4] == '-' && d[7] == '-'
  {
  }

  lemma TimeSlices(f: Fields)
    requires ValidFields(f)
    ensures var t := TimeText(f);
      && t[0..2] == Digits(f.hour, 2) && t[3..5] == Digits(f.minute, 2)
      && t[6..8] == Digits(f.second, 2) && t[9..16] == Digits(f.fraction, 7)
      && t[2] == ':' && t[5] == ':' && t[8] == '.'
  {
  }

  lemma ParseOfFormat(f: Fields)
    requires ValidFields(f)
    ensures ParseFields(FormatFields(f)) == Some(f)
  {
    var s := FormatFields(f);
    FormatFieldsSlices(f);
    Pow10Widths();
    DigitsRoundTrip(f.year, 4);
    DigitsRoundTrip(f.month, 2);
    DigitsRoundTrip(f.day, 2);
    DigitsRoundTrip(f.hour, 2);
    DigitsRoundTrip(f.minute, 2);
    DigitsRoundTrip(f.second, 2);
    DigitsRoundTrip(f.fraction, 7);
    assert DigitFieldsOk(s);
    assert Fields(Field(s, 0, 4), Field(s, 5, 7), Field(s, 8, 10), Field(s, 11, 13),
                  Field(s, 14, 16), Field(s, 17, 19), Field(s, 20, 27)) == f;
  }

  /** The bounds of the widths the "o" format uses. */
  lemma Pow10Widths()
    ensures Pow10(2) == 100 && Pow10(4) == 10000 && Pow10(7) == 10000000
  {
    assert Pow10(1) == 10 && Pow10(3) == 1000 && Pow10(5) == 100000 && Pow10(6) == 1000000;
  }

  lemma SameOnSlice(s: string, t: string, lo: nat, hi: nat)
    requires lo <= hi <= |s| && hi <= |t| && s[lo..hi] == t[lo..hi]
    ensures forall i :: lo <= i < hi ==> s[i] == t[i]
  {
    forall i | lo <= i < hi
      ensures s[i] == t[i]
    {
      assert s[i] == s[lo..hi][i - lo];
      assert t[i] == t[lo..hi][i - lo];
    }
  }

  lemma FieldAgrees(s: string, t: string, lo: nat, hi: nat)
    requires lo <= hi <= |s| && hi <= |t|
    requires ParseDigits(s[lo..hi]).Some?
    requires t[lo..hi] == Digits(Field(s, lo, hi), hi - lo)
    ensures forall i :: lo <= i < hi ==> s[i] == t[i]
  {
    ParseDigitsCanonical(s[lo..hi]);
    SameOnSlice(s, t, lo, hi);
  }

  lemma ParseFieldsFacts(s: string)
    requires ParseFields(s).Some?
    ensures |s| == 27 && SeparatorsOk(s) && DigitFieldsOk(s)
    ensures var f := ParseFields(s).value;
      && f.year == Field(s, 0, 4) && f.month == Field(s, 5, 7) && f.day == Field(s, 8, 10)
      && f.hour == Field(s, 11, 13) && f.minute == Field(s, 14, 16) && f.second == Field(s, 17, 19)
      && f.fraction == Field(s, 20, 27)
  {
  }

  lemma FormatOfParse(s: string)
    requires ParseFields(s).Some?
    ensures FormatFields(ParseFields(s).value) == s
  {
    var t := FormatFields(ParseFields(s).value);
    FormatOfParseDate(s);
    FormatOfParseTime(s);
    AgreeJoin(s, t, 0, 11, 27);
  }

  /** The date part and the 'T' of a parsed string are written back. */
  lemma FormatOfParseDate(s: string)
    requires ParseFields(s).Some?
    ensures var t := FormatFields(ParseFields(s).value);
      |s| == |t| == 27 && forall i :: 0 <= i < 11 ==> s[i] == t[i]
  {
    var t := FormatFields(ParseFields(s).value);
    FormatOfParseYear(s);
    FormatOfParseMonthDay(s);
    AgreeJoin(s, t, 0, 5, 11);
  }

  /** The year and the '-' after it are written back. */
  lemma FormatOfParseYear(s: string)
    requires ParseFields(s).Some?
    ensures var t := FormatFields(ParseFields(s).value);
      |s| == |t| == 27 && forall i :: 0 <= i < 5 ==> s[i] == t[i]
  {
    ParseFieldsFacts(s);
    var f := ParseFields(s).value;
    var t := FormatFields(f);
    FormatFieldsSlices(f);
    var year := s[0..4];
    ParseDigitsCanonical(year);
    assert ParseDigits(year).value == f.year;
    assert year == t[0..4];
    SameOnSlice(s, t, 0, 4);
    AgreeThrough(s, t, 0, 4);
  }

  /** The month, the day and the separators around them are written back. */
  lemma FormatOfParseMonthDay(s: string)
    requires ParseFields(s).Some?
    ensures var t := FormatFields(ParseFields(s).value);
      |s| == |t| == 27 && forall i :: 5 <= i < 11 ==> s[i] == t[i]
  {
    ParseFieldsFacts(s);
    var f := ParseFields(s).value;
    var t := FormatFields(f);
    FormatFieldsSlices(f);
    FieldAgrees(s, t, 5, 7);
    AgreeThrough(s, t, 5, 7);
    FieldAgrees(s, t, 8, 10);
    AgreeJoin(s, t, 5, 8, 10);
    AgreeThrough(s, t, 5, 10);
  }

  /** The time part of a parsed string is written back. */
  lemma FormatOfParseTime(s: string)
    requires ParseFields(s).Some?
    ensures var t := FormatFields(ParseFields(s).value);
      |s| == |t| == 27 && forall i :: 11 <= i < 27 ==> s[i] == t[i]
  {
    ParseFieldsFacts(s);
    var f := ParseFields(s).value;
    var t := FormatFields(f);
    FormatFieldsSlices(f);
    FieldAgrees(s, t, 11, 13);
    AgreeThrough(s, t, 11, 13);
    FieldAgrees(s, t, 14, 16);
    AgreeJoin(s, t, 11, 14, 16);
    AgreeThrough(s, t, 11, 16);
    FieldAgrees(s, t, 17, 19);
    AgreeJoin(s, t, 11, 17, 19);
    AgreeThrough(s, t, 11, 19);
    FieldAgrees(s, t, 20, 27);
    AgreeJoin(s, t, 11, 20, 27);
  }

  /** Two strings that agree on `[lo, hi)` and at `hi` agree on `[lo, hi]`. */
  lemma AgreeThrough(s: string, t: string, lo: nat, hi: nat)
    requires lo <= hi < |s| && hi < |t| && s[hi] == t[hi]
    requires forall i :: lo <= i < hi ==> s[i] == t[i]
    ensures forall i :: lo <= i < hi + 1 ==> s[i] == t[i]
  {
  }

  /** Agreement on two adjacent ranges is agreement on their union. */
  lemma AgreeJoin(s: string, t: string, lo: nat, mid: nat, hi: nat)
    requires lo <= mid <= hi <= |s| && hi <= |t|
    requires forall i :: lo <= i < mid ==> s[i] == t[i]
    requires forall i :: mid <= i < hi ==> s[i] == t[i]
    ensures forall i :: lo <= i < hi ==> s[i] == t[i]
  {
  }

  /** The date-time part parses exactly the strings the formatter writes:
      both directions of the round trip. */
  lemma ParseFieldsIff(s: string, f: Fields)
    ensures ParseFields(s) == Some(f) <==> ValidFields(f) && FormatFields(f) == s
  {
    if ValidFields(f) && FormatFields(f) == s {
      ParseOfFormat(f);
    }
    if ParseFields(s) == Some(f) {
      FormatOfParse(s);
    }
  }

  /** "+hh:mm" / "-hh:mm" for an offset in minutes. */
  function OffsetText(z: Zone): (s: string)
    ensures |s| == 6
  {
    var a := if z < 0 then -z else z;
    [if z < 0 then '-' else '+'] + Digits(a / 60, 2) + ":" + Digits(a % 60, 2)
  }

  /** The "K" specifier: "Z" for Utc, the local offset for Local, nothing
      for Unspecified. */
  function KindSuffix(kind: Kind, zone: Zone): (s: string)
    ensures |s| <= 6
  {
    match kind
    case Utc => "Z"
    case Unspecified => ""
    case Local => OffsetText(zone)
  }

  /** `dt.ToString("o")`: "Z" for Utc, the local offset for Local, nothing
      for Unspecified. */
  function FormatRoundTrip(dt: DateTime, zone: Zone): (s: string)
    ensures 27 <= |s| <= 33
  {
    FormatFields(TicksToFields(dt.ticks)) + KindSuffix(dt.kind, zone)
  }

  /** The result of reading a UTC instant back as local time. */
  function ToLocal(utc: int, zone: Zone): Result<DateTime>
  {
    var local := utc + zone * TicksPerMinute;
    if InRange(local) then Ok(DateTime(local, Local)) else Err(Format)
  }

  /** `DateTime.ParseExact(s, "o", null)` with no `DateTimeStyles`: text
      without an offset is Unspecified; text with "Z" or an offset is
      converted to local time and comes back Local. */
  function ParseRoundTrip(s: string, zone: Zone): (r: Result<DateTime>)
    ensures r.Err? ==> r.error == Format
    ensures r.Ok? ==> |s| >= 27 && ParseFields(s[..27]).Some?
    ensures r.Ok? && |s| == 27 ==> r.value == DateTime(FieldsToTicks(ParseFields(s[..27]).value), Unspecified)
    ensures r.Ok? && |s| > 27 ==> r.value.kind == Local
  {
    if |s| < 27 then Err(Format)
    else
      match ParseFields(s[..27])
      case None => Err(Format)
      case Some(f) => ParseSuffix(FieldsToTicks(f), s[27..], zone)
  }

  /** The offset, in signed minutes, of the "K" part "+hh:mm" or "-hh:mm",
      or of the one-digit-hour form "+h:mm" .NET also accepts.  The minutes
      field is two digits but is not limited to 59. */
  function ParseOffset(rest: string): (r: Option<int>)
    ensures r.Some? ==> (|rest| == 5 || |rest| == 6) && (rest[0] == '+' || rest[0] == '-') && rest[|rest| - 3] == ':'
    ensures r.Some? ==> (rest[0] == '-' <==> r.value < 0) || r.value == 0
  {
    if (|rest| != 5 && |rest| != 6) || (rest[0] != '+' && rest[0] != '-') || rest[|rest| - 3] != ':' then None
    else
      var hours := ParseDigits(rest[1..|rest| - 3]);
      var minutes := ParseDigits(rest[|rest| - 2..]);
      if hours.None? || minutes.None? then None
      else
        var m := hours.value * 60 + minutes.value;
        Some(if rest[0] == '-' then -m else m)
  }

  /** The "K" part of the text after a timestamp of `t` ticks: none gives
      Unspecified; "Z" or an offset convert the instant to local time.  An
      offset beyond 14 hours either way is a `FormatException`. */
  function ParseSuffix(t: Ticks, rest: string, zone: Zone): (r: Result<DateTime>)
    ensures r.Err? ==> r.error == Format
    ensures r.Ok? && rest == "" ==> r.value == DateTime(t, Unspecified)
    ensures r.Ok? && rest != "" ==> r.value.kind == Local
    ensures r.Ok? && rest != "" && rest != "Z" ==>
      ParseOffset(rest).Some? && -14 * 60 <= ParseOffset(rest).value <= 14 * 60
  {
    if rest == "" then Ok(DateTime(t, Unspecified))
    else if rest == "Z" then ToLocal(t, zone)
    else
      match ParseOffset(rest)
      case None => Err(Format)
      case Some(offset) =>
        if -14 * 60 <= offset <= 14 * 60 then ToLocal(t - offset * TicksPerMinute, zone) else Err(Format)
  }

  /** The offset the formatter writes parses back to itself. */
  lemma OffsetRoundTrip(z: Zone)
    ensures ParseOffset(OffsetText(z)) == Some(z)
  {
    var a := if z < 0 then -z else z;
    var h, m := a / 60, a % 60;
    assert h * 60 + m == a && h < 100 && m < 60;
    Pow10Widths();
    var s := OffsetText(z);
    assert s == [if z < 0 then '-' else '+'] + Digits(h, 2) + ":" + Digits(m, 2);
    assert s[1..3] == Digits(h, 2);
    assert s[4..6] == Digits(m, 2);
    DigitsRoundTrip(h, 2);
    DigitsRoundTrip(m, 2);
  }

  /** A one-digit hour reads as the same hour with a leading zero. */
  lemma OneDigitHour(sign: char, h: char, mm: string)
    requires |mm| == 2
    ensures ParseOffset([sign, h, ':'] + mm) == ParseOffset([sign, '0', h, ':'] + mm)
  {
    var short, long := [sign, h, ':'] + mm, [sign, '0', h, ':'] + mm;
    assert short[1..2] == [h] && long[1..3] == ['0', h];
    assert short[3..] == mm && long[4..] == mm;
    LeadingZero(h);
  }

  /** A leading zero does not change a digit string's value. */
  lemma LeadingZero(h: char)
    ensures ParseDigits([h]) == ParseDigits(['0', h])
  {
    assert ['0', h][..1] == ['0'] && ['0'][..0] == [] && [h][..0] == [];
  }

  /** Text carrying an offset is read as that instant, converted to local
      time. */
  lemma ParseWithOffset(s: string, z: Zone, zone: Zone)
    requires |s| == 33 && ParseFields(s[..27]).Some? && s[27..] == OffsetText(z)
    ensures ParseRoundTrip(s, zone) == ToLocal(FieldsToTicks(ParseFields(s[..27]).value) - z * TicksPerMinute, zone)
  {
    var t := FieldsToTicks(ParseFields(s[..27]).value);
    assert ParseRoundTrip(s, zone) == ParseSuffix(t, OffsetText(z), zone);
    OffsetSuffix(t, z, zone);
  }

  /** An offset suffix converts the instant it marks to local time. */
  lemma OffsetSuffix(t: Ticks, z: Zone, zone: Zone)
    ensures ParseSuffix(t, OffsetText(z), zone) == ToLocal(t - z * TicksPerMinute, zone)
  {
    OffsetRoundTrip(z);
    var rest := OffsetText(z);
    assert rest != "" && rest != "Z";
  }

  /** The first 27 characters of `ToString("o")` parse back to the
      timestamp's ticks, and the rest is the kind's suffix. */
  lemma FormattedParts(dt: DateTime, zone: Zone)
    ensures var s := FormatRoundTrip(dt, zone);
      && ParseFields(s[..27]) == Some(TicksToFields(dt.ticks))
      && FieldsToTicks(TicksToFields(dt.ticks)) == dt.ticks
      && s[27..] == KindSuffix(dt.kind, zone)
  {
    var f := TicksToFields(dt.ticks);
    var s := FormatRoundTrip(dt, zone);
    assert s[..27] == FormatFields(f);
    ParseFieldsIff(s[..27], f);
  }

  /** Text with the "Z" suffix is read back as the equal local time. */
  lemma RoundTripUtc(dt: DateTime, zone: Zone)
    requires dt.kind == Utc
    ensures ParseRoundTrip(FormatRoundTrip(dt, zone), zone) == ToLocal(dt.ticks, zone)
  {
    FormattedParts(dt, zone);
  }

  /** Text without a suffix is read back unchanged. */
  lemma RoundTripUnspecified(dt: DateTime, zone: Zone)
    requires dt.kind == Unspecified
    ensures ParseRoundTrip(FormatRoundTrip(dt, zone), zone) == Ok(dt)
  {
    FormattedParts(dt, zone);
  }

  /** Text with the local offset is converted to UTC and back to the same
      local time. */
  lemma RoundTripLocal(dt: DateTime, zone: Zone)
    requires dt.kind == Local
    ensures ParseRoundTrip(FormatRoundTrip(dt, zone), zone) == Ok(dt)
  {
    FormattedParts(dt, zone);
    ParseWithOffset(FormatRoundTrip(dt, zone), zone, zone);
  }

  /** Parsing what `ToString("o")` wrote denotes the same instant, to the
      tick.  Unspecified and Local values come back identical; a Utc value
      comes back as the equal local time, Local kind, unless that local time
      is outside the calendar. */
  lemma RoundTripInstant(dt: DateTime, zone: Zone)
    ensures var r := ParseRoundTrip(FormatRoundTrip(dt, zone), zone);
      && (dt.kind != Utc ==> r == Ok(dt))
      && (dt.kind == Utc ==> r == ToLocal(dt.ticks, zone))
      && (r.Ok? ==> UtcTicks(r.value, zone) == UtcTicks(dt, zone))
  {
    match dt.kind
    case Utc => RoundTripUtc(dt, zone);
    case Unspecified => RoundTripUnspecified(dt, zone);
    case Local => RoundTripLocal(dt, zone);
  }

  lemma FormatRoundTripAscii(dt: DateTime, zone: Zone)
    ensures IsAscii(FormatRoundTrip(dt, zone))
  {
    var f := TicksToFields(dt.ticks);
    DateTextAscii(f);
    TimeTextAscii(f);
    AsciiAppend(DateText(f), "T");
    AsciiAppend(DateText(f) + "T", TimeText(f));
    assert IsAscii(KindSuffix(dt.kind, zone));
    AsciiAppend(FormatFields(f), KindSuffix(dt.kind, zone));
  }

  lemma DateTextAscii(f: Fields)
    requires ValidFields(f)
    ensures IsAscii(DateText(f))
  {
    var y, mo, d := Digits(f.year, 4), Digits(f.month, 2), Digits(f.day, 2);
    DigitsAscii(f.year, 4);
    DigitsAscii(f.month, 2);
    DigitsAscii(f.day, 2);
    AsciiAppend(y, "-");
    AsciiAppend(y + "-", mo);
    AsciiAppend(y + "-" + mo, "-");
    AsciiAppend(y + "-" + mo + "-", d);
  }

  lemma TimeTextAscii(f: Fields)
    requires ValidFields(f)
    ensures IsAscii(TimeText(f))
  {
    var h, mi, se, fr := Digits(f.hour, 2), Digits(f.minute, 2), Digits(f.second, 2), Digits(f.fraction, 7);
    DigitsAscii(f.hour, 2);
    DigitsAscii(f.minute, 2);
    DigitsAscii(f.second, 2);
    DigitsAscii(f.fraction, 7);
    AsciiAppend(h, ":");
    AsciiAppend(h + ":", mi);
    AsciiAppend(h + ":" + mi, ":");
    AsciiAppend(h + ":" + mi + ":", se);
    AsciiAppend(h + ":" + mi + ":" + se, ".");
    AsciiAppend(h + ":" + mi + ":" + se + ".", fr);
  }

  lemma DigitsAscii(n: nat, w: nat)
    ensures IsAscii(Digits(n, w))
  {
  }
}

=== FILE: entities.dfy ===
/** The entities of the feed: accounts, posts and comments (the `Models`
    classes), and the JSON text Newtonsoft.Json writes for a comment, which
    is what the comment rings in Redis hold. */
module Entities {
  import opened Base
  import opened Strings
  import opened DateTimes
  import Json

  /** A `Guid` in its `ToString()` text. */
  type Id = string

  datatype Account = Account(id: Id, name: string)

  /** `Post` without its navigation properties. */
  datatype Post = Post(id: Id, caption: string, imageUrl: string, creatorId: Id, createdAt: DateTime)

  /** `Comment` without its navigation properties. */
  datatype Comment = Comment(id: Id, content: string, creatorId: Id, postId: Id, createdAt: DateTime)

  /** Drops trailing '0' characters. */
  function TrimZeros(s: string): (r: string)
    ensures |r| <= |s| && r == s[..|r|]
    ensures |r| > 0 ==> r[|r| - 1] != '0'
    ensures forall i :: |r| <= i < |s| ==> s[i] == '0'
  {
    if s != [] && s[|s| - 1] == '0' then TrimZeros(s[..|s| - 1]) else s
  }

  /** Newtonsoft.Json's ISO date text, "yyyy-MM-ddTHH:mm:ss.FFFFFFFK": the
      fraction loses its trailing zeros, and its '.' when nothing is left. */
  function JsonDate(dt: DateTime, zone: Zone): (s: string)
  {
    var o := FormatFields(TicksToFields(dt.ticks));
    var fraction := TrimZeros(o[20..27]);
    o[..19] + (if fraction == "" then "" else "." + fraction) + KindSuffix(dt.kind, zone)
  }

  /** `JsonConvert.SerializeObject(comment)` for a comment whose navigation
      properties are null: the properties in declaration order.  The `Guid`
      properties are written as their text, which needs no escaping; the
      content is escaped. */
  function CommentJson(c: Comment, zone: Zone): (s: string)
    ensures StartsWith(s, "{\"Id\":\"" + c.id)
  {
    var head := "{\"Id\":\"" + c.id;
    var s := ContentPrefix(c) + Json.Escape(c.content) + CommentTail(c, zone);
    assert ContentPrefix(c) == head + "\",\"Content\":\"";
    assert s[..|head|] == ContentPrefix(c)[..|head|] == head;
    s
  }

  /** The properties before the content, and the content's opening quote. */
  function ContentPrefix(c: Comment): string
  {
    "{\"Id\":\"" + c.id + "\",\"Content\":\""
  }

  /** The properties after the content. */
  function CommentTail(c: Comment, zone: Zone): string
  {
    "\",\"CreatorId\":\"" + c.creatorId + "\",\"Creator\":null,\"PostId\":\"" + c.postId
    + "\",\"Post\":null,\"CreatedAt\":\"" + JsonDate(c.createdAt, zone) + "\"}"
  }

  /** Where the content text sits in a comment's JSON. */
  function ContentOffset(c: Comment): nat
  {
    |ContentPrefix(c)|
  }

  /** A comment's JSON contains its own id text. */
  lemma JsonContainsId(c: Comment, zone: Zone)
    ensures Contains(CommentJson(c, zone), c.id)
  {
    var s := CommentJson(c, zone);
    var p := "{\"Id\":\"";
    assert s[..|p + c.id|] == p + c.id;
    assert s[|p|..|p| + |c.id|] == c.id;
    assert OccursAt(s, c.id, |p|);
  }

  /** A comment's JSON contains its escaped content text, which is the
      content itself when nothing in it needs escaping. */
  lemma JsonContainsContent(c: Comment, zone: Zone)
    ensures OccursAt(CommentJson(c, zone), Json.Escape(c.content), ContentOffset(c))
  {
    var p, e := ContentPrefix(c), Json.Escape(c.content);
    OccursAtEnd(p, e);
    OccursExtend(p + e, e, |p|, CommentTail(c, zone));
  }

  /** A JSON reader gives back the content from the text at its place in
      the comment's JSON. */
  lemma JsonContentReadsBack(c: Comment, zone: Zone)
    ensures var s := CommentJson(c, zone);
      var k, n := ContentOffset(c), |Json.Escape(c.content)|;
      k + n <= |s| && Json.Unescape(s[k..k + n]) == Some(c.content)
  {
    var s := CommentJson(c, zone);
    var e := Json.Escape(c.content);
    var k := ContentOffset(c);
    JsonContainsContent(c, zone);
    assert s[k..k + |e|] == e;
    Json.UnescapeEscape(c.content);
  }

}

=== FILE: feedindex.dfy ===
/** The Redis sorted set "post_sorted": post ids scored by their creation
    time in Unix milliseconds.  It is kept as a sequence in Redis order,
    ascending by score and, among equal scores, by member text. */
module FeedIndex {
  import opened Base

  datatype Entry = Entry(member: string, score: int)

  /** Ordinal comparison of member texts, as Redis compares equal-score
      members (byte-wise, which for ASCII ids is character-wise). */
  predicate LexLess(a: string, b: string)
    decreases |a|
  {
    |b| > 0 && (|a| == 0 || a[0] < b[0] || (a[0] == b[0] && LexLess(a[1..], b[1..])))
  }

  lemma {:induction false} LexIrreflexive(a: string)
    ensures !LexLess(a, a)
    decreases |a|
  {
    if |a| > 0 {
      LexIrreflexive(a[1..]);
    }
  }

  lemma {:induction false} LexTransitive(a: string, b: string, c: string)
    requires LexLess(a, b) && LexLess(b, c)
    ensures LexLess(a, c)
    decreases |a|
  {
    if |a| > 0 && a[0] == b[0] && b[0] == c[0] {
      LexTransitive(a[1..], b[1..], c[1..]);
    }
  }

  lemma {:induction false} LexTotal(a: string, b: string)
    requires a != b
    ensures LexLess(a, b) || LexLess(b, a)
    decreases |a|
  {
    if |a| > 0 && |b| > 0 && a[0] == b[0] {
      assert a == [a[0]] + a[1..] && b == [b[0]] + b[1..];
      LexTotal(a[1..], b[1..]);
    }
  }

  /** Redis order: `x` comes before `y`. */
  predicate Below(x: Entry, y: Entry)
  {
    x.score < y.score || (x.score == y.score && LexLess(x.member, y.member))
  }

  lemma BelowTransitive(x: Entry, y: Entry, z: Entry)
    requires Below(x, y) && Below(y, z)
    ensures Below(x, z)
  {
    if x.score == y.score && y.score == z.score {
      LexTransitive(x.member, y.member, z.member);
    }
  }

  lemma BelowIrreflexive(x: Entry)
    ensures !Below(x, x)
  {
    LexIrreflexive(x.member);
  }

  lemma BelowTotal(x: Entry, y: Entry)
    requires x.member != y.member
    ensures Below(x, y) || Below(y, x)
  {
    LexTotal(x.member, y.member);
  }

  /** A well-formed sorted set: strictly ascending in Redis order, each
      member present once. */
  ghost predicate Valid(s: seq<Entry>)
  {
    && (forall i, j :: 0 <= i < j < |s| ==> Below(s[i], s[j]))
    && (forall i, j :: 0 <= i < j < |s| ==> s[i].member != s[j].member)
  }

  /** `m` is a member of the set. */
  predicate Has(s: seq<Entry>, m: string)
  {
    exists i | 0 <= i < |s| :: s[i].member == m
  }

  /** The member texts, for removing many members at once. */
  function Members(s: seq<Entry>): (ms: set<string>)
    ensures forall m :: m in ms <==> Has(s, m)
  {
    set i | 0 <= i < |s| :: s[i].member
  }

  /** `ZSCORE`: the score of `m`, if it is a member. */
  function ScoreOf(s: seq<Entry>, m: string): (r: Option<int>)
    ensures r.Some? <==> Has(s, m)
    ensures r.Some? ==> Entry(m, r.value) in s
  {
    if s == [] then None
    else if s[0].member == m then Some(s[0].score)
    else
      var r := ScoreOf(s[1..], m);
      assert Has(s, m) ==> Has(s[1..], m) by {
        if Has(s, m) {
          var i :| 0 <= i < |s| && s[i].member == m;
          assert s[1..][i - 1].member == m;
        }
      }
      r
  }

  /** In a valid set an entry is determined by its member. */
  lemma ScoreOfValid(s: seq<Entry>, e: Entry)
    requires Valid(s) && e in s
    ensures ScoreOf(s, e.member) == Some(e.score)
  {
    var r := ScoreOf(s, e.member);
    var i :| 0 <= i < |s| && s[i] == e;
    assert Has(s, e.member);
    var j :| 0 <= j < |s| && s[j] == Entry(e.member, r.value);
    assert !(i < j) && !(j < i);
  }

  /** A head that ranks below, and differs in member from, every entry of a
      valid tail keeps the set valid. */
  lemma ValidCons(h: Entry, t: seq<Entry>)
    requires Valid(t)
    requires forall j :: 0 <= j < |t| ==> Below(h, t[j]) && h.member != t[j].member
    ensures Valid([h] + t)
  {
    var s := [h] + t;
    forall i, j | 0 <= i < j < |s|
      ensures Below(s[i], s[j]) && s[i].member != s[j].member
    {
      assert s[j] == t[j - 1];
      if i > 0 {
        assert s[i] == t[i - 1];
      }
    }
  }

  /** An entry below the head of a set it is not in may go in front. */
  lemma InsertFront(s: seq<Entry>, x: Entry)
    requires Valid(s) && !Has(s, x.member) && s != [] && Below(x, s[0])
    ensures Valid([x] + s)
  {
    forall j | 0 <= j < |s|
      ensures Below(x, s[j]) && x.member != s[j].member
    {
      if j > 0 {
        BelowTransitive(x, s[0], s[j]);
      }
    }
    ValidCons(x, s);
  }

  /** The tail of a set is a set, and holds no member the set lacks. */
  lemma TailValid(s: seq<Entry>, m: string)
    requires Valid(s) && s != [] && !Has(s, m)
    ensures Valid(s[1..]) && !Has(s[1..], m) && s[0].member != m
  {
    assert forall i :: 0 <= i < |s[1..]| ==> s[1..][i] == s[i + 1];
  }

  /** Puts a new member in its place. */
  function Insert(s: seq<Entry>, x: Entry): (r: seq<Entry>)
    requires Valid(s) && !Has(s, x.member)
    ensures Valid(r)
    ensures multiset(r) == multiset(s) + multiset{x}
  {
    if s == [] then
      ValidCons(x, []);
      [x]
    else if Below(x, s[0]) then
      InsertFront(s, x);
      [x] + s
    else
      TailValid(s, x.member);
      BelowTotal(x, s[0]);
      assert s == [s[0]] + s[1..];
      var rest := Insert(s[1..], x);
      InsertHeadBelow(s, x, rest);
      ValidCons(s[0], rest);
      [s[0]] + rest
  }

  lemma InsertHeadBelow(s: seq<Entry>, x: Entry, rest: seq<Entry>)
    requires Valid(s) && |s| > 0
    requires Below(s[0], x) && s[0].member != x.member
    requires multiset(rest) == multiset(s[1..]) + multiset{x}
    ensures forall j :: 0 <= j < |rest| ==> Below(s[0], rest[j]) && s[0].member != rest[j].member
  {
    forall j | 0 <= j < |rest|
      ensures Below(s[0], rest[j]) && s[0].member != rest[j].member
    {
      assert rest[j] in multiset(rest);
      if rest[j] != x {
        assert rest[j] in multiset(s[1..]);
        var k :| 0 <= k < |s[1..]| && s[1..][k] == rest[j];
        assert s[k + 1] == rest[j];
      }
    }
  }

  /** `ZREM` of one member. */
  function Remove(s: seq<Entry>, m: string): (r: seq<Entry>)
    requires Valid(s)
    ensures Valid(r)
    ensures forall e :: e in r <==> e in s && e.member != m
  {
    if s == [] then []
    else
      var rest := Remove(s[1..], m);
      assert s == [s[0]] + s[1..];
      if s[0].member == m then
        rest
      else
        RemoveHeadBelow(s, rest);
        ValidCons(s[0], rest);
        [s[0]] + rest
  }

  lemma RemoveHeadBelow(s: seq<Entry>, rest: seq<Entry>)
    requires Valid(s) && |s| > 0
    requires forall e :: e in rest ==> e in s[1..]
    ensures forall j :: 0 <= j < |rest| ==> Below(s[0], rest[j]) && s[0].member != rest[j].member
  {
    forall j | 0 <= j < |rest|
      ensures Below(s[0], rest[j]) && s[0].member != rest[j].member
    {
      assert rest[j] in s[1..];
      var k :| 0 <= k < |s[1..]| && s[1..][k] == rest[j];
      assert s[k + 1] == rest[j];
    }
  }

  /** Removing a member shrinks the set by one exactly when it was present. */
  lemma {:induction false} RemoveSize(s: seq<Entry>, m: string)
    requires Valid(s)
    ensures |Remove(s, m)| == if Has(s, m) then |s| - 1 else |s|
    decreases |s|
  {
    if s != [] {
      assert Valid(s[1..]) by {
        forall i, j | 0 <= i < j < |s[1..]|
          ensures Below(s[1..][i], s[1..][j]) && s[1..][i].member != s[1..][j].member
        {
          assert s[1..][i] == s[i + 1] && s[1..][j] == s[j + 1];
        }
      }
      RemoveSize(s[1..], m);
      if s[0].member == m {
        assert forall i :: 0 <= i < |s[1..]| ==> s[1..][i].member != m by {
          forall i | 0 <= i < |s[1..]| ensures s[1..][i].member != m {
            assert s[1..][i] == s[i + 1];
          }
        }
      } else {
        assert Has(s, m) <==> Has(s[1..], m) by {
          if Has(s, m) {
            var i :| 0 <= i < |s| && s[i].member == m;
            assert s[1..][i - 1].member == m;
          }
          if Has(s[1..], m) {
            var i :| 0 <= i < |s[1..]| && s[1..][i].member == m;
            assert s[i + 1].member == m;
          }
        }
      }
    }
  }

  /** `ZADD key score member`: adds the member or moves it to its new score. */
  function Add(s: seq<Entry>, m: string, score: int): (r: seq<Entry>)
    requires Valid(s)
    ensures Valid(r)
    ensures multiset(r) == multiset(Remove(s, m)) + multiset{Entry(m, score)}
  {
    var t := Remove(s, m);
    assert forall i :: 0 <= i < |t| ==> t[i].member != m by {
      forall i | 0 <= i < |t| ensures t[i].member != m {
        assert t[i] in t;
      }
    }
    Insert(t, Entry(m, score))
  }

  /** An upsert: afterwards `m` has exactly the given score, every other
      entry is as it was, and the set grows only when `m` is new. */
  lemma AddSpec(s: seq<Entry>, m: string, score: int)
    requires Valid(s)
    ensures var r := Add(s, m, score);
      && ScoreOf(r, m) == Some(score)
      && (forall e :: e in s && e.member != m ==> e in r)
      && (forall e :: e in r ==> e == Entry(m, score) || (e in s && e.member != m))
      && |r| == if Has(s, m) then |s| else |s| + 1
  {
    AddScore(s, m, score);
    AddEntries(s, m, score);
    AddSize(s, m, score);
  }

  lemma AddScore(s: seq<Entry>, m: string, score: int)
    requires Valid(s)
    ensures ScoreOf(Add(s, m, score), m) == Some(score)
  {
    var r := Add(s, m, score);
    assert Entry(m, score) in multiset(r);
    ScoreOfValid(r, Entry(m, score));
  }

  lemma AddEntries(s: seq<Entry>, m: string, score: int)
    requires Valid(s)
    ensures var r := Add(s, m, score);
      && (forall e :: e in s && e.member != m ==> e in r)
      && (forall e :: e in r ==> e == Entry(m, score) || (e in s && e.member != m))
  {
    AddKeepsOthers(s, m, score);
    AddOnlyNew(s, m, score);
  }

  lemma AddKeepsOthers(s: seq<Entry>, m: string, score: int)
    requires Valid(s)
    ensures forall e :: e in s && e.member != m ==> e in Add(s, m, score)
  {
    var t := Remove(s, m);
    var r := Add(s, m, score);
    forall e | e in s && e.member != m
      ensures e in r
    {
      assert e in t;
      assert e in multiset(t);
      assert e in multiset(r);
    }
  }

  lemma AddOnlyNew(s: seq<Entry>, m: string, score: int)
    requires Valid(s)
    ensures forall e :: e in Add(s, m, score) ==> e == Entry(m, score) || (e in s && e.member != m)
  {
    var t := Remove(s, m);
    var r := Add(s, m, score);
    forall e | e in r
      ensures e == Entry(m, score) || (e in s && e.member != m)
    {
      assert e in multiset(r);
      if e != Entry(m, score) {
        assert e in multiset(t);
        assert e in t;
      }
    }
  }

  lemma AddSize(s: seq<Entry>, m: string, score: int)
    requires Valid(s)
    ensures |Add(s, m, score)| == if Has(s, m) then |s| else |s| + 1
  {
    var t := Remove(s, m);
    var r := Add(s, m, score);
    RemoveSize(s, m);
    assert |r| == |multiset(r)| == |t| + 1;
  }

  /** `ZREM key m1 m2 ...`. */
  function RemoveMembers(s: seq<Entry>, ms: set<string>): (r: seq<Entry>)
    ensures forall e :: e in r <==> e in s && e.member !in ms
  {
    if s == [] then []
    else
      assert s == [s[0]] + s[1..];
      (if s[0].member in ms then [] else [s[0]]) + RemoveMembers(s[1..], ms)
  }

  /** Removing the members of the first `k` entries leaves exactly the rest
      of the set, in order. */
  lemma {:induction false} RemovePrefixMembers(s: seq<Entry>, k: nat)
    requires Valid(s) && k <= |s|
    ensures RemoveMembers(s, Members(s[..k])) == s[k..]
    decreases |s|
  {
    if s != [] {
      var t := s[1..];
      ValidSuffix(s, 1);
      assert s == [s[0]] + t;
      if k == 0 {
        assert Members(s[..k]) == {};
        RemoveNone(s);
      } else {
        HeadMembers(s, k);
        RemoveExtra(t, s[0].member, Members(t[..k - 1]));
        RemovePrefixMembers(t, k - 1);
        assert t[k - 1..] == s[k..];
      }
    }
  }

  /** The members of a nonempty prefix are its head's and its tail's; the
      head's member occurs nowhere else. */
  lemma HeadMembers(s: seq<Entry>, k: nat)
    requires Valid(s) && 0 < k <= |s|
    ensures Members(s[..k]) == {s[0].member} + Members(s[1..][..k - 1])
    ensures forall j :: 0 <= j < |s| - 1 ==> s[1..][j].member != s[0].member
  {
    assert s[..k] == [s[0]] + s[1..][..k - 1];
    MembersCons(s[0], s[1..][..k - 1]);
    forall j | 0 <= j < |s| - 1 ensures s[1..][j].member != s[0].member {
      assert s[1..][j] == s[j + 1];
    }
  }

  lemma MembersCons(h: Entry, t: seq<Entry>)
    ensures Members([h] + t) == {h.member} + Members(t)
  {
    var s := [h] + t;
    assert s[0] == h;
    forall m | m in Members(t) ensures m in Members(s) {
      var i :| 0 <= i < |t| && t[i].member == m;
      assert s[i + 1] == t[i];
    }
    forall m | m in Members(s) ensures m in {h.member} + Members(t) {
      var i :| 0 <= i < |s| && s[i].member == m;
      if i > 0 {
        assert t[i - 1] == s[i];
      }
    }
  }

  lemma {:induction false} RemoveNone(s: seq<Entry>)
    ensures RemoveMembers(s, {}) == s
    decreases |s|
  {
    if s != [] {
      RemoveNone(s[1..]);
      assert s == [s[0]] + s[1..];
    }
  }

  /** Adding a member that does not occur to the removal set changes nothing. */
  lemma {:induction false} RemoveExtra(s: seq<Entry>, m: string, ms: set<string>)
    requires forall j :: 0 <= j < |s| ==> s[j].member != m
    ensures RemoveMembers(s, {m} + ms) == RemoveMembers(s, ms)
    decreases |s|
  {
    if s != [] {
      RemoveExtra(s[1..], m, ms);
    }
  }

  /** `InvalidateOldData` on the index: while more than `maxSize` members
      are present, the `count - maxSize` lowest-ranked ones (`ZRANGEBYRANK 0
      count-maxSize-1`) are removed. */
  function Oldest(s: seq<Entry>, maxSize: nat): (r: seq<Entry>)
    ensures |s| <= maxSize ==> r == []
    ensures |s| > maxSize ==> |r| == |s| - maxSize
    ensures r == s[..|r|]
  {
    if |s| > maxSize then s[..|s| - maxSize] else []
  }

  /** An entry that outscores every other member is never among the
      oldest while at least one member is kept. */
  lemma TopNotOldest(s: seq<Entry>, e: Entry, maxSize: nat)
    requires Valid(s) && maxSize >= 1 && e in s
    requires forall x :: x in s && x.member != e.member ==> x.score < e.score
    ensures e.member !in Members(Oldest(s, maxSize))
  {
    var n := |s| - 1;
    assert s[n] in s;
    forall i | 0 <= i < n ensures s[i].member != e.member {
      assert Below(s[i], s[n]);
      assert s[i].member != s[n].member;
    }
    var o := Oldest(s, maxSize);
    forall i | 0 <= i < |o| ensures o[i].member != e.member {
      assert o[i] == s[i];
    }
  }

  lemma ValidSuffix(s: seq<Entry>, k: nat)
    requires Valid(s) && k <= |s|
    ensures Valid(s[k..])
  {
    forall i, j | 0 <= i < j < |s| - k
      ensures Below(s[k..][i], s[k..][j]) && s[k..][i].member != s[k..][j].member
    {
      assert s[k..][i] == s[k + i] && s[k..][j] == s[k + j];
    }
  }

  function Evict(s: seq<Entry>, maxSize: nat): (r: seq<Entry>)
    requires Valid(s)
    ensures Valid(r)
  {
    var oldest := Oldest(s, maxSize);
    var n := |oldest|;
    RemovePrefixMembers(s, n);
    ValidSuffix(s, n);
    RemoveMembers(s, Members(oldest))
  }

  /** Eviction bounds the set at `maxSize`, removes exactly the surplus, and
      keeps the highest-ranked members: everything evicted ranks below
      everything kept, and the kept entries are unchanged. */
  lemma EvictKeepsHighest(s: seq<Entry>, maxSize: nat)
    requires Valid(s)
    ensures var r := Evict(s, maxSize);
      && (|s| <= maxSize ==> r == s)
      && (|s| > maxSize ==> |r| == maxSize)
      && (forall e :: e in r ==> e in s)
      && (forall x, y :: x in Oldest(s, maxSize) && y in r ==> Below(x, y))
      && (forall e :: e in s ==> e in r || e in Oldest(s, maxSize))
  {
    var k := |Oldest(s, maxSize)|;
    RemovePrefixMembers(s, k);
    assert Evict(s, maxSize) == s[k..];
    assert Oldest(s, maxSize) == s[..k];
    PrefixBelowSuffix(s, k);
    PrefixSuffixCover(s, k);
    assert s[0..] == s;
  }

  lemma PrefixBelowSuffix(s: seq<Entry>, k: nat)
    requires Valid(s) && k <= |s|
    ensures forall x, y :: x in s[..k] && y in s[k..] ==> Below(x, y)
  {
    forall x, y | x in s[..k] && y in s[k..]
      ensures Below(x, y)
    {
      var i :| 0 <= i < k && s[..k][i] == x;
      var j :| 0 <= j < |s| - k && s[k..][j] == y;
      assert s[i] == x && s[k + j] == y;
    }
  }

  lemma PrefixSuffixCover<T>(s: seq<T>, k: nat)
    requires k <= |s|
    ensures forall e :: e in s ==> e in s[k..] || e in s[..k]
  {
    assert s == s[..k] + s[k..];
  }

  // ---------------------------------------------------------------------
  // ZRANGEBYSCORE key -inf bound LIMIT 0 limit, descending

  /** How many entries have a score at most `bound`; in a valid set they are
      a prefix. */
  function CountAtMost(s: seq<Entry>, bound: int): (k: nat)
    requires Valid(s)
    ensures k <= |s|
    ensures forall i :: 0 <= i < k ==> s[i].score <= bound
    ensures forall i :: k <= i < |s| ==> s[i].score > bound
  {
    if s == [] || s[0].score > bound then
      assert forall i :: 0 < i < |s| ==> Below(s[0], s[i]);
      0
    else
      1 + CountAtMost(s[1..], bound)
  }

  function Reverse<T>(s: seq<T>): (r: seq<T>)
    ensures |r| == |s|
    ensures forall i :: 0 <= i < |s| ==> r[i] == s[|s| - 1 - i]
  {
    seq(|s|, i requires 0 <= i < |s| => s[|s| - 1 - i])
  }

  /** Where the page starts in Redis order: `limit` entries below the top
      eligible one, or the lowest entry when the limit does not bite. */
  function RangeLow(k: nat, limit: int): (lo: nat)
    requires 0 <= k
    ensures lo <= k
  {
    if limit < 0 || limit >= k then 0 else k - limit
  }

  /** The entries with score at most `bound`, highest first, at most `limit`
      of them; a negative `limit` means no limit, as the Redis LIMIT clause
      reads a negative count. */
  function RangeDesc(s: seq<Entry>, bound: int, limit: int): (r: seq<Entry>)
    requires Valid(s)
    ensures var k := CountAtMost(s, bound);
      && |r| == k - RangeLow(k, limit)
      && forall i :: 0 <= i < |r| ==> r[i] == s[k - 1 - i]
  {
    var k := CountAtMost(s, bound);
    Reverse(s[RangeLow(k, limit)..k])
  }

  /** The range query returns members at or below the bound, in descending
      Redis order, no more than `limit`, and they are the top of the
      eligible entries: an eligible entry left out ranks below every entry
      returned, and none is left out unless the limit was reached. */
  lemma RangeDescSpec(s: seq<Entry>, bound: int, limit: int)
    requires Valid(s)
    ensures var r := RangeDesc(s, bound, limit);
      && (forall i :: 0 <= i < |r| ==> r[i] in s && r[i].score <= bound)
      && (forall i, j :: 0 <= i < j < |r| ==> Below(r[j], r[i]))
      && (limit >= 0 ==> |r| <= limit)
      && (forall e :: e in s && e.score <= bound && e !in r ==>
            (0 <= limit == |r|) && forall i :: 0 <= i < |r| ==> Below(e, r[i]))
  {
    RangeSound(s, bound, limit);
    RangeOrdered(s, bound, limit);
    RangeTop(s, bound, limit);
  }

  lemma RangeSound(s: seq<Entry>, bound: int, limit: int)
    requires Valid(s)
    ensures var r := RangeDesc(s, bound, limit);
      forall i :: 0 <= i < |r| ==> r[i] in s && r[i].score <= bound
  {
  }

  lemma RangeOrdered(s: seq<Entry>, bound: int, limit: int)
    requires Valid(s)
    ensures var r := RangeDesc(s, bound, limit);
      forall i, j :: 0 <= i < j < |r| ==> Below(r[j], r[i])
  {
    var k := CountAtMost(s, bound);
    var r := RangeDesc(s, bound, limit);
    forall i, j | 0 <= i < j < |r|
      ensures Below(r[j], r[i])
    {
      assert r[j] == s[k - 1 - j] && r[i] == s[k - 1 - i];
    }
  }

  lemma RangeTop(s: seq<Entry>, bound: int, limit: int)
    requires Valid(s)
    ensures var r := RangeDesc(s, bound, limit);
      forall e :: e in s && e.score <= bound && e !in r ==>
        (0 <= limit == |r|) && forall i :: 0 <= i < |r| ==> Below(e, r[i])
  {
    var r := RangeDesc(s, bound, limit);
    forall e | e in s && e.score <= bound && e !in r
      ensures (0 <= limit == |r|) && forall i :: 0 <= i < |r| ==> Below(e, r[i])
    {
      var p :| 0 <= p < |s| && s[p] == e;
      OmittedBelow(s, bound, limit, p);
    }
  }

  /** The range holds every entry between its low end and the bound. */
  lemma RangeCovers(s: seq<Entry>, bound: int, limit: int)
    requires Valid(s)
    ensures var k := CountAtMost(s, bound);
      forall p :: RangeLow(k, limit) <= p < k ==> s[p] in RangeDesc(s, bound, limit)
  {
    var k := CountAtMost(s, bound);
    var r := RangeDesc(s, bound, limit);
    forall p | RangeLow(k, limit) <= p < k ensures s[p] in r {
      assert r[k - 1 - p] == s[p];
    }
  }

  /** An eligible entry the range leaves out was cut by the limit and ranks
      below every entry returned. */
  lemma OmittedBelow(s: seq<Entry>, bound: int, limit: int, p: nat)
    requires Valid(s) && p < |s| && s[p].score <= bound
    requires s[p] !in RangeDesc(s, bound, limit)
    ensures var r := RangeDesc(s, bound, limit);
      (0 <= limit == |r|) && forall i :: 0 <= i < |r| ==> Below(s[p], r[i])
  {
    var k := CountAtMost(s, bound);
    RangeCovers(s, bound, limit);
    assert p < k;
    BelowRange(s, bound, limit, p);
  }

  /** An entry below the range's low end ranks below all of it, and the
      range was cut by the limit. */
  lemma BelowRange(s: seq<Entry>, bound: int, limit: int, p: nat)
    requires Valid(s) && p < RangeLow(CountAtMost(s, bound), limit)
    ensures var r := RangeDesc(s, bound, limit);
      (0 <= limit == |r|) && forall i :: 0 <= i < |r| ==> Below(s[p], r[i])
  {
    var k := CountAtMost(s, bound);
    var r := RangeDesc(s, bound, limit);
    assert RangeLow(k, limit) == k - limit;
    forall i | 0 <= i < |r| ensures Below(s[p], r[i]) {
      assert r[i] == s[k - 1 - i];
    }
  }

  /** An entry at or below `b`, itself at or below `bound`, lies among the
      first `CountAtMost(s, b)` entries, and those are among the first
      `CountAtMost(s, bound)`. */
  lemma CountBetween(s: seq<Entry>, i: nat, b: int, bound: int)
    requires Valid(s) && i < |s| && s[i].score <= b <= bound
    ensures i < CountAtMost(s, b) <= CountAtMost(s, bound)
  {
    var k := CountAtMost(s, bound);
    assert k < |s| ==> s[k].score > bound;
  }

  /** The page boundary repeats: asking again with the last returned score
      as the bound starts with an entry of the same score that the first
      page already returned, and with that very entry when no other member
      shares its score. */
  lemma NextPageStartsAtLast(s: seq<Entry>, bound: int, limit: int)
    requires Valid(s)
    requires RangeDesc(s, bound, limit) != []
    ensures var r := RangeDesc(s, bound, limit);
      var x := r[|r| - 1];
      var next := RangeDesc(s, x.score, limit);
      && next != []
      && next[0].score == x.score
      && next[0] in r
      && ((forall e :: e in s && e.score == x.score ==> e == x) ==> next[0] == x)
  {
    var k := CountAtMost(s, bound);
    var lo := RangeLow(k, limit);
    var r := RangeDesc(s, bound, limit);
    assert |r| == k - lo;
    var x := r[|r| - 1];
    assert x == s[lo];
    var k2 := CountAtMost(s, x.score);
    CountBetween(s, lo, x.score, bound);
    HeadOfRange(s, x.score, limit);
    var y := s[k2 - 1];
    TopOfScore(s, lo, x.score);
    assert r[k - k2] == y;
  }

  /** A nonempty range starts with the highest-ranked eligible entry. */
  lemma HeadOfRange(s: seq<Entry>, b: int, limit: int)
    requires Valid(s) && 0 < CountAtMost(s, b) && limit != 0
    ensures var next := RangeDesc(s, b, limit);
      next != [] && next[0] == s[CountAtMost(s, b) - 1]
  {
  }

  /** The highest-ranked entry at or below the score of `s[i]` has that
      very score. */
  lemma TopOfScore(s: seq<Entry>, i: nat, b: int)
    requires Valid(s) && i < |s| && s[i].score == b
    ensures i < CountAtMost(s, b) && s[CountAtMost(s, b) - 1].score == b
  {
    var k := CountAtMost(s, b);
    CountBetween(s, i, b, b);
    assert i == k - 1 || Below(s[i], s[k - 1]);
  }
}

=== FILE: json.dfy ===
/** How Newtonsoft.Json writes a string property's value between its
    quotes, with the default `StringEscapeHandling`: '"' and '\' are
    escaped, as are the control characters below U+0020 (with the short
    forms \b \t \n \f \r) and U+0085, U+2028 and U+2029; every other
    character is written as it is.  A JSON string reader is the partner
    definition: it reads back every escaped text. */
module Json {
  import opened Base

  /** Newtonsoft writes hexadecimal digits in lower case. */
  function Hex(n: int): (c: char)
    requires 0 <= n < 16
  {
    if n < 10 then ('0' as int + n) as char else ('a' as int + n - 10) as char
  }

  /** The value of a hexadecimal digit of either case. */
  function HexValue(c: char): (r: Option<int>)
    ensures r.Some? ==> 0 <= r.value < 16
  {
    if '0' <= c <= '9' then Some(c as int - '0' as int)
    else if 'a' <= c <= 'f' then Some(c as int - 'a' as int + 10)
    else if 'A' <= c <= 'F' then Some(c as int - 'A' as int + 10)
    else None
  }

  /** The characters the writer escapes. */
  predicate NeedsEscape(c: char)
  {
    c == '"' || c == '\\' || c as int < 0x20 || c as int == 0x85 || c as int == 0x2028 || c as int == 0x2029
  }

  /** The short escape letter of a character, where it has one. */
  function ShortEscape(c: char): Option<char>
  {
    if c == '"' then Some('"')
    else if c == '\\' then Some('\\')
    else if c as int == 8 then Some('b')
    else if c == '\t' then Some('t')
    else if c == '\n' then Some('n')
    else if c as int == 12 then Some('f')
    else if c == '\r' then Some('r')
    else None
  }

  /** What the writer puts down for one character. */
  function EscapeChar(c: char): (r: string)
    ensures !NeedsEscape(c) <==> r == [c]
    ensures NeedsEscape(c) ==> |r| >= 2 && r[0] == '\\'
  {
    if ShortEscape(c).Some? then ['\\', ShortEscape(c).value]
    else if c as int < 0x20 then ['\\', 'u', '0', '0', Hex(c as int / 16), Hex(c as int % 16)]
    else if c as int == 0x85 then "\\u0085"
    else if c as int == 0x2028 then "\\u2028"
    else if c as int == 0x2029 then "\\u2029"
    else [c]
  }

  /** `JavaScriptUtils.WriteEscapedJavaScriptString` between the quotes. */
  function Escape(s: string): (r: string)
    ensures |r| >= |s|
    ensures (forall i :: 0 <= i < |s| ==> !NeedsEscape(s[i])) ==> r == s
  {
    if s == [] then [] else EscapeChar(s[0]) + Escape(s[1..])
  }

  /** The character a short escape letter stands for. */
  function ShortUnescape(x: char): Option<char>
  {
    if x == '"' then Some('"')
    else if x == '\\' then Some('\\')
    else if x == '/' then Some('/')
    else if x == 'b' then Some(8 as char)
    else if x == 't' then Some('\t')
    else if x == 'n' then Some('\n')
    else if x == 'f' then Some(12 as char)
    else if x == 'r' then Some('\r')
    else None
  }

  /** The code unit four hexadecimal digits stand for. */
  function HexValue4(q: string): (r: Option<int>)
    requires |q| == 4
    ensures r.Some? ==> 0 <= r.value < 0x10000
  {
    match (HexValue(q[0]), HexValue(q[1]), HexValue(q[2]), HexValue(q[3]))
    case (Some(a), Some(b), Some(c), Some(d)) => Some(((a * 16 + b) * 16 + c) * 16 + d)
    case _ => None
  }

  function Prepend(c: char, r: Option<string>): Option<string>
  {
    match r
    case None => None
    case Some(t) => Some([c] + t)
  }

  /** A JSON string reader for the text between the quotes: `None` is a
      malformed escape.  A lone surrogate code unit is not a character. */
  function Unescape(s: string): (r: Option<string>)
    decreases |s|
  {
    if s == [] then Some([])
    else if s[0] != '\\' then Prepend(s[0], Unescape(s[1..]))
    else if |s| >= 2 && ShortUnescape(s[1]).Some? then Prepend(ShortUnescape(s[1]).value, Unescape(s[2..]))
    else if |s| >= 6 && s[1] == 'u' && HexValue4(s[2..6]).Some?
            && (HexValue4(s[2..6]).value < 0xD800 || 0xE000 <= HexValue4(s[2..6]).value) then
      Prepend(HexValue4(s[2..6]).value as char, Unescape(s[6..]))
    else None
  }

  lemma HexRoundTrip(n: int)
    requires 0 <= n < 16
    ensures HexValue(Hex(n)) == Some(n)
  {
  }

  /** Reading one written character back, ahead of any rest. */
  lemma UnescapeChar(c: char, rest: string)
    ensures Unescape(EscapeChar(c) + rest) == Prepend(c, Unescape(rest))
  {
    if ShortEscape(c).Some? {
      UnescapeShort(ShortEscape(c).value, c, rest);
    } else if c as int < 0x20 {
      var q := ['0', '0', Hex(c as int / 16), Hex(c as int % 16)];
      ControlDigits(c);
      assert EscapeChar(c) == "\\u" + q;
      UnescapeCode(q, c as int, rest);
    } else if c as int == 0x85 || c as int == 0x2028 || c as int == 0x2029 {
      var q := EscapeChar(c)[2..];
      assert EscapeChar(c) == "\\u" + q;
      assert HexValue4(q) == Some(c as int);
      UnescapeCode(q, c as int, rest);
    } else {
      var s := [c] + rest;
      assert s[0] == c && s[1..] == rest;
    }
  }

  /** A short escape reads as the character it stands for. */
  lemma UnescapeShort(x: char, c: char, rest: string)
    requires ShortUnescape(x) == Some(c)
    ensures Unescape(['\\', x] + rest) == Prepend(c, Unescape(rest))
  {
    var s := ['\\', x] + rest;
    assert s[0] == '\\' && s[1] == x && s[2..] == rest;
  }

  /** A "\u" escape reads as the character its four digits stand for. */
  lemma UnescapeCode(q: string, v: int, rest: string)
    requires |q| == 4 && HexValue4(q) == Some(v) && (v < 0xD800 || 0xE000 <= v)
    ensures Unescape("\\u" + q + rest) == Prepend(v as char, Unescape(rest))
  {
    var s := "\\u" + q + rest;
    assert s[0] == '\\' && s[1] == 'u' && s[2..6] == q && s[6..] == rest;
    assert ShortUnescape('u').None?;
  }

  /** The digits of a control character's escape stand for its code. */
  lemma ControlDigits(c: char)
    requires c as int < 0x20
    ensures HexValue4(['0', '0', Hex(c as int / 16), Hex(c as int % 16)]) == Some(c as int)
  {
    HexRoundTrip(c as int / 16);
    HexRoundTrip(c as int % 16);
  }

  /** The reader gives back exactly the string the writer escaped. */
  lemma {:induction false} UnescapeEscape(s: string)
    ensures Unescape(Escape(s)) == Some(s)
    decreases |s|
  {
    if s != [] {
      UnescapeEscape(s[1..]);
      UnescapeChar(s[0], Escape(s[1..]));
      assert [s[0]] + s[1..] == s;
    }
  }

  /** The escaped text has no quote the reader could take for the end of
      the string: every '"' in it follows a backslash. */
  lemma {:induction false} EscapedQuotes(s: string)
    ensures forall i :: 0 <= i < |Escape(s)| && Escape(s)[i] == '"' ==> i > 0 && Escape(s)[i - 1] == '\\'
    decreases |s|
  {
    if s != [] {
      EscapedQuotes(s[1..]);
      var e, t := EscapeChar(s[0]), Escape(s[1..]);
      var r := e + t;
      assert Escape(s) == r;
      forall i | 0 <= i < |r| && r[i] == '"' ensures i > 0 && r[i - 1] == '\\' {
        if i >= |e| {
          assert r[i] == t[i - |e|];
          assert r[i - 1] == t[i - |e| - 1];
        } else {
          QuoteEscaped(s[0], i);
        }
      }
    }
  }

  /** A quote the writer puts down for one character is its second
      character, after a backslash. */
  lemma QuoteEscaped(c: char, i: nat)
    requires i < |EscapeChar(c)| && EscapeChar(c)[i] == '"'
    ensures i == 1 && EscapeChar(c)[0] == '\\'
  {
  }

  // ---------------------------------------------------------------------
  // Where the string ends

  function Shift(k: nat, r: Option<nat>): Option<nat>
  {
    if r.Some? then Some(r.value + k) else None
  }

  /** Where a JSON reader finds the quote that closes a string: it steps
      over a backslash together with the character after it, and over any
      other character alone. */
  function ClosingQuote(t: string): (r: Option<nat>)
    ensures r.Some? ==> r.value < |t| && t[r.value] == '"'
    decreases |t|
  {
    if t == [] then None
    else if t[0] == '"' then Some(0)
    else if t[0] == '\\' && |t| >= 2 then
      var r := ClosingQuote(t[2..]);
      assert r.Some? ==> t[r.value + 2] == t[2..][r.value];
      Shift(2, r)
    else
      var r := ClosingQuote(t[1..]);
      assert r.Some? ==> t[r.value + 1] == t[1..][r.value];
      Shift(1, r)
  }

  /** A character that is neither a quote nor a backslash is stepped over. */
  lemma ClosingQuotePlain(c: char, rest: string)
    requires c != '"' && c != '\\'
    ensures ClosingQuote([c] + rest) == Shift(1, ClosingQuote(rest))
  {
    assert ([c] + rest)[1..] == rest;
  }

  /** A backslash pair is stepped over. */
  lemma ClosingQuotePair(x: char, rest: string)
    ensures ClosingQuote(['\\', x] + rest) == Shift(2, ClosingQuote(rest))
  {
    assert (['\\', x] + rest)[2..] == rest;
  }

  /** Four hexadecimal digits are stepped over. */
  lemma ClosingQuoteDigits(q: string, rest: string)
    requires |q| == 4 && forall i :: 0 <= i < 4 ==> q[i] != '"' && q[i] != '\\'
    ensures ClosingQuote(q + rest) == Shift(4, ClosingQuote(rest))
  {
    assert q + rest == [q[0]] + ([q[1]] + ([q[2]] + ([q[3]] + rest)));
    ClosingQuotePlain(q[3], rest);
    ClosingQuotePlain(q[2], [q[3]] + rest);
    ClosingQuotePlain(q[1], [q[2]] + ([q[3]] + rest));
    ClosingQuotePlain(q[0], [q[1]] + ([q[2]] + ([q[3]] + rest)));
  }

  /** What the writer puts down for one character holds no closing quote. */
  lemma ClosingQuoteChar(c: char, rest: string)
    ensures ClosingQuote(EscapeChar(c) + rest) == Shift(|EscapeChar(c)|, ClosingQuote(rest))
  {
    var e := EscapeChar(c);
    if ShortEscape(c).Some? {
      ClosingQuotePair(ShortEscape(c).value, rest);
    } else if NeedsEscape(c) {
      var q := e[2..];
      assert |e| == 6 && e == ['\\', 'u'] + q;
      assert forall i :: 0 <= i < 4 ==> q[i] != '"' && q[i] != '\\';
      ClosingQuoteDigits(q, rest);
      assert ['\\', 'u'] + q + rest == ['\\', 'u'] + (q + rest);
      ClosingQuotePair('u', q + rest);
    } else {
      ClosingQuotePlain(c, rest);
    }
  }

  /** A reader that meets the escaped text followed by a quote takes that
      quote, and no earlier character, as the end of the string: no content
      can close the string early. */
  lemma EscapedStringEnds(s: string, rest: string)
    ensures ClosingQuote(Escape(s) + "\"" + rest) == Some(|Escape(s)|)
  {
    ClosingAfterEscape(s, "\"" + rest);
    assert Escape(s) + "\"" + rest == Escape(s) + ("\"" + rest);
  }

  lemma {:induction false} ClosingAfterEscape(s: string, t: string)
    requires |t| > 0 && t[0] == '"'
    ensures ClosingQuote(Escape(s) + t) == Some(|Escape(s)|)
    decreases |s|
  {
    if s == [] {
      assert Escape(s) + t == t;
    } else {
      var e, u := EscapeChar(s[0]), Escape(s[1..]);
      var w := u + t;
      assert Escape(s) + t == e + w by {
        assert Escape(s) == e + u;
      }
      assert ClosingQuote(w) == Some(|u|) by {
        ClosingAfterEscape(s[1..], t);
      }
      assert ClosingQuote(e + w) == Shift(|e|, ClosingQuote(w)) by {
        ClosingQuoteChar(s[0], w);
      }
    }
  }
}

=== FILE: postservice.dfy ===
/** `PostService`: the paginated feed (`GetAllPostsAsync`) and post creation
    (`CreatePostAsync`).  The clock, the local time zone, the new post's
    `Guid` and what the stores do on each call are parameters. */
module PostService {
  import opened Base
  import opened Strings
  import opened DateTimes
  import opened Entities
  import opened Database
  import opened Sorting
  import Cursor
  import FeedIndex
  import CacheService
  import RetryPolicies

  datatype CreatorDto = CreatorDto(id: Id, name: Option<string>)

  datatype CommentDto = CommentDto(id: Id, creator: CreatorDto, content: string, createdAt: DateTime)

  datatype PostDto = PostDto(
    id: Id, caption: string, imageUrl: string, createdAt: DateTime,
    creator: CreatorDto, recentComments: seq<CommentDto>)

  /** `PaginatedPostResponse`. */
  datatype Page = Page(posts: seq<PostDto>, nextPageToken: string)

  /** The two container names of `AzureStorageSettings` the feed uses. */
  datatype Settings = Settings(originalContainerName: string, processedContainerName: string)

  /** The world one `GetAllPostsAsync` call sees: the clock, the local zone,
      the stores, and the fault of each store call (the comment-list and
      body reads of the `i`-th cached id, the index read, the SQL query). */
  datatype Env = Env(
    now: Ticks, zone: Zone, cache: CacheService.Cache, db: Db,
    indexFault: Fault, commentsFault: nat -> Fault, bodyFault: nat -> Fault, dbFault: Fault)

  /** How many recent comments a feed item carries (`Take(2)`). */
  const RecentCount := 2

  // ---------------------------------------------------------------------
  // Recent comments

  /** `OrderByDescending(c => c.CreatedAt)`: `DateTime` order is tick order,
      whatever the `Kind`. */
  function Newest(c: Comment): int
  {
    c.createdAt.ticks
  }

  /** `comments.OrderByDescending(c => c.CreatedAt).Take(2)`. */
  function Recent(comments: seq<Comment>): (r: seq<Comment>)
  {
    Take(SortDesc(comments, Newest), RecentCount)
  }

  /** At most two comments, newest first, all taken from the input, and no
      comment left out is newer than one kept. */
  lemma RecentSpec(comments: seq<Comment>)
    ensures var r := Recent(comments);
      && |r| == (if |comments| < RecentCount then |comments| else RecentCount)
      && SortedDesc(r, Newest)
      && multiset(r) <= multiset(comments)
      && (forall x :: x in multiset(comments) - multiset(r) ==> forall y :: y in r ==> Newest(y) >= Newest(x))
  {
    var r := Recent(comments);
    TopSpec(comments, Newest, RecentCount);
    assert SortedDesc(r, Newest);
    assert multiset(r) <= multiset(comments);
  }

  function CommentDtos(comments: seq<Comment>, names: Id -> Option<string>): (r: seq<CommentDto>)
    ensures |r| == |comments|
    ensures forall i :: 0 <= i < |r| ==>
      r[i] == CommentDto(comments[i].id, CreatorDto(comments[i].creatorId, names(comments[i].creatorId)),
                         comments[i].content, comments[i].createdAt)
  {
    seq(|comments|, i requires 0 <= i < |comments| =>
      CommentDto(comments[i].id, CreatorDto(comments[i].creatorId, names(comments[i].creatorId)),
                 comments[i].content, comments[i].createdAt))
  }

  // ---------------------------------------------------------------------
  // The cache-hit path

  /** The item a cached post becomes: the cached body and its newest
      cached comments, without creator names. */
  function CachedItem(p: Post, comments: seq<Comment>): PostDto
  {
    PostDto(p.id, p.caption, p.imageUrl, p.createdAt, CreatorDto(p.creatorId, None),
            CommentDtos(Recent(comments), (_: Id) => None))
  }

  /** The hydration of one cached id: `GetLatestCommentsAsync`, then
      `GetPostByIdAsync`, whose null result is dereferenced. */
  function HydrateOne(c: CacheService.Cache, id: Id, commentsFault: Fault, bodyFault: Fault): (r: Result<PostDto>)
    ensures r.Ok? <==> commentsFault.NoFault? && bodyFault.NoFault? && id in c.bodies
    ensures commentsFault.NoFault? && bodyFault.NoFault? && id !in c.bodies ==> r == Err(NullReference)
    ensures r.Ok? ==> r.value == CachedItem(c.bodies[id], CacheService.GetLatestComments(c, id, NoFault).value)
  {
    match CacheService.GetLatestComments(c, id, commentsFault)
    case Err(e) => Err(e)
    case Ok(comments) =>
      match CacheService.GetPostById(c, id, bodyFault)
      case Err(e) => Err(e)
      case Ok(None) => Err(NullReference)
      case Ok(Some(p)) => Ok(CachedItem(p, comments))
  }

  /** The hydration step of the `k`-th cached id under `env`'s faults. */
  function HydrateIn(env: Env): (Id, nat) -> Result<PostDto>
  {
    (id: Id, k: nat) => HydrateOne(env.cache, id, env.commentsFault(k), env.bodyFault(k))
  }

  /** `Task.WhenAll` over the ids from position `i` on, in order; the first
      failing id's exception is the one that escapes. */
  function Hydrate(ids: seq<Id>, i: nat, one: (Id, nat) -> Result<PostDto>): (r: Result<seq<PostDto>>)
    requires i <= |ids|
    decreases |ids| - i
  {
    if i == |ids| then Ok([])
    else
      match one(ids[i], i)
      case Err(e) => Err(e)
      case Ok(item) =>
        match Hydrate(ids, i + 1, one)
        case Err(e) => Err(e)
        case Ok(rest) => Ok([item] + rest)
  }

  /** Hydration keeps the index order and succeeds exactly when every id's
      reads do; otherwise the exception of the first id that failed escapes. */
  lemma {:induction false} HydrateSpec(ids: seq<Id>, i: nat, one: (Id, nat) -> Result<PostDto>)
    requires i <= |ids|
    ensures var r := Hydrate(ids, i, one);
      && (r.Ok? <==> forall k :: i <= k < |ids| ==> one(ids[k], k).Ok?)
      && (r.Ok? ==> |r.value| == |ids| - i && forall k :: i <= k < |ids| ==> r.value[k - i] == one(ids[k], k).value)
      && (r.Err? ==> exists k :: i <= k < |ids| && one(ids[k], k) == Err(r.error)
                       && forall j :: i <= j < k ==> one(ids[j], j).Ok?)
    decreases |ids| - i
  {
    if i < |ids| {
      HydrateSpec(ids, i + 1, one);
    }
  }

  /** When every id's reads succeed, hydration gives their items in order. */
  lemma {:induction false} HydrateOk(ids: seq<Id>, i: nat, one: (Id, nat) -> Result<PostDto>)
    requires i <= |ids|
    requires forall k :: i <= k < |ids| ==> one(ids[k], k).Ok?
    ensures var r := Hydrate(ids, i, one);
      && r.Ok? && |r.value| == |ids| - i
      && forall k :: i <= k < |ids| ==> r.value[k - i] == one(ids[k], k).value
    decreases |ids| - i
  {
    if i < |ids| {
      HydrateOk(ids, i + 1, one);
    }
  }

  /** Without faults, a cached id with no body fails the whole page with a
      `NullReferenceException` rather than being skipped. */
  lemma MissingBodyFails(ids: seq<Id>, env: Env, k: nat)
    requires k < |ids| && ids[k] !in env.cache.bodies
    requires forall j :: 0 <= j < |ids| ==> env.commentsFault(j).NoFault? && env.bodyFault(j).NoFault?
    ensures Hydrate(ids, 0, HydrateIn(env)) == Err(NullReference)
  {
    HydrateSpec(ids, 0, HydrateIn(env));
    assert !HydrateIn(env)(ids[k], k).Ok?;
  }

  // ---------------------------------------------------------------------
  // The database path

  /** `Where(p => p.CreatedAt < lastPostTimeStamp)`: SQL compares the stored
      ticks with the parameter's ticks. */
  function Candidates(db: Db, t: DateTime): (r: seq<Post>)
    ensures forall i :: 0 <= i < |r| ==> r[i] in db.posts && r[i].createdAt.ticks < t.ticks
    ensures forall i :: 0 <= i < |db.posts| && db.posts[i].createdAt.ticks < t.ticks ==> db.posts[i] in r
  {
    Filter(db.posts, (p: Post) => p.createdAt.ticks < t.ticks)
  }

  /** `OrderByDescending(p => p.Comments.Count)`. */
  function CountOf(db: Db): Post -> int
  {
    (p: Post) => CommentCount(db, p.id)
  }

  /** `OrderByDescending(p => p.Comments.Count).Take(limit)`. */
  function Ranked(db: Db, t: DateTime, limit: int): (r: seq<Post>)
  {
    Take(SortDesc(Candidates(db, t), CountOf(db)), limit)
  }

  /** The projection of a row to a feed item, with creator names. */
  function DbItem(db: Db, p: Post): PostDto
  {
    PostDto(p.id, p.caption, p.imageUrl, p.createdAt, CreatorDto(p.creatorId, AccountName(db, p.creatorId)),
            CommentDtos(Recent(CommentsOf(db, p.id)), (id: Id) => AccountName(db, id)))
  }

  function DbPage(db: Db, t: DateTime, limit: int): (r: seq<PostDto>)
    ensures |r| == |Ranked(db, t, limit)|
    ensures forall i :: 0 <= i < |r| ==> r[i] == DbItem(db, Ranked(db, t, limit)[i])
  {
    var ranked := Ranked(db, t, limit);
    seq(|ranked|, i requires 0 <= i < |ranked| => DbItem(db, ranked[i]))
  }

  /** The database page holds posts strictly older than the cursor, at most
      `limit` of them. */
  lemma DbPageBounds(db: Db, t: DateTime, limit: int)
    ensures var ranked := Ranked(db, t, limit);
      && (forall i :: 0 <= i < |ranked| ==> ranked[i] in db.posts && ranked[i].createdAt.ticks < t.ticks)
      && (limit >= 0 ==> |ranked| <= limit)
      && (limit <= 0 ==> ranked == [])
  {
    var cands := Candidates(db, t);
    var ranked := Ranked(db, t, limit);
    TopSorted(cands, CountOf(db), limit);
    TopMembers(cands, CountOf(db), limit);
    forall i | 0 <= i < |ranked|
      ensures ranked[i] in db.posts && ranked[i].createdAt.ticks < t.ticks
    {
      assert ranked[i] in ranked;
      var j :| 0 <= j < |cands| && cands[j] == ranked[i];
    }
  }

  /** The database page is in non-increasing comment count, and no older
      post left out has more comments than one kept. */
  lemma DbPageOrder(db: Db, t: DateTime, limit: int)
    ensures var ranked := Ranked(db, t, limit);
      && SortedDesc(ranked, CountOf(db))
      && (forall x :: x in multiset(Candidates(db, t)) - multiset(ranked) ==>
            forall y :: y in ranked ==> CommentCount(db, y.id) >= CommentCount(db, x.id))
  {
    var ranked := Ranked(db, t, limit);
    TopSpec(Candidates(db, t), CountOf(db), limit);
    assert SortedDesc(ranked, CountOf(db));
  }

  /** The comment items of a post: at most two, newest first. */
  lemma RecentDtosOrder(comments: seq<Comment>, names: Id -> Option<string>)
    ensures var r := CommentDtos(Recent(comments), names);
      && |r| <= RecentCount
      && (forall i, j :: 0 <= i < j < |r| ==> r[i].createdAt.ticks >= r[j].createdAt.ticks)
  {
    var cs := Recent(comments);
    TopSorted(comments, Newest, RecentCount);
    assert forall i, j :: 0 <= i < j < |cs| ==> Newest(cs[i]) >= Newest(cs[j]);
  }

  /** The recent comments are comments of the input. */
  lemma RecentMembers(comments: seq<Comment>)
    ensures var r := Recent(comments); forall x :: x in r ==> x in comments
  {
    TopMembers(comments, Newest, RecentCount);
  }

  /** Each comment item is made from one of the post's comments. */
  lemma RecentDtosFrom(comments: seq<Comment>, names: Id -> Option<string>)
    ensures var r := CommentDtos(Recent(comments), names);
      forall i :: 0 <= i < |r| ==> exists c :: c in comments && c.id == r[i].id && c.content == r[i].content
  {
    var cs := Recent(comments);
    var r := CommentDtos(cs, names);
    RecentMembers(comments);
    forall i | 0 <= i < |r|
      ensures exists c :: c in comments && c.id == r[i].id && c.content == r[i].content
    {
      assert cs[i] in cs;
    }
  }

  /** Each database item carries its post's newest two comments, newest
      first, with the commenters' names. */
  lemma DbItemComments(db: Db, p: Post)
    ensures var r := DbItem(db, p).recentComments;
      && |r| <= RecentCount
      && (forall i, j :: 0 <= i < j < |r| ==> r[i].createdAt.ticks >= r[j].createdAt.ticks)
      && (forall i :: 0 <= i < |r| ==> exists c :: c in CommentsOf(db, p.id) && c.id == r[i].id && c.content == r[i].content)
  {
    RecentDtosOrder(CommentsOf(db, p.id), (id: Id) => AccountName(db, id));
    RecentDtosFrom(CommentsOf(db, p.id), (id: Id) => AccountName(db, id));
  }

  /** The SQL query, which can fail as a whole.  `Take(limit)` becomes
      `TOP(@limit)`, and SQL Server rejects a negative row count with a
      `SqlException`. */
  function DbRead(env: Env, t: DateTime, limit: int): (r: Result<seq<PostDto>>)
    ensures r.Ok? <==> env.dbFault.NoFault? && limit >= 0
    ensures env.dbFault.NoFault? && limit < 0 ==> r == Err(Sql)
    ensures r.Ok? ==> r.value == DbPage(env.db, t, limit) && |r.value| <= limit
  {
    match env.dbFault
    case NoFault => if limit < 0 then Err(Sql) else Ok(DbPage(env.db, t, limit))
    case FailAfter(_, e) => Err(e)
  }

  // ---------------------------------------------------------------------
  // The whole page

  /** `p.ImageUrl.Replace(OriginalContainerName, ProcessedContainerName)`. */
  function Rewrite(item: PostDto, settings: Settings): PostDto
    requires settings.originalContainerName != ""
  {
    item.(imageUrl := ReplaceAll(item.imageUrl, settings.originalContainerName, settings.processedContainerName))
  }

  /** The URL rewrite on every item; `String.Replace` throws
      `ArgumentException` on an empty search string, which only happens when
      there is an item. */
  function RewriteUrls(items: seq<PostDto>, settings: Settings): (r: Result<seq<PostDto>>)
    ensures r.Err? <==> |items| > 0 && settings.originalContainerName == ""
    ensures r.Err? ==> r.error == Argument
    ensures r.Ok? ==> |r.value| == |items|
    ensures r.Ok? && |items| > 0 ==> forall i :: 0 <= i < |items| ==> r.value[i] == Rewrite(items[i], settings)
  {
    if items == [] then Ok([])
    else if settings.originalContainerName == "" then Err(Argument)
    else Ok(seq(|items|, i requires 0 <= i < |items| => Rewrite(items[i], settings)))
  }

  /** `NextPageToken`: the cursor of the last item's `CreatedAt`, or of the
      page's own bound when the page is empty. */
  function NextCursor(items: seq<PostDto>, t: DateTime, zone: Zone): (c: string)
    ensures |c| > 0
  {
    if |items| > 0 then Cursor.GenerateCursor(items[|items| - 1].createdAt, zone)
    else Cursor.GenerateCursor(t, zone)
  }

  /** The bound a decoded cursor gives: the timestamp and its Unix
      milliseconds (`new DateTimeOffset(t)` treats a non-UTC value as local
      time and throws when the instant is out of range). */
  function BoundOf(decoded: Result<DateTime>, zone: Zone): (r: Result<(DateTime, int)>)
    ensures r.Ok? <==> decoded.Ok? && ToUnixTimeMilliseconds(decoded.value, zone).Ok?
    ensures r.Ok? ==> r.value == (decoded.value, ToUnixTimeMilliseconds(decoded.value, zone).value)
    ensures decoded.Err? ==> r == Err(decoded.error)
    ensures r.Err? && decoded.Ok? ==> r.error == ArgumentOutOfRange
  {
    match decoded
    case Err(e) => Err(e)
    case Ok(t) =>
      match ToUnixTimeMilliseconds(t, zone)
      case Err(e) => Err(e)
      case Ok(ms) => Ok((t, ms))
  }

  /** The bound of the page a cursor asks for. */
  function Bound(cursor: Option<string>, env: Env): (r: Result<(DateTime, int)>)
    ensures r.Err? ==> r.error == Format || r.error == ArgumentOutOfRange
    ensures r.Ok? ==> Cursor.DecodeCursor(cursor, env.now, env.zone) == Ok(r.value.0)
    ensures r.Ok? ==> ToUnixTimeMilliseconds(r.value.0, env.zone) == Ok(r.value.1)
    ensures Cursor.DecodeCursor(cursor, env.now, env.zone).Err? ==> r == Err(Format)
  {
    BoundOf(Cursor.DecodeCursor(cursor, env.now, env.zone), env.zone)
  }

  /** The items of the page: hydrated from the cache when the index
      returned any id, read from the database otherwise. */
  function Items(ids: seq<Id>, t: DateTime, limit: int, env: Env): (r: Result<seq<PostDto>>)
  {
    if |ids| > 0 then Hydrate(ids, 0, HydrateIn(env)) else DbRead(env, t, limit)
  }

  /** `GetAllPostsAsync` once the cursor has been decoded. */
  function PageAt(limit: int, t: DateTime, ms: int, settings: Settings, env: Env): (r: Result<Page>)
    requires CacheService.Valid(env.cache)
  {
    match CacheService.GetPaginatedPosts(env.cache, Some(ms), limit, env.indexFault)
    case Err(e) => Err(e)
    case Ok(ids) =>
      match Items(ids, t, limit, env)
      case Err(e) => Err(e)
      case Ok(items) =>
        match RewriteUrls(items, settings)
        case Err(e) => Err(e)
        case Ok(posts) => Ok(Page(posts, NextCursor(posts, t, env.zone)))
  }

  /** `GetAllPostsAsync(limit, cursor)`. */
  function GetAllPosts(limit: int, cursor: Option<string>, settings: Settings, env: Env): (r: Result<Page>)
    requires CacheService.Valid(env.cache)
    ensures Cursor.DecodeCursor(cursor, env.now, env.zone).Err? ==> r == Err(Format)
    ensures Bound(cursor, env).Ok? ==>
      r == PageAt(limit, Bound(cursor, env).value.0, Bound(cursor, env).value.1, settings, env)
  {
    match Bound(cursor, env)
    case Err(e) => Err(e)
    case Ok((t, ms)) => PageAt(limit, t, ms, settings, env)
  }

  /** A missing or empty cursor asks for everything up to now. */
  lemma NoCursorMeansNow(cursor: Option<string>, env: Env)
    requires cursor.None? || cursor == Some("")
    ensures Bound(cursor, env) == Ok((DateTime(env.now, Utc), env.now / TicksPerMillisecond - UnixEpochMilliseconds))
  {
  }

  /** The cache-hit path is taken exactly when the index returns an id:
      the database is then never consulted, however few ids came back. */
  lemma CacheHitIgnoresDb(limit: int, t: DateTime, ms: int, settings: Settings, env: Env, db2: Db, f2: Fault)
    requires CacheService.Valid(env.cache) && env.indexFault.NoFault?
    requires FeedIndex.RangeDesc(env.cache.index, ms, limit) != []
    ensures PageAt(limit, t, ms, settings, env) == PageAt(limit, t, ms, settings, env.(db := db2, dbFault := f2))
  {
    assert HydrateIn(env.(db := db2, dbFault := f2)) == HydrateIn(env);
  }

  /** On the cache-hit path the page is the hydrated ids, in index order,
      each with its URL rewritten. */
  lemma CacheHitItems(limit: int, t: DateTime, ms: int, settings: Settings, env: Env)
    requires CacheService.Valid(env.cache) && env.indexFault.NoFault?
    ensures var ids := CacheService.Ids(FeedIndex.RangeDesc(env.cache.index, ms, limit));
      var r := PageAt(limit, t, ms, settings, env);
      |ids| > 0 && r.Ok? ==>
        && settings.originalContainerName != ""
        && |r.value.posts| == |ids|
        && forall k :: 0 <= k < |ids| ==>
             HydrateIn(env)(ids[k], k).Ok? && r.value.posts[k] == Rewrite(HydrateIn(env)(ids[k], k).value, settings)
  {
    var ids := CacheService.Ids(FeedIndex.RangeDesc(env.cache.index, ms, limit));
    if |ids| > 0 && PageAt(limit, t, ms, settings, env).Ok? {
      HitNeedsName(limit, t, ms, settings, env);
      HitHydrated(limit, t, ms, settings, env);
      HydratedRewrites(ids, env, settings);
      HitPageShape(limit, t, ms, settings, env);
    }
  }

  /** Hydrated ids rewrite to one item per id, in order. */
  lemma HydratedRewrites(ids: seq<Id>, env: Env, settings: Settings)
    requires ids != [] && settings.originalContainerName != ""
    requires Hydrate(ids, 0, HydrateIn(env)).Ok?
    ensures var rw := RewriteUrls(Hydrate(ids, 0, HydrateIn(env)).value, settings);
      && rw.Ok? && |rw.value| == |ids|
      && forall k :: 0 <= k < |ids| ==>
           HydrateIn(env)(ids[k], k).Ok? && rw.value[k] == Rewrite(HydrateIn(env)(ids[k], k).value, settings)
  {
    HydrateSpec(ids, 0, HydrateIn(env));
  }

  /** A cache-hit page that succeeds had every id hydrated. */
  lemma HitHydrated(limit: int, t: DateTime, ms: int, settings: Settings, env: Env)
    requires CacheService.Valid(env.cache) && env.indexFault.NoFault?
    requires FeedIndex.RangeDesc(env.cache.index, ms, limit) != []
    requires PageAt(limit, t, ms, settings, env).Ok?
    ensures Hydrate(CacheService.Ids(FeedIndex.RangeDesc(env.cache.index, ms, limit)), 0, HydrateIn(env)).Ok?
  {
    var ids := CacheService.Ids(FeedIndex.RangeDesc(env.cache.index, ms, limit));
    assert CacheService.GetPaginatedPosts(env.cache, Some(ms), limit, env.indexFault) == Ok(ids);
    assert Items(ids, t, limit, env) == Hydrate(ids, 0, HydrateIn(env));
  }

  /** When the index returns nothing the page is the database page, each
      item with its URL rewritten. */
  lemma CacheMissItems(limit: int, t: DateTime, ms: int, settings: Settings, env: Env)
    requires CacheService.Valid(env.cache) && env.indexFault.NoFault?
    ensures var ids := CacheService.Ids(FeedIndex.RangeDesc(env.cache.index, ms, limit));
      var r := PageAt(limit, t, ms, settings, env);
      var rows := DbPage(env.db, t, limit);
      |ids| == 0 ==>
        && (r.Ok? <==> env.dbFault.NoFault? && limit >= 0 && (rows == [] || settings.originalContainerName != ""))
        && (r.Ok? ==>
              && |r.value.posts| == |rows|
              && forall k :: 0 <= k < |rows| ==> r.value.posts[k] == Rewrite(rows[k], settings))
  {
  }

  /** The next page token is the cursor of the last item's timestamp, or of
      the requested bound on an empty page. */
  lemma NextPageToken(limit: int, t: DateTime, ms: int, settings: Settings, env: Env)
    requires CacheService.Valid(env.cache)
    ensures var r := PageAt(limit, t, ms, settings, env);
      r.Ok? ==>
        && (r.value.posts == [] ==> r.value.nextPageToken == Cursor.GenerateCursor(t, env.zone))
        && (r.value.posts != [] ==>
              r.value.nextPageToken == Cursor.GenerateCursor(r.value.posts[|r.value.posts| - 1].createdAt, env.zone))
  {
    var r := PageAt(limit, t, ms, settings, env);
    if r.Ok? {
      var ids := CacheService.GetPaginatedPosts(env.cache, Some(ms), limit, env.indexFault).value;
      var items := Items(ids, t, limit, env).value;
      var posts := RewriteUrls(items, settings).value;
      assert r.value == Page(posts, NextCursor(posts, t, env.zone));
    }
  }

  /** Every URL of a page is rewritten, and nothing else about an item
      changes. */
  lemma PageUrls(limit: int, t: DateTime, ms: int, settings: Settings, env: Env)
    requires CacheService.Valid(env.cache)
    ensures var r := PageAt(limit, t, ms, settings, env);
      var ids := CacheService.GetPaginatedPosts(env.cache, Some(ms), limit, env.indexFault);
      r.Ok? ==>
        && ids.Ok? && Items(ids.value, t, limit, env).Ok?
        && RewriteUrls(Items(ids.value, t, limit, env).value, settings) == Ok(r.value.posts)
  {
  }

  // ---------------------------------------------------------------------
  // The page boundary

  /** Every indexed id has a body written by `CreatePostAsync`: a UTC
      timestamp whose Unix milliseconds are the id's score. */
  ghost predicate Consistent(c: CacheService.Cache, zone: Zone)
  {
    forall e :: e in c.index ==>
      && e.member in c.bodies
      && c.bodies[e.member].createdAt.kind == Utc
      && ToUnixTimeMilliseconds(c.bodies[e.member].createdAt, zone) == Ok(e.score)
  }

  /** No store call fails. */
  ghost predicate Reliable(env: Env)
  {
    && env.indexFault.NoFault? && env.dbFault.NoFault?
    && (forall k :: env.commentsFault(k).NoFault?)
    && (forall k :: env.bodyFault(k).NoFault?)
  }

  /** How a cached post is shown on a page without faults. */
  function Shown(c: CacheService.Cache, id: Id, settings: Settings): (d: PostDto)
    requires id in c.bodies && settings.originalContainerName != ""
    ensures d.createdAt == c.bodies[id].createdAt && d.id == c.bodies[id].id
  {
    Rewrite(CachedItem(c.bodies[id], CacheService.GetLatestComments(c, id, NoFault).value), settings)
  }

  /** On a consistent cache every id the index range returns has a body. */
  lemma RangeHasBodies(c: CacheService.Cache, zone: Zone, ms: int, limit: int)
    requires CacheService.Valid(c) && Consistent(c, zone)
    ensures var page := FeedIndex.RangeDesc(c.index, ms, limit);
      forall k :: 0 <= k < |page| ==> page[k].member in c.bodies
  {
    var page := FeedIndex.RangeDesc(c.index, ms, limit);
    FeedIndex.RangeSound(c.index, ms, limit);
    forall k | 0 <= k < |page|
      ensures page[k].member in c.bodies
    {
      assert page[k] in c.index;
    }
  }

  /** A cache-hit page whose hydration succeeds is the rewritten hydration. */
  lemma HitPageShape(limit: int, t: DateTime, ms: int, settings: Settings, env: Env)
    requires CacheService.Valid(env.cache) && env.indexFault.NoFault?
    requires settings.originalContainerName != ""
    requires var ids := CacheService.Ids(FeedIndex.RangeDesc(env.cache.index, ms, limit));
      ids != [] && Hydrate(ids, 0, HydrateIn(env)).Ok?
    ensures var ids := CacheService.Ids(FeedIndex.RangeDesc(env.cache.index, ms, limit));
      var rw := RewriteUrls(Hydrate(ids, 0, HydrateIn(env)).value, settings);
      rw.Ok? && PageAt(limit, t, ms, settings, env) == Ok(Page(rw.value, NextCursor(rw.value, t, env.zone)))
  {
    var ids := CacheService.Ids(FeedIndex.RangeDesc(env.cache.index, ms, limit));
    assert CacheService.GetPaginatedPosts(env.cache, Some(ms), limit, env.indexFault) == Ok(ids);
    assert Items(ids, t, limit, env) == Hydrate(ids, 0, HydrateIn(env));
  }

  /** A cache-hit page whose ids all have bodies and whose reads all
      succeed shows those posts, one item per entry, in order. */
  lemma HitPage(limit: int, t: DateTime, ms: int, settings: Settings, env: Env)
    requires CacheService.Valid(env.cache) && env.indexFault.NoFault?
    requires settings.originalContainerName != ""
    requires var page := FeedIndex.RangeDesc(env.cache.index, ms, limit);
      && page != []
      && forall k :: 0 <= k < |page| ==>
           page[k].member in env.cache.bodies && env.commentsFault(k).NoFault? && env.bodyFault(k).NoFault?
    ensures var page := FeedIndex.RangeDesc(env.cache.index, ms, limit);
      var r := PageAt(limit, t, ms, settings, env);
      && r.Ok? && |r.value.posts| == |page|
      && (forall k :: 0 <= k < |page| ==> r.value.posts[k] == Shown(env.cache, page[k].member, settings))
  {
    var page := FeedIndex.RangeDesc(env.cache.index, ms, limit);
    var ids := CacheService.Ids(page);
    HydrateAll(ids, env, settings);
    HitPageShape(limit, t, ms, settings, env);
  }

  /** Cached ids that all have bodies and whose reads all succeed hydrate
      and rewrite to the posts `Shown` describes, in order. */
  lemma HydrateAll(ids: seq<Id>, env: Env, settings: Settings)
    requires settings.originalContainerName != ""
    requires forall k :: 0 <= k < |ids| ==>
      ids[k] in env.cache.bodies && env.commentsFault(k).NoFault? && env.bodyFault(k).NoFault?
    ensures var h := Hydrate(ids, 0, HydrateIn(env));
      && h.Ok? && |h.value| == |ids|
      && var rw := RewriteUrls(h.value, settings);
         && rw.Ok? && |rw.value| == |ids|
         && forall k :: 0 <= k < |ids| ==> rw.value[k] == Shown(env.cache, ids[k], settings)
  {
    var one := HydrateIn(env);
    forall k | 0 <= k < |ids|
      ensures one(ids[k], k).Ok?
    {
      HitItem(env, ids[k], k, settings);
    }
    HydrateOk(ids, 0, one);
    var h := Hydrate(ids, 0, one);
    var rw := RewriteUrls(h.value, settings);
    forall k | 0 <= k < |ids|
      ensures rw.value[k] == Shown(env.cache, ids[k], settings)
    {
      assert h.value[k] == one(ids[k], k).value;
      HitItem(env, ids[k], k, settings);
    }
  }

  /** One cached id with a body and no faults is shown as `Shown` says. */
  lemma HitItem(env: Env, id: Id, k: nat, settings: Settings)
    requires id in env.cache.bodies && env.commentsFault(k).NoFault? && env.bodyFault(k).NoFault?
    requires settings.originalContainerName != ""
    ensures HydrateIn(env)(id, k).Ok?
    ensures Rewrite(HydrateIn(env)(id, k).value, settings) == Shown(env.cache, id, settings)
  {
  }

  /** On a reliable, consistent cache a cache-hit page shows the entries the
      index range returns, one item per entry, in order. */
  lemma CachePage(limit: int, t: DateTime, ms: int, settings: Settings, env: Env)
    requires CacheService.Valid(env.cache) && Consistent(env.cache, env.zone) && Reliable(env)
    requires FeedIndex.RangeDesc(env.cache.index, ms, limit) != []
    requires settings.originalContainerName != ""
    ensures var page := FeedIndex.RangeDesc(env.cache.index, ms, limit);
      var r := PageAt(limit, t, ms, settings, env);
      && (forall k :: 0 <= k < |page| ==> page[k].member in env.cache.bodies)
      && r.Ok? && |r.value.posts| == |page|
      && (forall k :: 0 <= k < |page| ==> r.value.posts[k] == Shown(env.cache, page[k].member, settings))
  {
    RangeHasBodies(env.cache, env.zone, ms, limit);
    HitPage(limit, t, ms, settings, env);
  }

  /** A UTC timestamp read back as local time is the same instant, so it
      has the same Unix milliseconds. */
  lemma LocalBound(dt: DateTime, zone: Zone, ms: int)
    requires dt.kind == Utc && ToUnixTimeMilliseconds(dt, zone) == Ok(ms)
    ensures var b := BoundOf(ToLocal(dt.ticks, zone), zone);
      && (b.Ok? <==> ToLocal(dt.ticks, zone).Ok?)
      && (b.Ok? ==> b.value == (ToLocal(dt.ticks, zone).value, ms))
  {
  }

  /** The token of a UTC timestamp decodes to the same instant read back
      as local time, so it asks for the same Unix millisecond. */
  lemma BoundOfToken(dt: DateTime, env: Env, ms: int)
    requires dt.kind == Utc && ToUnixTimeMilliseconds(dt, env.zone) == Ok(ms)
    ensures var b := Bound(Some(Cursor.GenerateCursor(dt, env.zone)), env);
      && (b.Ok? <==> ToLocal(dt.ticks, env.zone).Ok?)
      && (b.Ok? ==> b.value == (ToLocal(dt.ticks, env.zone).value, ms))
  {
    Cursor.CursorRoundTrip(dt, env.now, env.zone);
    LocalBound(dt, env.zone, ms);
  }

  /** A cache-hit page can only succeed with a container name to replace. */
  lemma HitNeedsName(limit: int, t: DateTime, ms: int, settings: Settings, env: Env)
    requires CacheService.Valid(env.cache) && env.indexFault.NoFault?
    requires FeedIndex.RangeDesc(env.cache.index, ms, limit) != []
    requires PageAt(limit, t, ms, settings, env).Ok?
    ensures settings.originalContainerName != ""
  {
    var ids := CacheService.Ids(FeedIndex.RangeDesc(env.cache.index, ms, limit));
    assert CacheService.GetPaginatedPosts(env.cache, Some(ms), limit, env.indexFault) == Ok(ids);
    HydrateSpec(ids, 0, HydrateIn(env));
  }

  /** The last item of a cache-hit page is the last entry's post, with
      a UTC timestamp of the entry's score, and the page's token is that
      timestamp's cursor. */
  lemma FirstPageLast(limit: int, t: DateTime, ms: int, settings: Settings, env: Env)
    requires CacheService.Valid(env.cache) && Consistent(env.cache, env.zone) && Reliable(env)
    requires FeedIndex.RangeDesc(env.cache.index, ms, limit) != []
    requires PageAt(limit, t, ms, settings, env).Ok?
    ensures var page := FeedIndex.RangeDesc(env.cache.index, ms, limit);
      var first := PageAt(limit, t, ms, settings, env).value;
      && |first.posts| == |page|
      && var last := first.posts[|page| - 1];
         var x := page[|page| - 1];
         && last.createdAt.kind == Utc
         && ToUnixTimeMilliseconds(last.createdAt, env.zone) == Ok(x.score)
         && first.nextPageToken == Cursor.GenerateCursor(last.createdAt, env.zone)
  {
    var c := env.cache;
    var page := FeedIndex.RangeDesc(c.index, ms, limit);
    var first := PageAt(limit, t, ms, settings, env).value;
    HitNeedsName(limit, t, ms, settings, env);
    CachePage(limit, t, ms, settings, env);
    NextPageToken(limit, t, ms, settings, env);
    var x := page[|page| - 1];
    FeedIndex.RangeSound(c.index, ms, limit);
    assert x in c.index;
    var last := first.posts[|page| - 1];
    assert last == Shown(c, x.member, settings);
    assert last.createdAt == c.bodies[x.member].createdAt;
  }

  /** The page asked for with the score of a cache-hit page's last entry
      starts with a post of that score, and with the last entry's own post
      when no other cached post shares the score. */
  lemma NextPageHead(limit: int, t: DateTime, ms: int, t2: DateTime, settings: Settings, env: Env)
    requires CacheService.Valid(env.cache) && Consistent(env.cache, env.zone) && Reliable(env)
    requires FeedIndex.RangeDesc(env.cache.index, ms, limit) != []
    requires settings.originalContainerName != ""
    ensures var page := FeedIndex.RangeDesc(env.cache.index, ms, limit);
      var x := page[|page| - 1];
      var first := PageAt(limit, t, ms, settings, env);
      var r := PageAt(limit, t2, x.score, settings, env);
      && first.Ok? && r.Ok? && r.value.posts != [] && |first.value.posts| == |page|
      && ToUnixTimeMilliseconds(r.value.posts[0].createdAt, env.zone) == Ok(x.score)
      && ((forall e :: e in env.cache.index && e.score == x.score ==> e.member == x.member)
            ==> r.value.posts[0] == first.value.posts[|page| - 1])
  {
    var c := env.cache;
    var page := FeedIndex.RangeDesc(c.index, ms, limit);
    var x := page[|page| - 1];
    CachePage(limit, t, ms, settings, env);
    FeedIndex.NextPageStartsAtLast(c.index, ms, limit);
    var next := FeedIndex.RangeDesc(c.index, x.score, limit);
    CachePage(limit, t2, x.score, settings, env);
    FeedIndex.RangeSound(c.index, x.score, limit);
    assert next[0] in c.index;
    if forall e :: e in c.index && e.score == x.score ==> e.member == x.member {
      assert next[0].member == x.member;
    }
  }

  /** The feed's page boundary repeats an item.  Asking for the page after
      a cache-hit page, with the token it returned, fails only when the
      last item's time read back as local time leaves the calendar;
      otherwise the new page starts with an item of the same Unix
      millisecond as the last item of the previous page, and with that
      very item when no other cached post shares its millisecond. */
  lemma PageBoundaryRepeats(limit: int, t: DateTime, ms: int, settings: Settings, env: Env)
    requires CacheService.Valid(env.cache) && Consistent(env.cache, env.zone) && Reliable(env)
    requires FeedIndex.RangeDesc(env.cache.index, ms, limit) != []
    requires PageAt(limit, t, ms, settings, env).Ok?
    ensures var page := FeedIndex.RangeDesc(env.cache.index, ms, limit);
      var first := PageAt(limit, t, ms, settings, env).value;
      && |first.posts| == |page|
      && var last := first.posts[|page| - 1];
         var x := page[|page| - 1];
         var r := GetAllPosts(limit, Some(first.nextPageToken), settings, env);
         && (r.Ok? <==> ToLocal(last.createdAt.ticks, env.zone).Ok?)
         && (r.Ok? ==>
               && r.value.posts != []
               && ToUnixTimeMilliseconds(r.value.posts[0].createdAt, env.zone) == Ok(x.score)
               && ToUnixTimeMilliseconds(last.createdAt, env.zone) == Ok(x.score)
               && ((forall e :: e in env.cache.index && e.score == x.score ==> e.member == x.member)
                     ==> r.value.posts[0] == last))
  {
    var c := env.cache;
    var page := FeedIndex.RangeDesc(c.index, ms, limit);
    var first := PageAt(limit, t, ms, settings, env).value;
    var x := page[|page| - 1];
    HitNeedsName(limit, t, ms, settings, env);
    FirstPageLast(limit, t, ms, settings, env);
    var last := first.posts[|page| - 1];
    var token := first.nextPageToken;
    assert token == Cursor.GenerateCursor(last.createdAt, env.zone);
    BoundOfToken(last.createdAt, env, x.score);
    var b := Bound(Some(token), env);
    assert b.Ok? <==> ToLocal(last.createdAt.ticks, env.zone).Ok?;
    GetAllPostsVia(limit, Some(token), x.score, settings, env);
    var r := GetAllPosts(limit, Some(token), settings, env);
    if b.Ok? {
      NextPageHead(limit, t, ms, b.value.0, settings, env);
      assert r == PageAt(limit, b.value.0, x.score, settings, env);
    }
    assert r.Ok? <==> b.Ok?;
    assert |first.posts| == |page|;
  }

  /** A cursor whose bound is at Unix millisecond `ms` asks for the page at
      `ms`, and a cursor without a bound fails the call. */
  lemma GetAllPostsVia(limit: int, cursor: Option<string>, ms: int, settings: Settings, env: Env)
    requires CacheService.Valid(env.cache)
    requires Bound(cursor, env).Ok? ==> Bound(cursor, env).value.1 == ms
    ensures var r := GetAllPosts(limit, cursor, settings, env);
      var b := Bound(cursor, env);
      && (b.Err? ==> r == Err(b.error))
      && (b.Ok? ==> r == PageAt(limit, b.value.0, ms, settings, env))
  {
  }

  // ---------------------------------------------------------------------
  // Post creation

  /** `CreatePostRequest`. */
  datatype CreatePostRequest = CreatePostRequest(caption: string, imageUrl: string, creatorId: Id)

  /** The two stores a post is written to. */
  datatype Store = Store(db: Db, cache: CacheService.ValidCache)

  /** The post `CreatePostAsync` builds: a fresh id and the UTC clock. */
  function NewPost(req: CreatePostRequest, id: Id, now: Ticks): (p: Post)
    ensures p.id == id && p.creatorId == req.creatorId
    ensures p.caption == req.caption && p.imageUrl == req.imageUrl
    ensures p.createdAt == DateTime(now, Utc)
  {
    Post(id, req.caption, req.imageUrl, req.creatorId, DateTime(now, Utc))
  }

  /** The score of a post in the feed index: its timestamp's Unix
      milliseconds. */
  function PostScore(p: Post, zone: Zone): Result<int>
  {
    ToUnixTimeMilliseconds(p.createdAt, zone)
  }

  /** One attempt of the retried action: `Posts.Add`, `SaveChangesAsync`
      under the database fault of attempt `n`, then `AddPostAsync` under
      the cache fault of attempt `n`.  The row stays tracked as added, so
      every attempt inserts it again. */
  function SavePost(p: Post, zone: Zone, maxSize: nat, dbFault: nat -> Fault, cacheFault: nat -> Fault): (Store, nat) -> RetryPolicies.Step<Store>
  {
    (s: Store, n: nat) =>
      var saved := InsertPost(s.db, p, dbFault(n));
      if saved.error.Some? then RetryPolicies.Step(Store(saved.db, s.cache), saved.error)
      else
        match PostScore(p, zone)
        case Err(e) => RetryPolicies.Step(Store(saved.db, s.cache), Some(e))
        case Ok(ms) =>
          var o := CacheService.AddPost(s.cache, p.id, ms, p, maxSize, cacheFault(n));
          RetryPolicies.Step(Store(saved.db, o.cache), o.error)
  }

  /** What `CreatePostAsync` returns and leaves behind. */
  datatype Created = Created(ok: bool, store: Store)

  /** `CreatePostAsync(request)`: the retried save; any exception that
      escapes the policy is logged and turned into `false`. */
  function CreatePost(req: CreatePostRequest, id: Id, now: Ticks, zone: Zone, maxSize: nat, store: Store,
                      dbFault: nat -> Fault, cacheFault: nat -> Fault): (r: Created)
    ensures r.ok <==>
      RetryPolicies.Execute(store, SavePost(NewPost(req, id, now), zone, maxSize, dbFault, cacheFault)).error.None?
  {
    var e := RetryPolicies.Execute(store, SavePost(NewPost(req, id, now), zone, maxSize, dbFault, cacheFault));
    Created(e.error.None?, e.state)
  }

  /** A UTC clock reading always has a score. */
  lemma PostScoreOfNow(req: CreatePostRequest, id: Id, now: Ticks, zone: Zone)
    ensures PostScore(NewPost(req, id, now), zone) == Ok(now / TicksPerMillisecond - UnixEpochMilliseconds)
  {
  }

  /** One attempt: once the row is in the table the attempt raises and
      changes nothing; an attempt that leaves the table alone and raises
      changes nothing at all; an attempt that changes the table stores the
      row; a successful attempt stores the row and adds the post to the
      cache with its score. */
  lemma SavePostStep(p: Post, zone: Zone, maxSize: nat, dbFault: nat -> Fault, cacheFault: nat -> Fault, s: Store, n: nat)
    ensures var st := SavePost(p, zone, maxSize, dbFault, cacheFault)(s, n);
      && (HasPost(s.db, p.id) ==> st.error.Some? && st.state == s)
      && (!CaptionFits(p.caption) ==> st.error.Some? && st.state == s)
      && (st.error.Some? && st.state.db == s.db ==> st.state == s)
      && (st.state.db != s.db ==> st.state.db == InsertPost(s.db, p, NoFault).db && HasPost(st.state.db, p.id))
      && (st.error.None? ==>
            && PostScore(p, zone).Ok?
            && st.state.db == InsertPost(s.db, p, NoFault).db && st.state.db != s.db
            && st.state.cache == CacheService.AddPost(s.cache, p.id, PostScore(p, zone).value, p, maxSize, NoFault).cache)
  {
    var st := SavePost(p, zone, maxSize, dbFault, cacheFault)(s, n);
    var saved := InsertPost(s.db, p, dbFault(n));
    if saved.db != s.db {
      var row := p.(createdAt := Stored(p.createdAt));
      assert saved.db.posts[|s.db.posts|] == row;
    }
  }

  /** Once an attempt has stored the row, every later attempt raises and
      changes nothing. */
  lemma {:induction false} StoredStaysFailed(p: Post, zone: Zone, maxSize: nat, dbFault: nat -> Fault, cacheFault: nat -> Fault,
                                             store: Store, j: nat, m: nat)
    requires j <= m
    requires HasPost(RetryPolicies.Before(store, SavePost(p, zone, maxSize, dbFault, cacheFault), j).db, p.id)
    ensures var action := SavePost(p, zone, maxSize, dbFault, cacheFault);
      && RetryPolicies.Before(store, action, m) == RetryPolicies.Before(store, action, j)
      && RetryPolicies.Attempt(store, action, m).error.Some?
    decreases m - j
  {
    var action := SavePost(p, zone, maxSize, dbFault, cacheFault);
    SavePostStep(p, zone, maxSize, dbFault, cacheFault, RetryPolicies.Before(store, action, j), j);
    if j < m {
      assert RetryPolicies.Before(store, action, j + 1) == RetryPolicies.Before(store, action, j);
      StoredStaysFailed(p, zone, maxSize, dbFault, cacheFault, store, j + 1, m);
    }
  }

  /** Attempts that all raised without storing the row left both stores
      as they were. */
  lemma {:induction false} FailedAttemptsChangeNothing(p: Post, zone: Zone, maxSize: nat, dbFault: nat -> Fault,
                                                       cacheFault: nat -> Fault, store: Store, k: nat)
    requires !HasPost(store.db, p.id)
    requires forall j :: 0 <= j < k ==> RetryPolicies.Attempt(store, SavePost(p, zone, maxSize, dbFault, cacheFault), j).error.Some?
    requires !HasPost(RetryPolicies.Before(store, SavePost(p, zone, maxSize, dbFault, cacheFault), k).db, p.id)
    ensures RetryPolicies.Before(store, SavePost(p, zone, maxSize, dbFault, cacheFault), k) == store
  {
    var action := SavePost(p, zone, maxSize, dbFault, cacheFault);
    if k > 0 {
      var prev := RetryPolicies.Before(store, action, k - 1);
      SavePostStep(p, zone, maxSize, dbFault, cacheFault, prev, k - 1);
      assert RetryPolicies.Attempt(store, action, k - 1).error.Some?;
      if HasPost(prev.db, p.id) {
        assert false;
      }
      FailedAttemptsChangeNothing(p, zone, maxSize, dbFault, cacheFault, store, k - 1);
    }
  }

  /** Every attempt starts from the table as it was or with the one row
      the post adds. */
  lemma {:induction false} TableStates(p: Post, zone: Zone, maxSize: nat, dbFault: nat -> Fault, cacheFault: nat -> Fault,
                                       store: Store, j: nat)
    ensures var b := RetryPolicies.Before(store, SavePost(p, zone, maxSize, dbFault, cacheFault), j).db;
      b == store.db || b == InsertPost(store.db, p, NoFault).db
  {
    var action := SavePost(p, zone, maxSize, dbFault, cacheFault);
    if j > 0 {
      TableStates(p, zone, maxSize, dbFault, cacheFault, store, j - 1);
      var prev := RetryPolicies.Before(store, action, j - 1);
      SavePostStep(p, zone, maxSize, dbFault, cacheFault, prev, j - 1);
      if prev.db != store.db {
        InsertPostOnce(store.db, p, NoFault, NoFault);
      }
    }
  }

  /** A taken id never succeeds and changes nothing. */
  lemma CreatePostTaken(req: CreatePostRequest, id: Id, now: Ticks, zone: Zone, maxSize: nat, store: Store,
                        dbFault: nat -> Fault, cacheFault: nat -> Fault)
    requires HasPost(store.db, id)
    ensures var r := CreatePost(req, id, now, zone, maxSize, store, dbFault, cacheFault);
      !r.ok && r.store == store
  {
    var p := NewPost(req, id, now);
    var action := SavePost(p, zone, maxSize, dbFault, cacheFault);
    var e := RetryPolicies.Execute(store, action);
    RetryPolicies.ExecuteSpec(store, action);
    StoredStaysFailed(p, zone, maxSize, dbFault, cacheFault, store, 0, e.attempts - 1);
    SavePostStep(p, zone, maxSize, dbFault, cacheFault, store, e.attempts - 1);
  }

  /** A caption longer than its column fails every attempt and changes
      nothing: all four attempts raise `DbUpdateException`, and false is
      returned. */
  lemma LongCaptionFails(req: CreatePostRequest, id: Id, now: Ticks, zone: Zone, maxSize: nat, store: Store,
                         dbFault: nat -> Fault, cacheFault: nat -> Fault)
    requires !CaptionFits(req.caption)
    ensures var r := CreatePost(req, id, now, zone, maxSize, store, dbFault, cacheFault);
      !r.ok && r.store == store
  {
    var p := NewPost(req, id, now);
    var action := SavePost(p, zone, maxSize, dbFault, cacheFault);
    var e := RetryPolicies.Execute(store, action);
    RetryPolicies.ExecuteSpec(store, action);
    RejectedStaysFailed(p, zone, maxSize, dbFault, cacheFault, store, e.attempts - 1);
  }

  /** With a caption too long, no attempt changes the stores and every one
      raises. */
  lemma {:induction false} RejectedStaysFailed(p: Post, zone: Zone, maxSize: nat, dbFault: nat -> Fault,
                                               cacheFault: nat -> Fault, store: Store, m: nat)
    requires !CaptionFits(p.caption)
    ensures var action := SavePost(p, zone, maxSize, dbFault, cacheFault);
      && RetryPolicies.Before(store, action, m) == store
      && RetryPolicies.Attempt(store, action, m).error.Some?
      && RetryPolicies.Attempt(store, action, m).state == store
  {
    var action := SavePost(p, zone, maxSize, dbFault, cacheFault);
    if m > 0 {
      RejectedStaysFailed(p, zone, maxSize, dbFault, cacheFault, store, m - 1);
      assert RetryPolicies.Before(store, action, m) == RetryPolicies.Attempt(store, action, m - 1).state;
    }
    SavePostStep(p, zone, maxSize, dbFault, cacheFault, store, m);
  }

  /** A successful run is one attempt that succeeded on the stores as
      they were. */
  lemma SuccessfulAttempt(p: Post, zone: Zone, maxSize: nat, dbFault: nat -> Fault, cacheFault: nat -> Fault, store: Store)
    returns (k: nat)
    requires !HasPost(store.db, p.id)
    ensures var action := SavePost(p, zone, maxSize, dbFault, cacheFault);
      var e := RetryPolicies.Execute(store, action);
      e.error.None? ==> action(store, k).error.None? && e.state == action(store, k).state
  {
    var action := SavePost(p, zone, maxSize, dbFault, cacheFault);
    var e := RetryPolicies.Execute(store, action);
    RetryPolicies.ExecuteSpec(store, action);
    k := e.attempts - 1;
    if e.error.None? {
      if HasPost(RetryPolicies.Before(store, action, k).db, p.id) {
        SavePostStep(p, zone, maxSize, dbFault, cacheFault, RetryPolicies.Before(store, action, k), k);
      }
      FailedAttemptsChangeNothing(p, zone, maxSize, dbFault, cacheFault, store, k);
    }
  }

  /** `CreatePostAsync` returns true only when an attempt saved the row and
      the cache write after it went through: the table then holds exactly
      one new row, the post with its timestamp read back without a kind,
      and the cache holds the post under its Unix-millisecond score as an
      uninterrupted `AddPostAsync` leaves it. */
  lemma CreatePostSpec(req: CreatePostRequest, id: Id, now: Ticks, zone: Zone, maxSize: nat, store: Store,
                       dbFault: nat -> Fault, cacheFault: nat -> Fault)
    ensures var r := CreatePost(req, id, now, zone, maxSize, store, dbFault, cacheFault);
      var p := NewPost(req, id, now);
      r.ok ==>
        && !HasPost(store.db, id) && HasAccount(store.db, req.creatorId) && CaptionFits(req.caption)
        && r.store.db == store.db.(posts := store.db.posts + [p.(createdAt := DateTime(now, Unspecified))])
        && r.store.cache == CacheService.AddPost(store.cache, id, now / TicksPerMillisecond - UnixEpochMilliseconds,
                                                 p, maxSize, NoFault).cache
  {
    var p := NewPost(req, id, now);
    if HasPost(store.db, id) {
      CreatePostTaken(req, id, now, zone, maxSize, store, dbFault, cacheFault);
    } else {
      var k := SuccessfulAttempt(p, zone, maxSize, dbFault, cacheFault, store);
      SavePostStep(p, zone, maxSize, dbFault, cacheFault, store, k);
      PostScoreOfNow(req, id, now, zone);
    }
  }

  /** Retries never store a post twice: the table ends as it was or with
      the one new row, and primary keys stay unique. */
  lemma CreatePostAtMostOnce(req: CreatePostRequest, id: Id, now: Ticks, zone: Zone, maxSize: nat, store: Store,
                             dbFault: nat -> Fault, cacheFault: nat -> Fault)
    requires KeysUnique(store.db)
    ensures var r := CreatePost(req, id, now, zone, maxSize, store, dbFault, cacheFault);
      && (r.store.db == store.db || r.store.db == InsertPost(store.db, NewPost(req, id, now), NoFault).db)
      && KeysUnique(r.store.db)
  {
    var p := NewPost(req, id, now);
    var action := SavePost(p, zone, maxSize, dbFault, cacheFault);
    var e := RetryPolicies.Execute(store, action);
    RetryPolicies.ExecuteSpec(store, action);
    var k := e.attempts - 1;
    var b := RetryPolicies.Before(store, action, k);
    TableStates(p, zone, maxSize, dbFault, cacheFault, store, k);
    TableStates(p, zone, maxSize, dbFault, cacheFault, store, k + 1);
    assert e.state == RetryPolicies.Before(store, action, k + 1);
    InsertPostUnique(store.db, p, NoFault);
    InsertPostOnce(store.db, p, NoFault, NoFault);
  }

  /** A save that commits followed by a cache write that fails makes
      `CreatePostAsync` return false with the post already in the table:
      every retry hits the duplicate key. */
  lemma SavedButFalse(req: CreatePostRequest, id: Id, now: Ticks, zone: Zone, maxSize: nat, store: Store,
                      dbFault: nat -> Fault, cacheFault: nat -> Fault)
    requires !HasPost(store.db, id) && HasAccount(store.db, req.creatorId) && CaptionFits(req.caption)
    requires dbFault(0).NoFault? && cacheFault(0).FailAfter?
    ensures var r := CreatePost(req, id, now, zone, maxSize, store, dbFault, cacheFault);
      !r.ok && HasPost(r.store.db, id)
  {
    var p := NewPost(req, id, now);
    var action := SavePost(p, zone, maxSize, dbFault, cacheFault);
    var e := RetryPolicies.Execute(store, action);
    RetryPolicies.ExecuteSpec(store, action);
    var k := e.attempts - 1;
    SavePostStep(p, zone, maxSize, dbFault, cacheFault, store, 0);
    assert RetryPolicies.Before(store, action, 1) == RetryPolicies.Attempt(store, action, 0).state;
    StoredStaysFailed(p, zone, maxSize, dbFault, cacheFault, store, 1, k + 1);
    if k > 0 {
      StoredStaysFailed(p, zone, maxSize, dbFault, cacheFault, store, 1, k);
    }
  }
}

=== FILE: retrypolicies.dfy ===
/** `RetryPolicies.CreateRetryPolicy`: a Polly wait-and-retry policy.  An
    action is tried once and retried up to three times, but only after one
    of five exception classes; the wait before retry `n` is `2^n` seconds.
    The action is a function of the state it starts from and of the attempt
    number (which fixes what the outside world does on that attempt). */
module RetryPolicies {
  import opened Base

  /** `retryCount: 3`. */
  const RetryCount := 3

  /** The exception classes the policy handles: `DbUpdateException`,
      `TimeoutException`, `InvalidOperationException`, `RedisException` and
      `ServiceBusException`. */
  predicate Handled(e: Exn)
  {
    e.DbUpdate? || e.Timeout? || e.InvalidOperation? || e.Redis? || e.ServiceBus?
  }

  function Pow2(n: nat): (p: nat)
    ensures p >= 1
  {
    if n == 0 then 1 else 2 * Pow2(n - 1)
  }

  /** `sleepDurationProvider`: `Math.Pow(2, retryAttempt)` seconds before
      retry number `retryAttempt`, counted from 1. */
  function SleepSeconds(retryAttempt: nat): nat
  {
    Pow2(retryAttempt)
  }

  /** What one attempt of the action did: the state it left and the
      exception it raised, if any.  Nothing an attempt did is undone. */
  datatype Step<S> = Step(state: S, error: Option<Exn>)

  /** What `ExecuteAsync` did: the final state, how many attempts ran, the
      waits between them (in seconds), and the exception that escaped. */
  datatype Execution<S> = Execution(state: S, attempts: nat, delays: seq<nat>, error: Option<Exn>)

  /** The policy runs again after an attempt exactly when it raised a
      handled exception and retries are left. */
  predicate Retries(step: Option<Exn>, attempt: nat)
  {
    step.Some? && Handled(step.value) && attempt < RetryCount
  }

  /** Attempts `n`, `n + 1`, ... starting from state `s`. */
  function ExecuteFrom<S>(s: S, action: (S, nat) -> Step<S>, n: nat): (r: Execution<S>)
    requires n <= RetryCount
    ensures n < r.attempts <= RetryCount + 1
    ensures |r.delays| == r.attempts - 1 - n
    decreases RetryCount - n
  {
    var step := action(s, n);
    if Retries(step.error, n) then
      var rest := ExecuteFrom(step.state, action, n + 1);
      Execution(rest.state, rest.attempts, [SleepSeconds(n + 1)] + rest.delays, rest.error)
    else
      Execution(step.state, n + 1, [], step.error)
  }

  /** `policy.ExecuteAsync(action)` from state `s`. */
  function Execute<S>(s: S, action: (S, nat) -> Step<S>): (r: Execution<S>)
    ensures 1 <= r.attempts <= RetryCount + 1
    ensures |r.delays| == r.attempts - 1
  {
    ExecuteFrom(s, action, 0)
  }

  // ---------------------------------------------------------------------
  // A reference description of the policy, attempt by attempt.

  /** The state attempt `k` starts from, when every earlier attempt failed:
      each attempt runs on what the one before it left. */
  function Before<S>(s: S, action: (S, nat) -> Step<S>, k: nat): S
  {
    if k == 0 then s else action(Before(s, action, k - 1), k - 1).state
  }

  /** Attempt `k`, run on the state the earlier attempts left. */
  function Attempt<S>(s: S, action: (S, nat) -> Step<S>, k: nat): Step<S>
  {
    action(Before(s, action, k), k)
  }

  /** The policy runs attempt `k` and the attempts after it exactly as it
      would from the start, once attempts `0 .. k-1` all asked for a retry. */
  lemma {:induction false} ExecuteFromSpec<S>(s: S, action: (S, nat) -> Step<S>, n: nat)
    requires n <= RetryCount
    ensures var r := ExecuteFrom(Before(s, action, n), action, n);
      && (forall j :: n <= j < r.attempts - 1 ==> Retries(Attempt(s, action, j).error, j))
      && !Retries(Attempt(s, action, r.attempts - 1).error, r.attempts - 1)
      && Step(r.state, r.error) == Attempt(s, action, r.attempts - 1)
      && (forall i :: 0 <= i < |r.delays| ==> r.delays[i] == Pow2(n + 1 + i))
    decreases RetryCount - n
  {
    var step := Attempt(s, action, n);
    if Retries(step.error, n) {
      assert Before(s, action, n + 1) == step.state;
      ExecuteFromSpec(s, action, n + 1);
    }
  }

  /** The policy's behaviour, stated against the attempts one by one: every
      attempt but the last raised a handled exception with retries left; the
      last did not (it succeeded, raised an unhandled exception, or was the
      fourth); its state and exception are the outcome; and the waits were
      2, 4, 8 seconds, in that order, as many as there were retries. */
  lemma ExecuteSpec<S>(s: S, action: (S, nat) -> Step<S>)
    ensures var r := Execute(s, action);
      && (forall j :: 0 <= j < r.attempts - 1 ==> Retries(Attempt(s, action, j).error, j))
      && !Retries(Attempt(s, action, r.attempts - 1).error, r.attempts - 1)
      && r.state == Attempt(s, action, r.attempts - 1).state
      && r.error == Attempt(s, action, r.attempts - 1).error
      && r.delays == [2, 4, 8][..r.attempts - 1]
  {
    ExecuteFromSpec(s, action, 0);
    var r := Execute(s, action);
    assert Pow2(1) == 2 && Pow2(2) == 4 && Pow2(3) == 8;
  }

  /** The first attempt that succeeds ends the run, without error. */
  lemma FirstSuccessStops<S>(s: S, action: (S, nat) -> Step<S>, k: nat)
    requires k <= RetryCount
    requires forall j :: 0 <= j < k ==> Retries(Attempt(s, action, j).error, j)
    requires Attempt(s, action, k).error.None?
    ensures Execute(s, action).attempts == k + 1
    ensures Execute(s, action).error.None?
    ensures Execute(s, action).state == Attempt(s, action, k).state
  {
    ExecuteSpec(s, action);
  }

  /** An exception the policy does not handle escapes at once. */
  lemma UnhandledEscapes<S>(s: S, action: (S, nat) -> Step<S>, k: nat, e: Exn)
    requires k <= RetryCount
    requires forall j :: 0 <= j < k ==> Retries(Attempt(s, action, j).error, j)
    requires Attempt(s, action, k).error == Some(e) && !Handled(e)
    ensures Execute(s, action).attempts == k + 1
    ensures Execute(s, action).error == Some(e)
  {
    ExecuteSpec(s, action);
  }

  /** An action that keeps raising handled exceptions runs four times, the
      waits total 14 seconds, and the fourth attempt's exception escapes. */
  lemma ExhaustedRetries<S>(s: S, action: (S, nat) -> Step<S>)
    requires forall j :: 0 <= j <= RetryCount ==>
      Attempt(s, action, j).error.Some? && Handled(Attempt(s, action, j).error.value)
    ensures var r := Execute(s, action);
      && r.attempts == RetryCount + 1
      && r.delays == [2, 4, 8]
      && r.error == Attempt(s, action, RetryCount).error
  {
    ExecuteSpec(s, action);
  }

  /** Conversely, a handled exception escapes only after all four attempts
      raised one. */
  lemma HandledEscapeExhausts<S>(s: S, action: (S, nat) -> Step<S>)
    ensures var r := Execute(s, action);
      r.error.Some? && Handled(r.error.value) ==>
        && r.attempts == RetryCount + 1
        && forall j :: 0 <= j <= RetryCount ==>
             Attempt(s, action, j).error.Some? && Handled(Attempt(s, action, j).error.value)
  {
    ExecuteSpec(s, action);
  }

  /** The policy's decisions depend only on the exceptions the attempts
      raise: two actions whose attempt `k` raises the same exception from
      any state run as many attempts, wait alike and end with the same
      exception. */
  lemma {:induction false} SameErrorsSameRunFrom<S, T>(s: S, a: (S, nat) -> Step<S>, t: T, b: (T, nat) -> Step<T>, n: nat)
    requires n <= RetryCount
    requires forall x: S, y: T, k: nat :: a(x, k).error == b(y, k).error
    ensures var r1 := ExecuteFrom(s, a, n);
      var r2 := ExecuteFrom(t, b, n);
      r1.attempts == r2.attempts && r1.delays == r2.delays && r1.error == r2.error
    decreases RetryCount - n
  {
    assert a(s, n).error == b(t, n).error;
    if Retries(a(s, n).error, n) {
      SameErrorsSameRunFrom(a(s, n).state, a, b(t, n).state, b, n + 1);
    }
  }

  lemma SameErrorsSameRun<S, T>(s: S, a: (S, nat) -> Step<S>, t: T, b: (T, nat) -> Step<T>)
    requires forall x: S, y: T, k: nat :: a(x, k).error == b(y, k).error
    ensures var r1 := Execute(s, a);
      var r2 := Execute(t, b);
      r1.attempts == r2.attempts && r1.delays == r2.delays && r1.error == r2.error
  {
    SameErrorsSameRunFrom(s, a, t, b, 0);
  }

  function Sum(s: seq<nat>): nat
  {
    if s == [] then 0 else s[0] + Sum(s[1..])
  }

  /** The policy waits at most 14 seconds in all. */
  lemma TotalDelayBound<S>(s: S, action: (S, nat) -> Step<S>)
    ensures Sum(Execute(s, action).delays) <= 14
  {
    ExecuteSpec(s, action);
    var d := Execute(s, action).delays;
    assert Sum([8]) == 8 && Sum([4, 8]) == 12 && Sum([2, 4, 8]) == 14;
    if |d| == 1 {
      assert d == [2];
    } else if |d| == 2 {
      assert d == [2, 4];
      assert d[1..] == [4];
    } else if |d| == 3 {
      assert d == [2, 4, 8];
    }
  }
}

=== FILE: sorting.dfy ===
/** `OrderByDescending(key)` over a sequence: an insertion sort that keeps
    equal-key elements in their input order, as LINQ's sort does. */
module Sorting {
  import opened Base

  ghost predicate SortedDesc<T>(s: seq<T>, key: T -> int)
  {
    forall i, j :: 0 <= i < j < |s| ==> key(s[i]) >= key(s[j])
  }

  /** An element no smaller than the head of a sorted sequence can go in
      front of it. */
  lemma ConsSorted<T>(h: T, rest: seq<T>, key: T -> int)
    requires SortedDesc(rest, key)
    requires rest != [] ==> key(h) >= key(rest[0])
    ensures SortedDesc([h] + rest, key)
  {
    var r := [h] + rest;
    forall i, j | 0 <= i < j < |r|
      ensures key(r[i]) >= key(r[j])
    {
      assert r[j] == rest[j - 1];
      if i > 0 {
        assert r[i] == rest[i - 1];
      }
    }
  }

  /** Puts `x` after every element whose key is at least `key(x)`. */
  function InsertDesc<T(==)>(s: seq<T>, x: T, key: T -> int): (r: seq<T>)
    requires SortedDesc(s, key)
    ensures SortedDesc(r, key)
    ensures multiset(r) == multiset(s) + multiset{x}
    ensures |r| == |s| + 1
    ensures r[0] == x || (s != [] && r[0] == s[0])
  {
    if s == [] then [x]
    else if key(s[0]) < key(x) then
      ConsSorted(x, s, key);
      [x] + s
    else
      assert s == [s[0]] + s[1..];
      var rest := InsertDesc(s[1..], x, key);
      ConsSorted(s[0], rest, key);
      [s[0]] + rest
  }

  function SortDesc<T(==)>(s: seq<T>, key: T -> int): (r: seq<T>)
    ensures SortedDesc(r, key)
    ensures multiset(r) == multiset(s)
    ensures |r| == |s|
  {
    if s == [] then []
    else
      assert s == s[..|s| - 1] + [s[|s| - 1]];
      InsertDesc(SortDesc(s[..|s| - 1], key), s[|s| - 1], key)
  }

  /** The first `k` elements of the descending order are a top-`k`: every
      element left out has a key no greater than any element kept. */
  lemma {:induction false} TakeSortedIsTop<T>(s: seq<T>, key: T -> int, k: nat)
    requires SortedDesc(s, key)
    requires k <= |s|
    ensures forall x, y :: x in s[k..] && y in s[..k] ==> key(y) >= key(x)
  {
    forall x, y | x in s[k..] && y in s[..k]
      ensures key(y) >= key(x)
    {
      var i :| 0 <= i < k && s[i] == y;
      var j :| 0 <= j < |s| - k && s[k..][j] == x;
      assert s[k + j] == x;
    }
  }

  /** `OrderByDescending(key).Take(count)`: at most `count` elements, in
      non-increasing key order, all drawn from the input, and none left out
      has a greater key than one taken. */
  lemma TopSpec<T>(s: seq<T>, key: T -> int, count: int)
    ensures var r := Take(SortDesc(s, key), count);
      && |r| == (if count <= 0 then 0 else if count < |s| then count else |s|)
      && SortedDesc(r, key)
      && multiset(r) <= multiset(s)
      && (forall x :: x in multiset(s) - multiset(r) ==> forall y :: y in r ==> key(y) >= key(x))
  {
    var sorted := SortDesc(s, key);
    var k := |Take(sorted, count)|;
    PrefixSplit(sorted, key, k);
  }

  /** The top elements are in descending order and at most `count`. */
  lemma TopSorted<T>(s: seq<T>, key: T -> int, count: int)
    ensures var r := Take(SortDesc(s, key), count);
      SortedDesc(r, key) && (count >= 0 ==> |r| <= count)
  {
    TopSpec(s, key, count);
  }

  /** Every top element is an element of the input. */
  lemma TopMembers<T>(s: seq<T>, key: T -> int, count: int)
    ensures var r := Take(SortDesc(s, key), count);
      forall x :: x in r ==> x in s
  {
    var r := Take(SortDesc(s, key), count);
    TopSpec(s, key, count);
    forall x | x in r
      ensures x in s
    {
      assert x in multiset(r);
    }
  }

  /** Splitting a descending sequence: the prefix is descending, and what
      is not in the prefix is in the suffix, whose keys are no greater. */
  lemma PrefixSplit<T>(s: seq<T>, key: T -> int, k: nat)
    requires SortedDesc(s, key) && k <= |s|
    ensures SortedDesc(s[..k], key)
    ensures multiset(s[..k]) <= multiset(s)
    ensures forall x :: x in multiset(s) - multiset(s[..k]) ==> forall y :: y in s[..k] ==> key(y) >= key(x)
  {
    assert s == s[..k] + s[k..];
    assert multiset(s) == multiset(s[..k]) + multiset(s[k..]);
    TakeSortedIsTop(s, key, k);
    forall x | x in multiset(s) - multiset(s[..k])
      ensures forall y :: y in s[..k] ==> key(y) >= key(x)
    {
      assert x in multiset(s[k..]);
      assert x in s[k..];
    }
  }
}

=== FILE: strings.dfy ===
/** Ordinal string operations of .NET used by the services: prefix and
    substring tests, `String.Replace(string, string)`, ASCII lower-casing, UTF-16 length and
    `Char.IsWhiteSpace`. */
module Strings {

  predicate StartsWith(s: string, prefix: string)
  {
    |prefix| <= |s| && s[..|prefix|] == prefix
  }

  /** `needle` occurs in `s` starting at index `i`. */
  predicate OccursAt(s: string, needle: string, i: int)
  {
    0 <= i && i + |needle| <= |s| && s[i..i + |needle|] == needle
  }

  /** Ordinal `String.Contains`. */
  predicate Contains(s: string, needle: string)
  {
    exists i | 0 <= i <= |s| :: OccursAt(s, needle, i)
  }

  /** Ordinal `String.Replace(oldValue, newValue)`: every non-overlapping
      occurrence of `pat`, scanning left to right, becomes `rep`. */
  function ReplaceAll(s: string, pat: string, rep: string): string
    requires |pat| > 0
    decreases |s|
  {
    if |s| < |pat| then s
    else if s[..|pat|] == pat then rep + ReplaceAll(s[|pat|..], pat, rep)
    else [s[0]] + ReplaceAll(s[1..], pat, rep)
  }

  /** A text occurs where it was put ... */
  lemma OccursAtEnd(p: string, needle: string)
    ensures OccursAt(p + needle, needle, |p|)
  {
    assert (p + needle)[|p|..|p| + |needle|] == needle;
  }

  /** ... and still does once more text follows. */
  lemma OccursExtend(s: string, needle: string, i: int, q: string)
    requires OccursAt(s, needle, i)
    ensures OccursAt(s + q, needle, i)
  {
    assert (s + q)[i..i + |needle|] == s[i..i + |needle|];
  }

  lemma OccursAtShift(s: string, needle: string, i: int)
    requires |s| > 0 && 0 <= i
    ensures OccursAt(s[1..], needle, i) <==> OccursAt(s, needle, i + 1)
  {
    if 0 <= i && i + |needle| <= |s| - 1 {
      assert s[1..][i..i + |needle|] == s[i + 1..i + 1 + |needle|];
    }
  }

  /** Replacing an absent substring leaves the string unchanged. */
  lemma {:induction false} ReplaceAbsent(s: string, pat: string, rep: string)
    requires |pat| > 0
    requires !Contains(s, pat)
    ensures ReplaceAll(s, pat, rep) == s
    decreases |s|
  {
    if |s| < |pat| {
    } else {
      assert s[..|pat|] != pat by {
        if s[..|pat|] == pat {
          assert s[0..0 + |pat|] == s[..|pat|];
          assert OccursAt(s, pat, 0);
        }
      }
      assert !Contains(s[1..], pat) by {
        forall i | OccursAt(s[1..], pat, i)
          ensures false
        {
          OccursAtShift(s, pat, i);
        }
      }
      ReplaceAbsent(s[1..], pat, rep);
      assert [s[0]] + s[1..] == s;
    }
  }

  /** Replacing a substring by itself is the identity. */
  lemma {:induction false} ReplaceSelf(s: string, pat: string)
    requires |pat| > 0
    ensures ReplaceAll(s, pat, pat) == s
    decreases |s|
  {
    if |s| < |pat| {
    } else if s[..|pat|] == pat {
      ReplaceSelf(s[|pat|..], pat);
      assert pat + s[|pat|..] == s;
    } else {
      ReplaceSelf(s[1..], pat);
      assert [s[0]] + s[1..] == s;
    }
  }

  /** The first occurrence is replaced and scanning resumes right after it:
      if `pat` first occurs in `p + pat + q` at index `|p|`, the result is
      `p + rep + ReplaceAll(q)`. */
  lemma {:induction false} ReplaceFirst(p: string, pat: string, q: string, rep: string)
    requires |pat| > 0
    requires forall i :: 0 <= i < |p| ==> !OccursAt(p + pat + q, pat, i)
    ensures ReplaceAll(p + pat + q, pat, rep) == p + rep + ReplaceAll(q, pat, rep)
    decreases |p|
  {
    var s := p + pat + q;
    if |p| == 0 {
      assert s == pat + q;
      assert s[..|pat|] == pat;
      assert s[|pat|..] == q;
    } else {
      assert s[0..0 + |pat|] == s[..|pat|];
      assert !OccursAt(s, pat, 0);
      assert s[..|pat|] != pat;
      assert s[1..] == p[1..] + pat + q;
      forall i | 0 <= i < |p[1..]|
        ensures !OccursAt(p[1..] + pat + q, pat, i)
      {
        OccursAtShift(s, pat, i);
      }
      ReplaceFirst(p[1..], pat, q, rep);
      assert [s[0]] + (p[1..] + rep + ReplaceAll(q, pat, rep)) == p + rep + ReplaceAll(q, pat, rep);
    }
  }

  /** ASCII lower-casing (`ToLowerInvariant` restricted to 'A'..'Z'). */
  function LowerChar(c: char): char
  {
    if 'A' <= c <= 'Z' then (c as int + 32) as char else c
  }

  function ToLower(s: string): (r: string)
    ensures |r| == |s|
    ensures forall i :: 0 <= i < |s| ==> r[i] == LowerChar(s[i])
  {
    if s == [] then [] else [LowerChar(s[0])] + ToLower(s[1..])
  }

  /** Every character is below U+0080. */
  predicate IsAscii(s: string)
  {
    forall i :: 0 <= i < |s| ==> s[i] as int < 128
  }

  lemma AsciiAppend(a: string, b: string)
    requires IsAscii(a) && IsAscii(b)
    ensures IsAscii(a + b)
  {
    forall i | 0 <= i < |a + b| ensures (a + b)[i] as int < 128 {
      if i >= |a| {
        assert (a + b)[i] == b[i - |a|];
      }
    }
  }

  /** `String.Length`: .NET strings are UTF-16, so a character above U+FFFF
      takes two code units.  SQL Server's `nvarchar(n)` limit counts the
      same units. */
  function Utf16Length(s: string): (n: nat)
    ensures |s| <= n <= 2 * |s|
    ensures (forall i :: 0 <= i < |s| ==> s[i] as int < 0x10000) ==> n == |s|
  {
    if s == [] then 0
    else (if s[0] as int < 0x10000 then 1 else 2) + Utf16Length(s[1..])
  }

  /** Code units add up over concatenation. */
  lemma {:induction false} Utf16LengthAppend(a: string, b: string)
    ensures Utf16Length(a + b) == Utf16Length(a) + Utf16Length(b)
  {
    if a == [] {
      assert a + b == b;
    } else {
      assert (a + b)[0] == a[0] && (a + b)[1..] == a[1..] + b;
      Utf16LengthAppend(a[1..], b);
    }
  }

  /** `Char.IsWhiteSpace`: the Unicode White_Space characters. */
  predicate IsWhiteSpace(c: char)
  {
    || '\U{0009}' <= c <= '\U{000D}'
    || c == '\U{0020}' || c == '\U{0085}' || c == '\U{00A0}' || c == '\U{1680}'
    || '\U{2000}' <= c <= '\U{200A}'
    || c == '\U{2028}' || c == '\U{2029}' || c == '\U{202F}' || c == '\U{205F}' || c == '\U{3000}'
  }

  /** `String.IsNullOrWhiteSpace` for a non-null string. */
  predicate IsBlank(s: string)
  {
    forall i :: 0 <= i < |s| ==> IsWhiteSpace(s[i])
  }

  /** Index of the last occurrence of `c` in `s`, or -1. */
  function LastIndexOf(s: string, c: char): (i: int)
    ensures -1 <= i < |s|
    ensures i >= 0 ==> s[i] == c
    ensures forall j :: i < j < |s| ==> s[j] != c
  {
    if s == [] then -1
    else if s[|s| - 1] == c then |s| - 1
    else LastIndexOf(s[..|s| - 1], c)
  }

  /** Index of the first occurrence of `needle` in `s`, or -1. */
  function IndexOf(s: string, needle: string): (i: int)
    ensures -1 <= i
    ensures i >= 0 ==> OccursAt(s, needle, i)
    ensures i >= 0 ==> forall j :: 0 <= j < i ==> !OccursAt(s, needle, j)
    ensures i < 0 ==> !Contains(s, needle)
  {
    IndexFrom(s, needle, 0)
  }

  function IndexFrom(s: string, needle: string, k: nat): (i: int)
    requires k <= |s| + 1
    requires forall j :: 0 <= j < k ==> !OccursAt(s, needle, j)
    ensures -1 <= i
    ensures i >= 0 ==> k <= i && OccursAt(s, needle, i)
    ensures i >= 0 ==> forall j :: 0 <= j < i ==> !OccursAt(s, needle, j)
    ensures i < 0 ==> !Contains(s, needle)
    decreases |s| + 1 - k
  {
    if k + |needle| > |s| then -1
    else if s[k..k + |needle|] == needle then k
    else IndexFrom(s, needle, k + 1)
  }
}
